=== FILE: README.md ===
# wb-ms-integration in Dafny

A model of the reconciliation logic that keeps Wildberries (WB) marketplace
orders and supplies in step with documents in MoySklad (MS). It covers four
parts of the integration:

- **FBS order flow** (`app/orders_sync.py`):
  - the status mapper `resolve_ms_customerorder_state_id`;
  - the CustomerOrder and Demand payload builders;
  - `_state_id_from_href`;
  - the `createdAt` cutoff filter;
  - the per-order loop of `main`, modelled as a fold over the filtered orders. The fold threads the `active` set, the `ms_created` set, the MS ledger and the summary counters.
- **FBW supply flow** (`FBW/app/supplies_sync.py`):
  - the moment, comment and article helpers;
  - the find-before-create steps `_ensure_customerorder`, `_ensure_move` and `_ensure_demand`;
  - the planned-date update;
  - `main`, split into its bootstrap, new-supply pass and active-supply pass, over the persisted `{bootstrappedAt, supplies}` state.
- **Stock push** (`app/stocks_sync.py`): `_calc_available`, `build_stocks_payload` (SKU resolution with the per-href cache and its counters), and `chunk`.
- **MS client** (`app/ms_client.py`): the `get_by_href` path derivation and the `report_stock_by_store` pagination loop.

Python strings are `seq<char>`. `strip()`, `rstrip(c)`, `lstrip(c)`, `find`, `replace`, `split(..)[-1]` and `str(int)` are written out in module `Text`. `IsSpace` uses the exact `str.isspace()` set.

MoySklad is modelled as a `Ledger`: an append-only sequence of documents.
- A document's id is its index.
- Lookups by external code or name return the first match.
- Updates change one document in place.

Everything a run reads from outside is a parameter of the run (`Env`, `FbwEnv`):
- configuration;
- WB statuses;
- the catalog by article;
- a supply's goods;
- whether applying a document succeeds;
- the current instant.

Timestamps are abstract ordered numbers (`Stamp`).

Modules, one per file: `Wrappers`, `Text`, `Assoc` (an insertion-ordered dictionary, as Python's `dict`), `Ledger`, `MsClient`, `OrderStatus`, `OrderPayload`, `OrderSync`, `OrderIdempotence`, `SupplyText`, `SupplyDocs`, `SupplySync`, `SupplyIdempotence`, `Stocks`.

## Model

| member | source | states |
|---|---|---|
| Text.Strip | app/orders_sync.py:28 | `str.strip()`: the result is trimmed, at most as long as the input, and empty exactly when the input is all whitespace |
| Text.StripCuts | app/orders_sync.py:28 | what `str.strip()` returns is a slice `s[i..j]` of its input with only whitespace before `i` and after `j`, so with Text.Strip's contract it is exactly the input without its whitespace ends |
| Text.StripNoop | FBW/app/supplies_sync.py:168-169 | stripping text that is already trimmed gives it back unchanged, so a value written trimmed compares equal when read back through `strip()` |
| Text.RStripChar | app/orders_sync.py:154 | `rstrip("/")`: a prefix of the input that does not end in the character, and every character removed after it is that character |
| Text.LStripChar | app/ms_client.py:32 | `lstrip("/")`: a suffix of the input that does not start with the character, and every character removed before it is that character |
| Text.LastSegment | app/orders_sync.py:154 | `split(sep)[-1]`: a suffix of the input with no separator in it, preceded by the separator unless it is the whole input |
| Text.LastSegmentAfterSep | app/orders_sync.py:154 | the segment after the last separator of `a + sep + tail` is exactly `tail` when `tail` holds no separator |
| Text.LastSegmentSnoc | app/orders_sync.py:154 | appending a non-separator character appends it to the last segment |
| Text.Find | app/ms_client.py:29-30 | `marker in href` and `split(marker, 1)`: the index of the first occurrence, or none when no occurrence exists |
| Text.ReplaceCharConcat | FBW/app/supplies_sync.py:44 | `replace` distributes over concatenation |
| Text.ReplaceCharSingle | FBW/app/supplies_sync.py:44 | a single character is replaced exactly when it is the pattern; with ReplaceCharConcat this fixes `replace` on every input |
| Text.ReplaceCharEnds | FBW/app/supplies_sync.py:43-44 | the first and last characters of a replacement come from the input's ends, or from the replacement text where those were the pattern |
| Text.ParseNatToString | app/orders_sync.py:80 | `str(n)` of an order id reads back as `n` |
| Text.NatToStringInjective | app/orders_sync.py:284 | two order ids give the same external code exactly when they are equal |
| SupplyText.NormalizeMoment | FBW/app/supplies_sync.py:29-50 | every branch. Blank gives "". A 10-character date gets `T00:00:00` and the offset. A moment that marks an offset has each "Z" replaced by "+00:00" and keeps no "Z". A moment with a "T" and no offset gets the offset. Anything else is kept |
| SupplyText.NormalizeMomentZulu | FBW/app/supplies_sync.py:43-44 | a moment `x + "Z"` (with no other "Z") becomes `x + "+00:00"` |
| SupplyText.NormalizeMomentTrimmed | FBW/app/supplies_sync.py:164-169 | with a trimmed offset the normalised moment is trimmed, so it survives the `strip()` on read-back |
| SupplyText.Comment | FBW/app/supplies_sync.py:66-69 | `"number - dest"` with both stripped when the stripped dest is non-empty, else the stripped number |
| SupplyText.ExtractGoodArticle | FBW/app/supplies_sync.py:72-79 | the first non-empty of article, vendorCode, supplierArticle, stripped (so a blank article hides the later fields) |
| Ledger.FindByCode | app/orders_sync.py:292 | lookup by external code: the first document of that kind with that code, and none exactly when there is no such document |
| Ledger.FindByName | FBW/app/supplies_sync.py:106 | lookup by name: the first document of that kind with that name, and none exactly when there is no such document |
| Ledger.FindAfterCreate | FBW/app/supplies_sync.py:106-108 | a document created after a miss is what the next lookup by its code finds |
| Ledger.CreateAfterMissKeepsUnique | FBW/app/supplies_sync.py:187-189 | creating only after the lookup missed keeps external codes unique per kind |
| Ledger.CreateAfterMissKeepsOk | FBW/app/supplies_sync.py:233-235 | creating an unlinked document only after its lookup missed keeps the ledger invariant: codes unique per kind, and every link pointing back to an earlier CustomerOrder |
| Ledger.LookupsSurviveUpdate | app/orders_sync.py:361 | in-place state or date updates change no lookup result |
| Ledger.SetState | app/orders_sync.py:306 | a state update changes only the state of its own document |
| MsClient.PathFromHref | app/ms_client.py:14-34 | no request exactly when the href is blank |
| MsClient.AbsoluteHrefRoundTrip | app/ms_client.py:20-26 | an absolute href under the client's base URL is requested as exactly itself |
| MsClient.RelativeHrefRequest | app/ms_client.py:22-23 | an href that starts with "/" is appended to the base URL unchanged |
| MsClient.ForeignHrefPath | app/ms_client.py:28-32 | any other href is cut after the first `/api/remap/1.2`, or else becomes "/" + href without leading slashes |
| MsClient.Page | app/ms_client.py:44-50 | a page holds at most `limit` rows, and exactly `limit` while the report has that many left |
| MsClient.ReportStockByStore | app/ms_client.py:36-56 | the collected rows are the whole report in order, and the request count is the one whose last page is the first short one: (requests − 1) · limit ≤ report length < requests · limit |
| OrderStatus.Configured | app/orders_sync.py:53 | `id or None`: present exactly when configured, and then that id |
| OrderStatus.ResolveStateId | app/orders_sync.py:31-75 | a missing status gives no target. Any target is a configured id, and one that some mapping rule allows. With a Demand, a cancellation gives nothing |
| OrderStatus.CancelBeforeDemand | app/orders_sync.py:49-53 | before any Demand, a cancellation pair maps to the cancelled id (or nothing when that is unset) |
| OrderStatus.NoCancelAfterDemand | app/orders_sync.py:49-53 | once a Demand exists, a cancellation pair yields no target |
| OrderStatus.NewWaiting | app/orders_sync.py:56-58 | ("new", "waiting") maps to the new-state id |
| OrderStatus.ConfirmTwoStep | app/orders_sync.py:60-64 | ("confirm", "waiting") gives confirm2 for an order in `active` when confirm2 is set; otherwise confirm, else confirm2, else nothing |
| OrderStatus.ConfirmNeverRegresses | app/orders_sync.py:60-64 | the repeat sighting of a confirm gives the first answer or confirm2, never a step back |
| OrderStatus.CompleteProgression | app/orders_sync.py:66-73 | "complete" with waiting, sorted and sold maps to shipped, delivering and delivered |
| OrderStatus.ActiveOnlyMattersForConfirm | app/orders_sync.py:31-75 | membership in `active` changes the answer for the confirm pair only |
| OrderPayload.DefaultPrice | app/orders_sync.py:85-86 | the first sale price's value, or 0 when there is none or it has no value |
| OrderPayload.ExtractArticle | app/orders_sync.py:27-28 | the stripped article: a slice of the raw article with only whitespace cut from its ends, trimmed, and empty exactly when the raw article is blank |
| OrderPayload.BuildOrderPayload | app/orders_sync.py:78-121 | name = externalCode = the order id. It has exactly one position, with quantity = reserve = 1, the default price and the product's meta. The state is set exactly when the new-state id is configured, and that state reads back as the id |
| OrderPayload.DemandPositions | app/orders_sync.py:128-140 | only positions with assortment meta are kept, each as its Demand line; with DemandPositionsConcat/Single the order and multiplicity are those of the input |
| OrderPayload.DemandPositionsConcat | app/orders_sync.py:128-140 | the Demand positions of consecutive parts are the concatenation of each part's |
| OrderPayload.DemandPositionsSingle | app/orders_sync.py:129-139 | one position gives its Demand line when it has meta, and nothing otherwise |
| OrderPayload.BuildDemandPayload | app/orders_sync.py:124-150 | named "WB-" + the order's code (or its name), filed under the same code, linked to its order, with the order's organization, agent and store and exactly the filtered positions; the payload sets no state and is not applied |
| OrderPayload.StateIdFromHref | app/orders_sync.py:153-154 | "" for "", and otherwise the last "/"-free segment of the href after trailing slashes are removed |
| OrderPayload.StateIdRoundTrip | app/orders_sync.py:113-119 | the state href built for a plain id reads back as that id |
| OrderSync.FilterByCreatedAt | app/orders_sync.py:216-231 | kept plus skipped equals listed, and every kept order was created at or after the cutoff |
| OrderSync.FilterByCreatedAtKeeps | app/orders_sync.py:219-231 | an order is kept exactly when it is listed and was created at or after the cutoff |
| OrderSync.FilterByCreatedAtConcat | app/orders_sync.py:219-231 | filtering consecutive listings filters each part, so kept orders keep their listing order and multiplicity |
| OrderSync.FilterByCreatedAtSingle | app/orders_sync.py:220-231 | one order is kept exactly when it was created at or after the cutoff, and counted as skipped otherwise |
| OrderSync.CancelOrder | app/orders_sync.py:300-307 | cancelling touches only the order's own documents and keeps the ledger invariant |
| OrderSync.UpdateOrderState | app/orders_sync.py:351-361 | only the order's state changes, to the target when there is one |
| OrderSync.FinishDemand | app/orders_sync.py:381-408 | the new Demand is applied exactly when applying succeeded. It gets the `MS_DEMAND_STATUS_ID` state when that is set, and keeps its state otherwise. Its other fields and every other document are unchanged |
| OrderSync.CreateDemand | app/orders_sync.py:376-414 | exactly one Demand is appended, and earlier documents are unchanged. Apart from its applied flag and state, it is `build_ms_demand_payload` of the order and its positions. It is applied exactly when applying succeeded. It carries the configured Demand state unless that is unset or applying failed hard, in which case it has no state |
| OrderSync.FileDemand | app/orders_sync.py:381-383 | the appended document is exactly `build_ms_demand_payload` of the order and its positions, and earlier documents are unchanged |
| OrderSync.Advance | app/orders_sync.py:351-419 | a Demand is created exactly when the updated state allows one. Then the order leaves `active` unless applying failed hard; otherwise it joins `active` |
| OrderSync.AdvanceDocs | app/orders_sync.py:351-414 | the order gets its target state, and a Demand is appended exactly when one is created. That Demand is named "WB-" + the order id, filed under the id, linked to the order and holds the order's filtered positions. It has the configured Demand state when applying did not fail hard |
| OrderSync.AdvanceTally | app/orders_sync.py:410 | every Demand appended by a step that lets the run carry on is counted; a hard apply failure re-raises at line 403 after the Demand exists and before the count |
| OrderSync.NewOrder | app/orders_sync.py:330-348 | the CustomerOrder payload is appended, its id joins `ms_created`, and `created_orders` goes up by one |
| OrderSync.Onboard | app/orders_sync.py:320-349 | a blank article or an article not in the catalog skips the order untouched; otherwise the order is created and advanced |
| OrderSync.StepWithId | app/orders_sync.py:280-419 | a known Demand or a cancellation removes the order from `active`. So does a created Demand, unless applying failed hard. A waiting order is added. Skips leave `active` and the ledger unchanged |
| OrderSync.StepWithIdEffects | app/orders_sync.py:289-419 | a step touches only documents filed under its own order id, keeps the ledger invariant, and counts every document it creates |
| OrderSync.Step | app/orders_sync.py:280-282 | an order without an id changes nothing; any other step keeps every other order as it was |
| OrderSync.Pass | app/orders_sync.py:280-419 | the ledger only grows and stays well-formed, and ids not among the orders keep their `active` membership |
| OrderSync.Run | app/orders_sync.py:216-421 | the ledger only grows. `active` is saved only when the loop completes, and ids not among the kept orders keep their membership |
| OrderSync.RunAsWritten | app/orders_sync.py:268-278 | the run as written leaves the ledger and both saved sets untouched and never completes |
| OrderSync.ConfirmFieldsAbortRun | app/orders_sync.py:270-273 | for a new order with a catalogued article, the intended run files its CustomerOrder; the run as written files nothing |
| OrderIdempotence.SecondRunCreatesNothing | app/orders_sync.py:280-421 | after a run that completes, a second run over the same data (duplicate listings included) completes, creates no document, and saves the same sets |
| OrderIdempotence.SettledStepIsQuiet | app/orders_sync.py:289-419 | the step of a settled order creates nothing and leaves `active` alone |
| OrderIdempotence.StepSettles | app/orders_sync.py:289-419 | a step that lets the run carry on leaves its order settled |
| OrderIdempotence.StepKeepsSettled | app/orders_sync.py:280-419 | a later step, for another order or the same id listed again, keeps a settled order settled |
| OrderIdempotence.SameIdStaysSettled | app/orders_sync.py:205-214 | an order listed twice stays settled after the step for its second listing |
| OrderIdempotence.PassSettles | app/orders_sync.py:280-419 | a completed pass leaves every one of its orders settled |
| OrderIdempotence.SettledPassIsQuiet | app/orders_sync.py:280-419 | a pass over settled orders completes, creates nothing, and keeps `active` and `ms_created` |
| OrderIdempotence.QuietWhenDemandExists | app/orders_sync.py:289-298 | an order whose Demand exists is a no-op once out of `active` |
| OrderIdempotence.QuietWhenCancelled | app/orders_sync.py:300-311 | a cancellation before any Demand, once the order is out of `active`, creates nothing and leaves both saved sets alone |
| OrderIdempotence.QuietWhenSkipped | app/orders_sync.py:320-328 | an order without a usable article or product is a no-op |
| OrderIdempotence.QuietWhenWaiting | app/orders_sync.py:415-419 | an order waiting in `active` in a no-Demand state is a no-op |
| OrderIdempotence.TargetAgain | app/orders_sync.py:60-64 | asking again once the order is in `active` gives the same target or confirm2 |
| OrderIdempotence.StillNoDemand | app/orders_sync.py:270-278 | a state that allowed no Demand still allows none after the repeat target, because confirm2 is in the deny set |
| SupplyDocs.Classify | FBW/app/supplies_sync.py:112-123 | a good is skipped exactly when its article is blank or its quantity is not positive. It is missing exactly when the catalog lacks its article, and otherwise it becomes a line for that product and quantity |
| SupplyDocs.ClassifyAll | FBW/app/supplies_sync.py:112-123 | one verdict per good, in order |
| SupplyDocs.LinesOfMembers | FBW/app/supplies_sync.py:112-123 | the position list holds exactly the lines of the goods classified as lines, and is empty exactly when there are none |
| SupplyDocs.Lines | FBW/app/supplies_sync.py:110-125 | every served good contributes its line, every line comes from a served good, and the list is empty exactly when no good is served |
| SupplyDocs.LinesConcat | FBW/app/supplies_sync.py:112-123 | the lines of consecutive goods are the concatenation of each part's, so order and multiplicity follow the goods |
| SupplyDocs.LinesSingle | FBW/app/supplies_sync.py:113-123 | one good gives its line when it is served, and nothing otherwise |
| SupplyDocs.NotFound | FBW/app/supplies_sync.py:111-121 | `not_found` holds exactly the articles of well-formed goods the catalog lacks |
| SupplyDocs.ExistingOrder | FBW/app/supplies_sync.py:103-108 | the order filed under `fbw-<number>` by code, else by name, and none exactly when both lookups miss |
| SupplyDocs.NewSupplyOrder | FBW/app/supplies_sync.py:110-154 | with no lines nothing is created; otherwise one CustomerOrder is appended with exactly those lines |
| SupplyDocs.EnsureCustomerOrder | FBW/app/supplies_sync.py:92-154 | an existing order is returned without creating. An order exists afterwards exactly when one existed or some good is served, and the lookup then finds the returned order |
| SupplyDocs.EnsureCustomerOrderIdempotent | FBW/app/supplies_sync.py:103-108 | ensuring the order twice gives what ensuring it once gave |
| SupplyDocs.EnsureDoc | FBW/app/supplies_sync.py:187-189 | a document found by code is returned as is; otherwise exactly one is appended, applied exactly when applying succeeds |
| SupplyDocs.EnsureDocIdempotent | FBW/app/supplies_sync.py:233-235 | ensuring a document twice gives what ensuring it once gave |
| SupplyDocs.EnsureMove | FBW/app/supplies_sync.py:176-219 | a Move filed under its code exists afterwards. An existing one changes nothing; otherwise one is appended with exactly the served lines, applied exactly when applying succeeds |
| SupplyDocs.EnsureDemand | FBW/app/supplies_sync.py:222-270 | a Demand filed under its code exists afterwards. An existing one changes nothing; otherwise one is appended, linked to the order, with the served lines priced, applied exactly when applying succeeds |
| SupplyDocs.SetPlannedIfChanged | FBW/app/supplies_sync.py:165-172 | the planned moment is written only when the new value is non-empty and differs from the stripped current one |
| SupplyDocs.UpdatePlannedDate | FBW/app/supplies_sync.py:157-173 | the order's planned moment becomes the normalised date when that is non-empty and new; no other document changes |
| SupplyDocs.UpdatePlannedDateIdempotent | FBW/app/supplies_sync.py:157-173 | updating the planned date twice gives what updating it once gave |
| SupplySync.IndexSuppliesHas | FBW/app/supplies_sync.py:306-312 | the index holds exactly the ids of listed supplies that have one |
| SupplySync.IndexSuppliesLast | FBW/app/supplies_sync.py:306-312 | the supply kept under an id is the last one listed with it |
| SupplySync.ImportNew | FBW/app/supplies_sync.py:327-355 | the supply is recorded exactly when an order is obtained; it is recorded with its number, that order and both flags down |
| SupplySync.ImportOne | FBW/app/supplies_sync.py:315-355 | a new supply is recorded exactly when it is unknown, created after the bootstrap, numbered, and obtains an order; no other record changes |
| SupplySync.ImportFromNew | FBW/app/supplies_sync.py:314-355 | a supply recorded by the pass was listed, created after the bootstrap, and numbered |
| SupplySync.ImportFromRecords | FBW/app/supplies_sync.py:314-355 | a listed supply that meets the conditions and has a served good is recorded by the pass |
| SupplySync.FindSupplyOrder | FBW/app/supplies_sync.py:367-370 | the order by name `fbw-<number>`, else by code, and none exactly when both miss |
| SupplySync.PlanStep | FBW/app/supplies_sync.py:377-384 | the planned date is updated only while the Demand flag is down |
| SupplySync.MoveStep | FBW/app/supplies_sync.py:394-407 | with status 3 and the Move flag down, a Move filed under `FBW:<name>:MOVE` exists afterwards; otherwise nothing changes |
| SupplySync.DemandStep | FBW/app/supplies_sync.py:409-422 | with status 5 and the Demand flag down, a Demand filed under `FBW:<name>:DEMAND` exists afterwards; otherwise nothing changes |
| SupplySync.NextInfo | FBW/app/supplies_sync.py:407-422 | a flag is up afterwards exactly when it was up or its status is seen; number and order are kept |
| SupplySync.ActiveOne | FBW/app/supplies_sync.py:358-424 | only the acted-on supply's record changes, to its raised flags; its Move and Demand exist afterwards when its status called for them |
| SupplySync.ActivePass | FBW/app/supplies_sync.py:357-424 | no record is lost or added, flags are never reset, and the ledger only grows |
| SupplySync.SupplyRun | FBW/app/supplies_sync.py:273-427 | the first run only bootstraps. Later runs keep the marker, never forget a supply, never reset a flag, and only grow the ledger |
| SupplySync.OldSuppliesNeverImported | FBW/app/supplies_sync.py:314-321 | an unknown id listed only with creation dates at or before the bootstrap stays unknown |
| SupplySync.NewSupplyRecorded | FBW/app/supplies_sync.py:314-355 | an id last listed after the bootstrap, numbered, with a served good, is recorded by the run |
| SupplySync.LastListedUnique | FBW/app/supplies_sync.py:306-312 | the last listing of an id is unique |
| SupplyIdempotence.SecondSupplyRunQuiet | FBW/app/supplies_sync.py:273-427 | after a bootstrapped run, a second run over the same listing appends no document and saves the same state |
| SupplyIdempotence.FirstRunLeaves | FBW/app/supplies_sync.py:314-424 | after a run every listed supply is handled and every recorded supply has the flags its status calls for |
| SupplyIdempotence.ImportFromIdles | FBW/app/supplies_sync.py:315-355 | the new-supply pass over handled supplies changes nothing |
| SupplyIdempotence.ImportRestHandles | FBW/app/supplies_sync.py:315-355 | the new-supply pass leaves each of its supplies handled |
| SupplyIdempotence.ActivePassSettles | FBW/app/supplies_sync.py:357-424 | the active pass leaves every recorded supply's flags settled |
| SupplyIdempotence.ActivePassQuiet | FBW/app/supplies_sync.py:357-424 | the active pass over settled supplies changes no record and appends no document |
| SupplyIdempotence.ActivePassKeepsOrders | FBW/app/supplies_sync.py:357-424 | the active pass creates no CustomerOrder, so every order lookup survives it |
| Stocks.CalcAvailable | app/stocks_sync.py:13-17 | never negative, at least stock minus reserve, and equal to it unless that is negative |
| Stocks.PayloadSound | app/stocks_sync.py:57-69 | every line has a non-empty SKU and a non-negative amount, and comes from a row that resolved to that SKU |
| Stocks.PayloadComplete | app/stocks_sync.py:57-69 | every row with a SKU gives the line of that SKU and its available amount |
| Stocks.PayloadLinesClean | app/stocks_sync.py:33-34 | SKUs are stripped and non-empty |
| Stocks.ResolveTrimmed | app/stocks_sync.py:50 | a resolved SKU is trimmed or empty |
| Stocks.FetchSetNeeded | app/stocks_sync.py:39-47 | an href is fetched exactly when some row has no inline SKU and carries it |
| Stocks.RowSku | app/stocks_sync.py:36-62 | a row's SKU is the inline one, else the cached or fetched one. A fetch happens exactly for a new href of a row without inline SKU, and the cache stays faithful to the lookup |
| Stocks.TakeRow | app/stocks_sync.py:57-69 | one loop iteration extends the payload by the row's line when it has a SKU and counts the send |
| Stocks.BuildWith | app/stocks_sync.py:20-71 | the cached loop computes the cache-free payload. total = rows and sent + skipped = total. Each needed href is fetched exactly once and `assortment_fetch` counts the fetches |
| Stocks.BuildStocksPayload | app/stocks_sync.py:20-71 | the same, with SKU lookups through `get_by_href` |
| Stocks.Chunk | app/stocks_sync.py:74-75 | flattening the chunks gives the input back; every chunk is non-empty and at most `n` long, and all but the last are exactly `n` |

## Left out

- Text.Strip: its own contract states the form of the result (trimmed, no longer, empty exactly for blank input); what it contains, a whitespace-bounded slice of the input, is stated by Text.StripCuts instead, so that the many proofs that mention `Strip` do not all carry that existential.
- I/O, logging, `time.sleep` throttling, and loading and saving the JSON state files are left out. The persisted sets and the supply state are values passed into and out of a run.
- HTTP transport (`app/http.py`) is left out. Only applying an FBS Demand can fail in the model: `OtherError` stops the run without saving `active`, as the re-raise at app/orders_sync.py:403 does. Any other request that fails aborts the real run, and the FBW state is then not saved. The model gives every other ledger call success, because its failure is a transport fault rather than a decision of the logic.
- The MoySklad client methods that the flows call have no body in the source files: `MSClient` in app/ms_client.py defines only `get_by_href` and `report_stock_by_store`. What each of the others does is therefore an assumption of the model, not something read from the source:
  - `find_customer_order_by_external_code`, `find_demand_by_external_code` and `find_move_by_external_code` are `Ledger.FindByCode`: the first document of that kind with that external code, or none.
  - `find_customer_order_by_name` is `Ledger.FindByName`, with the same first-match rule.
  - `create_customer_order`, `create_demand` and `create_move` are `Ledger.Create`: the payload is appended as a new document, and the next lookup by its code finds it (`Ledger.FindAfterCreate`).
  - `update_customer_order_state`, `update_customer_order_date` and `update_demand_state` change that one field of that one document in place (`Ledger.SetState`, `Ledger.SetPlanned`).
  - `set_demand_applicable`, `try_apply_move` and `try_apply_demand` set the document's applied flag when applying succeeds. Whether it succeeds is a parameter of the run.
  - `find_product_by_article` is a catalog map. `make_position` is `SupplyDocs.LineFor`, a CustomerOrder line without a price. `get_product_sale_price_value` is `DefaultPrice`. `get_customer_order_positions` returns the order's stored positions.
  Every idempotence result (`OrderIdempotence.SecondRunCreatesNothing`, `SupplyIdempotence.SecondSupplyRunQuiet`) rests on these semantics. Against a MoySklad whose lookups do not see a document created earlier in the same run, they do not hold.
- Float parsing and `int()` truncation are left out. Prices (`int(sale_prices[0]["value"])`, app/orders_sync.py:86) and stock and reserve (app/stocks_sync.py:14-15) are modelled as integers. So are supply quantities, which `_extract_qty` (FBW/app/supplies_sync.py:82-89) reads as floats and which an unparsable value turns into 0. Fractional values are outside the model.
- `datetime.fromisoformat` and timezone arithmetic are abstracted to `Stamp`: `Absent`, `Malformed` or an ordered instant.
- `test_mode` branches are left out: the model is the production path, where backend calls are made and `has_demand` is looked up.
- The WB listing pagination (app/orders_sync.py:204-214) and the status and product prefetch (app/orders_sync.py:238-256) are left out. Their results enter as the listing, the status map and the catalog.
- The `main` of the stock push is left out. It calls `build_stocks_payload(rows)` without its client argument (app/stocks_sync.py:99) and calls a `wb.set_stocks` that the WB client does not define.
- `supplyID` is modelled as a JSON number or string. A `supplyID` of 0 or "" is falsy, so it gives no number and the supply is never imported, as at FBW/app/supplies_sync.py:323. Other JSON types for it are left out.
- MsClient.ReportStockByStore: requires `limit > 0`. With `limit = 0` the source loop never ends, because no page is shorter than 0.
- Stocks.Chunk: requires `n > 0`. Python's `range` with step 0 raises.
- SupplyDocs.UpdatePlannedDateIdempotent: assumes MoySklad returns `deliveryPlannedMoment` exactly as written. MoySklad may reformat moments, and a reformatted value would be written again on the next run. NormalizeMomentTrimmed covers only the `strip()` on read-back.
- OrderIdempotence.SecondRunCreatesNothing: requires `WellFormedConfig`, that is, every configured state id is plain (no "/"). A state id then reads back from its href as itself. With a "/" in an id, `_state_id_from_href` returns a different id and the deny set no longer recognises the state.
- SupplyIdempotence.SecondSupplyRunQuiet: requires `NumbersIdentify`: two supplies listed under different ids do not share a non-empty number. Without it, a supply that found no order on the first run can find the order that a later supply with the same number created, and be imported on the second run.
- The ledger has no concurrency. Another writer to MoySklad between two lookups is outside the model.

## Findings

| source | as written | input that shows it | evidently intended | confidence | as-written member | corrected member |
|---|---|---|---|---|---|---|
| app/orders_sync.py:272 | The deny set reads `cfg.ms_status_confirm_id` and `cfg.ms_status_confirm2_id`, which the frozen `Config` dataclass (app/config.py:16-42) does not declare. Every FBS run raises `AttributeError` before its first order, and nothing is created or saved | any run, e.g. one new order created after the cutoff whose article is in the catalog | both ids are optional settings: empty means unset, like the other state ids. This is how `resolve_ms_customerorder_state_id` (app/orders_sync.py:62-64) reads them | not executed | OrderSync.RunAsWritten, OrderSync.ConfirmFieldsAbortRun | OrderSync.Run |

=== FILE: assoc.dfy ===
/** A Python `dict` with string keys, as an association list in insertion
    order: assigning to a present key replaces its value in place, assigning
    to a new key appends it. */
module Assoc {
  import opened Wrappers

  type Dict<V> = seq<(string, V)>

  /** The position of key `k`, the first one when keys repeat. */
  function IndexOf<V>(m: Dict<V>, k: string): (r: Option<nat>)
    ensures r.Some? ==> r.value < |m| && m[r.value].0 == k
    ensures r.Some? ==> forall j :: 0 <= j < r.value ==> m[j].0 != k
    ensures r.None? <==> forall j :: 0 <= j < |m| ==> m[j].0 != k
  {
    if |m| == 0 then None
    else if m[0].0 == k then Some(0)
    else
      var rest := IndexOf(m[1..], k);
      assert forall j :: 1 <= j < |m| ==> m[j] == m[1..][j - 1];
      if rest.Some? then Some(rest.value + 1) else None
  }

  /** `d.get(k)`. */
  function Get<V>(m: Dict<V>, k: string): Option<V> {
    var i := IndexOf(m, k);
    if i.Some? then Some(m[i.value].1) else None
  }

  predicate HasKey<V>(m: Dict<V>, k: string) {
    Get(m, k).Some?
  }

  /** Lookups only look at the keys: two dicts with the same keys in the same
      order find every key at the same position. */
  lemma SameKeysSameIndex<V>(m1: Dict<V>, m2: Dict<V>, k: string)
    requires |m1| == |m2| && forall i :: 0 <= i < |m1| ==> m1[i].0 == m2[i].0
    ensures IndexOf(m1, k) == IndexOf(m2, k)
  {
    var r1, r2 := IndexOf(m1, k), IndexOf(m2, k);
    if r1.Some? && r2.Some? {
      assert !(r1.value < r2.value) && !(r2.value < r1.value);
    }
  }

  /** Appending a new key leaves every other lookup where it was. */
  lemma AppendIndex<V>(m: Dict<V>, k: string, v: V, k': string)
    requires IndexOf(m, k).None?
    ensures IndexOf(m + [(k, v)], k') == if k' == k then Some(|m|) else IndexOf(m, k')
  {
    var r := m + [(k, v)];
    assert forall j :: 0 <= j < |m| ==> r[j] == m[j];
    assert r[|m|].0 == k;
    var a, b := IndexOf(r, k'), IndexOf(m, k');
    if k' == k {
      assert a.Some? && !(a.value < |m|);
    } else if b.Some? {
      assert a.Some? && !(a.value < b.value) && !(b.value < a.value);
    }
  }

  /** `d[k] = v`. */
  function Put<V>(m: Dict<V>, k: string, v: V): (r: Dict<V>)
    ensures Get(r, k) == Some(v)
    ensures forall k' :: k' != k ==> Get(r, k') == Get(m, k')
    ensures |r| == if HasKey(m, k) then |m| else |m| + 1
    ensures forall i :: 0 <= i < |r| ==> r[i] in m || r[i] == (k, v)
  {
    var i := IndexOf(m, k);
    if i.Some? then
      var r := m[i.value := (k, v)];
      assert forall k' :: IndexOf(r, k') == IndexOf(m, k') by {
        forall k' {
          SameKeysSameIndex(r, m, k');
        }
      }
      assert forall k' :: k' != k && IndexOf(m, k').Some? ==> IndexOf(m, k').value != i.value;
      r
    else
      var r := m + [(k, v)];
      assert forall k' :: IndexOf(r, k') == if k' == k then Some(|m|) else IndexOf(m, k') by {
        forall k' {
          AppendIndex(m, k, v, k');
        }
      }
      r
  }

  /** After `d[k] = v`, the keys are the old ones and `k`. */
  lemma PutHasKey<V>(m: Dict<V>, k: string, v: V, k': string)
    ensures HasKey(Put(m, k, v), k') <==> k' == k || HasKey(m, k')
  {
    if k' != k {
      assert Get(Put(m, k, v), k') == Get(m, k');
    }
  }

  /** `list(d.keys())`. */
  function Keys<V>(m: Dict<V>): (r: seq<string>)
    ensures |r| == |m|
    ensures forall i :: 0 <= i < |m| ==> r[i] == m[i].0
  {
    seq(|m|, i requires 0 <= i < |m| => m[i].0)
  }

  /** Assigning a key the value it already has changes nothing. */
  lemma PutSame<V>(m: Dict<V>, k: string)
    requires HasKey(m, k)
    ensures Put(m, k, Get(m, k).value) == m
  {
    var i := IndexOf(m, k).value;
    assert m[i := (k, m[i].1)] == m;
  }

  /** The keys listed are exactly the keys present. */
  lemma HasKeyInKeys<V>(m: Dict<V>, k: string)
    ensures HasKey(m, k) <==> k in Keys(m)
  {
    if k in Keys(m) {
      var j :| 0 <= j < |m| && Keys(m)[j] == k;
      assert m[j].0 == k;
    }
  }
}

=== FILE: ledger.dfy ===
/** The MoySklad side as the integration sees it: an append-only list of
    documents that can be looked up by external code or by name (first match
    wins), created, and updated in place.

    A document's id is its position in the list. */
module Ledger {
  import opened Wrappers

  /** Instants (`datetime` values after parsing), abstracted to ordered numbers.
      `Absent` is a missing or empty field, `Malformed` one that does not parse. */
  datatype Stamp = Absent | Malformed | At(instant: int)

  datatype Kind = CustomerOrder | Move | Demand

  /** A document position. `None` stands for a missing field; `assortment` is
      the product's `meta` (absent or empty when `None`). */
  datatype Position = Position(
    quantity: Option<int>,
    reserve: Option<int>,
    price: Option<int>,
    assortment: Option<string>)

  datatype Doc = Doc(
    kind: Kind,
    name: string,
    externalCode: string,
    organization: string,
    agent: string,
    store: string,
    targetStore: string,
    salesChannel: string,
    stateHref: string,
    comment: string,
    plannedMoment: string,
    positions: seq<Position>,
    customerOrder: Option<nat>,
    applied: bool)

  datatype Ledger = Ledger(docs: seq<Doc>)

  /** `{base}/entity/{entity}/{id}` */
  function EntityHref(baseUrl: string, entity: string, id: string): string {
    baseUrl + "/entity/" + entity + "/" + id
  }

  /** `{base}/entity/{entity}/metadata/states/{id}`: the href of a document state. */
  function StateHref(baseUrl: string, entity: string, id: string): string {
    baseUrl + "/entity/" + entity + "/metadata/states/" + id
  }

  /** The first document of `kind`, from position `from` on, whose name (`byName`)
      or external code equals `value`. */
  function FindFirst(docs: seq<Doc>, kind: Kind, byName: bool, value: string, from: nat): (r: Option<nat>)
    requires from <= |docs|
    ensures r.Some? ==> from <= r.value < |docs| && docs[r.value].kind == kind
    ensures r.Some? ==> (if byName then docs[r.value].name else docs[r.value].externalCode) == value
    ensures forall j :: from <= j < |docs| && (r.None? || j < r.value) ==>
      !(docs[j].kind == kind && (if byName then docs[j].name else docs[j].externalCode) == value)
    decreases |docs| - from
  {
    if from == |docs| then None
    else if docs[from].kind == kind && (if byName then docs[from].name else docs[from].externalCode) == value
    then Some(from)
    else FindFirst(docs, kind, byName, value, from + 1)
  }

  /** `find_*_by_external_code`: the first document of `kind` with that external code. */
  function FindByCode(l: Ledger, kind: Kind, code: string): (r: Option<nat>)
    ensures r.Some? ==> r.value < |l.docs| && l.docs[r.value].kind == kind && l.docs[r.value].externalCode == code
    ensures r.Some? ==> forall j :: 0 <= j < r.value ==> !(l.docs[j].kind == kind && l.docs[j].externalCode == code)
    ensures r.None? <==> forall j :: 0 <= j < |l.docs| ==> !(l.docs[j].kind == kind && l.docs[j].externalCode == code)
  {
    FindFirst(l.docs, kind, false, code, 0)
  }

  /** `find_customer_order_by_name`: the first document of `kind` with that name. */
  function FindByName(l: Ledger, kind: Kind, name: string): (r: Option<nat>)
    ensures r.Some? ==> r.value < |l.docs| && l.docs[r.value].kind == kind && l.docs[r.value].name == name
    ensures r.Some? ==> forall j :: 0 <= j < r.value ==> !(l.docs[j].kind == kind && l.docs[j].name == name)
    ensures r.None? <==> forall j :: 0 <= j < |l.docs| ==> !(l.docs[j].kind == kind && l.docs[j].name == name)
  {
    FindFirst(l.docs, kind, true, name, 0)
  }

  /** `create_*`: stores the payload as a new document and returns its id. */
  function Create(l: Ledger, d: Doc): (r: (Ledger, nat))
  {
    (Ledger(l.docs + [d]), |l.docs|)
  }

  function SetState(l: Ledger, id: nat, href: string): (r: Ledger)
    requires id < |l.docs|
    ensures |r.docs| == |l.docs| && r.docs[id] == l.docs[id].(stateHref := href)
    ensures forall j :: 0 <= j < |l.docs| && j != id ==> r.docs[j] == l.docs[j]
  {
    Ledger(l.docs[id := l.docs[id].(stateHref := href)])
  }

  function SetPlanned(l: Ledger, id: nat, moment: string): (r: Ledger)
    requires id < |l.docs|
    ensures |r.docs| == |l.docs| && r.docs[id] == l.docs[id].(plannedMoment := moment)
    ensures forall j :: 0 <= j < |l.docs| && j != id ==> r.docs[j] == l.docs[j]
  {
    Ledger(l.docs[id := l.docs[id].(plannedMoment := moment)])
  }

  function SetApplied(l: Ledger, id: nat): (r: Ledger)
    requires id < |l.docs|
    ensures |r.docs| == |l.docs| && r.docs[id] == l.docs[id].(applied := true)
    ensures forall j :: 0 <= j < |l.docs| && j != id ==> r.docs[j] == l.docs[j]
  {
    Ledger(l.docs[id := l.docs[id].(applied := true)])
  }

  /** The identity of a document: what no update ever changes. */
  predicate SameIdentity(a: Doc, b: Doc) {
    a.kind == b.kind && a.name == b.name && a.externalCode == b.externalCode
    && a.positions == b.positions && a.customerOrder == b.customerOrder
  }

  /** `l2` is `l1` after creations and updates: no document disappears or
      changes identity, new ones are appended. */
  predicate Extends(l1: Ledger, l2: Ledger) {
    |l1.docs| <= |l2.docs| && forall j :: 0 <= j < |l1.docs| ==> SameIdentity(l1.docs[j], l2.docs[j])
  }

  lemma ExtendsTrans(l1: Ledger, l2: Ledger, l3: Ledger)
    requires Extends(l1, l2) && Extends(l2, l3)
    ensures Extends(l1, l3)
  {
  }

  /** No two documents of one kind share a non-empty external code: the
      idempotency key is honoured. */
  predicate UniqueCodes(l: Ledger) {
    forall i, j :: 0 <= i < j < |l.docs| && l.docs[i].kind == l.docs[j].kind && l.docs[i].externalCode != "" ==>
      l.docs[i].externalCode != l.docs[j].externalCode
  }

  /** Creating a document whose key a lookup has just missed keeps the keys unique. */
  lemma CreateAfterMissKeepsUnique(l: Ledger, d: Doc)
    requires UniqueCodes(l)
    requires FindByCode(l, d.kind, d.externalCode).None?
    ensures UniqueCodes(Create(l, d).0)
  {
  }

  /** Updating documents in place (same identities, same count) keeps the keys unique. */
  lemma UpdateKeepsUnique(l1: Ledger, l2: Ledger)
    requires UniqueCodes(l1) && Extends(l1, l2) && |l2.docs| == |l1.docs|
    ensures UniqueCodes(l2)
  {
    forall i, j | 0 <= i < j < |l2.docs| && l2.docs[i].kind == l2.docs[j].kind && l2.docs[i].externalCode != ""
      ensures l2.docs[i].externalCode != l2.docs[j].externalCode
    {
      assert SameIdentity(l1.docs[i], l2.docs[i]) && SameIdentity(l1.docs[j], l2.docs[j]);
    }
  }

  /** Updating documents in place changes no lookup by external code. */
  lemma LookupsSurviveUpdate(l1: Ledger, l2: Ledger, k: Kind, c: string)
    requires Extends(l1, l2) && |l2.docs| == |l1.docs|
    ensures FindByCode(l2, k, c) == FindByCode(l1, k, c)
  {
    var r1, r2 := FindByCode(l1, k, c), FindByCode(l2, k, c);
    if r1.Some? {
      assert SameIdentity(l1.docs[r1.value], l2.docs[r1.value]);
    }
    if r2.Some? {
      assert SameIdentity(l1.docs[r2.value], l2.docs[r2.value]);
    }
  }

  /** Every shipment (or transfer) that points at an order points at an
      earlier customer order: none is created before its order exists. */
  predicate LinksBackward(l: Ledger) {
    forall i :: 0 <= i < |l.docs| && l.docs[i].customerOrder.Some? ==>
      l.docs[i].customerOrder.value < i && l.docs[l.docs[i].customerOrder.value].kind == CustomerOrder
  }

  lemma UpdateKeepsLinks(l1: Ledger, l2: Ledger)
    requires LinksBackward(l1) && Extends(l1, l2) && |l2.docs| == |l1.docs|
    ensures LinksBackward(l2)
  {
    forall i | 0 <= i < |l2.docs| && l2.docs[i].customerOrder.Some?
      ensures l2.docs[i].customerOrder.value < i && l2.docs[l2.docs[i].customerOrder.value].kind == CustomerOrder
    {
      assert SameIdentity(l1.docs[i], l2.docs[i]);
      assert SameIdentity(l1.docs[l1.docs[i].customerOrder.value], l2.docs[l1.docs[i].customerOrder.value]);
    }
  }

  /** The invariants every pass keeps: idempotency keys stay unique and every
      shipment points back at an earlier CustomerOrder. */
  predicate LedgerOk(l: Ledger) {
    UniqueCodes(l) && LinksBackward(l)
  }

  /** Creating a document with no order link under a key a lookup has just
      missed keeps the ledger well formed. */
  lemma CreateAfterMissKeepsOk(l: Ledger, d: Doc)
    requires LedgerOk(l)
    requires FindByCode(l, d.kind, d.externalCode).None? && d.customerOrder.None?
    ensures LedgerOk(Create(l, d).0)
  {
    CreateAfterMissKeepsUnique(l, d);
  }

  /** A document created under a key a lookup has just missed is what the
      same lookup finds afterwards. */
  lemma FindAfterCreate(l: Ledger, d: Doc)
    requires FindByCode(l, d.kind, d.externalCode).None?
    ensures FindByCode(Create(l, d).0, d.kind, d.externalCode) == Some(|l.docs|)
  {
    var l2 := Create(l, d).0;
    assert l2.docs[|l.docs|] == d;
    assert forall j :: 0 <= j < |l.docs| ==> l2.docs[j] == l.docs[j];
  }

  /** A document a lookup by external code finds stays the one it finds
      while the ledger only grows. */
  lemma FoundByCodeStays(l1: Ledger, l2: Ledger, kind: Kind, code: string)
    requires Extends(l1, l2) && FindByCode(l1, kind, code).Some?
    ensures FindByCode(l2, kind, code) == FindByCode(l1, kind, code)
  {
    var r1, r2 := FindByCode(l1, kind, code), FindByCode(l2, kind, code);
    assert SameIdentity(l1.docs[r1.value], l2.docs[r1.value]);
  }

  /** The same for a lookup by name. */
  lemma FoundByNameStays(l1: Ledger, l2: Ledger, kind: Kind, name: string)
    requires Extends(l1, l2) && FindByName(l1, kind, name).Some?
    ensures FindByName(l2, kind, name) == FindByName(l1, kind, name)
  {
    var r1, r2 := FindByName(l1, kind, name), FindByName(l2, kind, name);
    assert SameIdentity(l1.docs[r1.value], l2.docs[r1.value]);
  }

  /** Updates in place and appended documents that a lookup by external code
      would not match leave that lookup where it was. */
  lemma CodeLookupSurvives(l1: Ledger, l2: Ledger, kind: Kind, code: string)
    requires Extends(l1, l2)
    requires forall j :: |l1.docs| <= j < |l2.docs| ==> !(l2.docs[j].kind == kind && l2.docs[j].externalCode == code)
    ensures FindByCode(l2, kind, code) == FindByCode(l1, kind, code)
  {
    var r1, r2 := FindByCode(l1, kind, code), FindByCode(l2, kind, code);
    if r1.Some? {
      assert SameIdentity(l1.docs[r1.value], l2.docs[r1.value]);
    }
    if r2.Some? && r2.value < |l1.docs| {
      assert SameIdentity(l1.docs[r2.value], l2.docs[r2.value]);
    }
  }

  /** The same for a lookup by name. */
  lemma NameLookupSurvives(l1: Ledger, l2: Ledger, kind: Kind, name: string)
    requires Extends(l1, l2)
    requires forall j :: |l1.docs| <= j < |l2.docs| ==> !(l2.docs[j].kind == kind && l2.docs[j].name == name)
    ensures FindByName(l2, kind, name) == FindByName(l1, kind, name)
  {
    var r1, r2 := FindByName(l1, kind, name), FindByName(l2, kind, name);
    if r1.Some? {
      assert SameIdentity(l1.docs[r1.value], l2.docs[r1.value]);
    }
    if r2.Some? && r2.value < |l1.docs| {
      assert SameIdentity(l1.docs[r2.value], l2.docs[r2.value]);
    }
  }
}

=== FILE: ms_client.dfy ===
/** The two pieces of `MSClient` with logic of their own: turning a MoySklad
    `meta.href` into a request path, and paging through the stock report. */
module MsClient {
  import opened Wrappers
  import opened Text

  /** The API prefix every MoySklad entity href carries. */
  const Marker: string := "/api/remap/1.2"

  /** `HttpClient` keeps its base URL with trailing slashes removed and
      requests `base_url + path`. */
  function RequestUrl(baseUrl: string, path: string): string {
    RStripChar(baseUrl, '/') + path
  }

  /** The path `get_by_href` requests for `href`; `None` when it returns `{}`
      without any request. */
  function PathFromHref(baseUrl: string, href: string): (r: Option<string>)
    ensures r.None? <==> AllSpace(href)
  {
    var h := Strip(href);
    if h == "" then None else Some(PathOfStripped(RStripChar(baseUrl, '/'), h))
  }

  /** The path for a stripped, non-empty href against the stripped base URL. */
  function PathOfStripped(base: string, h: string): string {
    if StartsWith(h, "/") then h
    else if base != "" && StartsWith(h, base) then h[|base|..]
    else match Find(h, Marker)
      case Some(i) => h[i + |Marker|..]
      case None => "/" + LStripChar(h, '/')
  }

  /** An absolute href under the client's own base URL is requested as itself. */
  lemma AbsoluteHrefRoundTrip(baseUrl: string, href: string)
    requires href == Strip(href) && href != "" && !StartsWith(href, "/")
    requires RStripChar(baseUrl, '/') != "" && StartsWith(href, RStripChar(baseUrl, '/'))
    ensures PathFromHref(baseUrl, href).Some?
    ensures RequestUrl(baseUrl, PathFromHref(baseUrl, href).value) == href
  {
    var base := RStripChar(baseUrl, '/');
    assert PathFromHref(baseUrl, href) == Some(href[|base|..]);
    PrefixRejoin(href, base);
  }

  /** An absolute href on another host is cut just after the first
      occurrence of the API prefix; without the prefix the whole href
      becomes a path. */
  lemma ForeignHrefPath(baseUrl: string, href: string)
    requires href == Strip(href) && href != "" && !StartsWith(href, "/")
    requires RStripChar(baseUrl, '/') == "" || !StartsWith(href, RStripChar(baseUrl, '/'))
    ensures match Find(href, Marker)
      case Some(i) => PathFromHref(baseUrl, href) == Some(href[i + |Marker|..])
      case None => PathFromHref(baseUrl, href) == Some("/" + LStripChar(href, '/'))
  {
    StrippedPath(baseUrl, href);
    ForeignPath(RStripChar(baseUrl, '/'), href);
  }

  lemma StrippedPath(baseUrl: string, href: string)
    requires href == Strip(href) && href != ""
    ensures PathFromHref(baseUrl, href) == Some(PathOfStripped(RStripChar(baseUrl, '/'), href))
  {
  }

  lemma ForeignPath(base: string, h: string)
    requires !StartsWith(h, "/") && (base == "" || !StartsWith(h, base))
    ensures PathOfStripped(base, h) == match Find(h, Marker)
      case Some(i) => h[i + |Marker|..]
      case None => "/" + LStripChar(h, '/')
  {
  }

  /** A relative href (leading "/") is appended to the base URL unchanged. */
  lemma RelativeHrefRequest(baseUrl: string, href: string)
    requires href == Strip(href) && StartsWith(href, "/")
    ensures RequestUrl(baseUrl, PathFromHref(baseUrl, href).value) == RStripChar(baseUrl, '/') + href
  {
  }

  /** One page of the `/report/stock/bystore` report: the rows from `offset`,
      at most `limit` of them, as a stable report serves them. */
  function Page<R>(report: seq<R>, offset: nat, limit: nat): (rows: seq<R>)
    ensures |rows| <= limit
    ensures offset + limit <= |report| ==> |rows| == limit
  {
    if offset >= |report| then []
    else if offset + limit <= |report| then report[offset..offset + limit]
    else report[offset..]
  }

  /** `report_stock_by_store`: requests pages at offsets 0, limit, 2*limit, ...
      until a page comes back shorter than `limit`, collecting every row. */
  method ReportStockByStore<R>(report: seq<R>, limit: nat) returns (out: seq<R>, requests: nat)
    requires limit > 0
    ensures out == report
    ensures requests >= 1 && (requests - 1) * limit <= |report| < requests * limit
  {
    out := [];
    requests := 0;
    var offset: nat := 0;
    while true
      invariant offset == requests * limit
      invariant offset <= |report|
      invariant out == report[..offset]
      decreases |report| - offset
    {
      var rows := Page(report, offset, limit);
      requests := requests + 1;
      out := out + rows;
      if |rows| < limit {
        assert offset + |rows| == |report|;
        assert out == report;
        break;
      }
      offset := offset + limit;
    }
  }
}

=== FILE: order_idempotence.dfy ===
/** Running the FBS order flow twice over the same marketplace data creates
    nothing the second time: every order the first run handled is left
    "settled", and a settled order's step creates no document and leaves the
    `active` set as it is.

    The argument needs the configured CustomerOrder state ids to be plain ids
    (no "/"), as MoySklad issues them, so that a state read back from an href
    is the id that was written. */
module OrderIdempotence {
  import opened Wrappers
  import opened Text
  import opened Ledger
  import opened OrderStatus
  import opened OrderPayload
  import opened OrderSync

  predicate PlainOrEmpty(id: string) {
    id == "" || IsPlainId(id)
  }

  /** Every state id the mapper can return reads back from its href as itself. */
  predicate WellFormedConfig(cfg: Config) {
    && PlainOrEmpty(cfg.newId) && PlainOrEmpty(cfg.confirmId) && PlainOrEmpty(cfg.confirm2Id)
    && PlainOrEmpty(cfg.shippedId) && PlainOrEmpty(cfg.deliveringId) && PlainOrEmpty(cfg.deliveredId)
    && PlainOrEmpty(cfg.cancelledId)
  }

  /** The target state of order `oid` once it is remembered in `active`. */
  function TargetWhenActive(env: Env, oid: string, sp: StatusPair): Option<string> {
    ResolveStateId(env.cfg, sp.supplier, sp.wb, oid, {oid}, false)
  }

  /** Order `o` needs no more work: its Demand exists, or it is cancelled
      (and in both cases forgotten by `active`), or it has no CustomerOrder
      and none can be created, or its CustomerOrder waits in `active` in a
      state that, even after the next state update, allows no Demand. */
  predicate Settled(env: Env, st: RunState, o: WbOrder) {
    o.id.None? ||
    var oid := NatToString(o.id.value);
    var sp := StatusOf(env, o.id.value);
    if FindByCode(st.ledger, Demand, oid).Some? then oid !in st.active
    else if IsCancellation(sp.supplier, sp.wb) then oid !in st.active
    else match FindByCode(st.ledger, CustomerOrder, oid)
      case None =>
        ExtractArticle(o.article) == "" || ExtractArticle(o.article) !in env.catalog
      case Some(i) =>
        && oid in st.active
        && !ShouldCreateDemand(env.cfg,
             StateIdFromHref(StateAfter(env.cfg, st.ledger.docs[i].stateHref, TargetWhenActive(env, oid, sp))))
  }

  /** The mapper looks at `active` only through the order's own membership. */
  lemma ResolveSeesOwnMembership(
    cfg: Config, supplier: string, wb: string, oid: string, a1: set<string>, a2: set<string>, hasDemand: bool)
    requires oid in a1 <==> oid in a2
    ensures ResolveStateId(cfg, supplier, wb, oid, a1, hasDemand) == ResolveStateId(cfg, supplier, wb, oid, a2, hasDemand)
  {
  }

  /** A change confined to documents filed under `key` changes no lookup of
      another code. */
  lemma LookupsSurviveOtherKey(l1: Ledger, l2: Ledger, key: string, k: Kind, c: string)
    requires TouchesOnly(l1, l2, key) && c != key
    ensures FindByCode(l2, k, c) == FindByCode(l1, k, c)
  {
    var r1, r2 := FindByCode(l1, k, c), FindByCode(l2, k, c);
    if r1.Some? {
      assert SameIdentity(l1.docs[r1.value], l2.docs[r1.value]);
    }
    if r2.Some? && r2.value < |l1.docs| {
      assert SameIdentity(l1.docs[r2.value], l2.docs[r2.value]);
    }
  }

  /** What a later step for another order keeps of order `oid`: its two
      lookups, the state of its CustomerOrder and its membership in `active`. */
  predicate Keeps(st1: RunState, st2: RunState, oid: string) {
    && FindByCode(st2.ledger, Demand, oid) == FindByCode(st1.ledger, Demand, oid)
    && FindByCode(st2.ledger, CustomerOrder, oid) == FindByCode(st1.ledger, CustomerOrder, oid)
    && (FindByCode(st1.ledger, CustomerOrder, oid).Some? ==>
          var i := FindByCode(st1.ledger, CustomerOrder, oid).value;
          st2.ledger.docs[i].stateHref == st1.ledger.docs[i].stateHref)
    && (oid in st2.active <==> oid in st1.active)
  }

  /** A step confined to `key` keeps every other order as it was. */
  lemma FrameKeeps(st1: RunState, st2: RunState, key: string, oid: string)
    requires StepFrame(st1, st2, key) && oid != key
    ensures Keeps(st1, st2, oid)
  {
    LookupsSurviveOtherKey(st1.ledger, st2.ledger, key, Demand, oid);
    LookupsSurviveOtherKey(st1.ledger, st2.ledger, key, CustomerOrder, oid);
  }

  lemma SettledKept(env: Env, st1: RunState, st2: RunState, o: WbOrder)
    requires Settled(env, st1, o)
    requires o.id.Some? ==> Keeps(st1, st2, NatToString(o.id.value))
    ensures Settled(env, st2, o)
  {
  }

  /** A step that lets the run carry on, creates no document and changes
      neither saved set. */
  predicate Quiet(st: RunState, r: (Outcome, RunState)) {
    && Continues(r.0)
    && |r.1.ledger.docs| == |st.ledger.docs|
    && r.1.active == st.active
    && r.1.msCreated == st.msCreated
  }

  lemma QuietWhenDemandExists(env: Env, st: RunState, n: nat, rawArticle: string)
    requires FindByCode(st.ledger, Demand, NatToString(n)).Some?
    requires NatToString(n) !in st.active
    ensures Quiet(st, StepWithId(env, st, n, rawArticle))
  {
    var r := StepWithId(env, st, n, rawArticle);
    assert r.1.active == st.active - {NatToString(n)};
  }

  lemma QuietWhenCancelled(env: Env, st: RunState, n: nat, rawArticle: string)
    requires FindByCode(st.ledger, Demand, NatToString(n)).None?
    requires IsCancellation(StatusOf(env, n).supplier, StatusOf(env, n).wb)
    requires NatToString(n) !in st.active
    ensures Quiet(st, StepWithId(env, st, n, rawArticle))
  {
    var r := StepWithId(env, st, n, rawArticle);
    assert r.1.active == st.active - {NatToString(n)};
    StepWithIdEffects(env, st, n, rawArticle);
  }

  lemma QuietWhenSkipped(env: Env, st: RunState, n: nat, rawArticle: string)
    requires FindByCode(st.ledger, Demand, NatToString(n)).None?
    requires !IsCancellation(StatusOf(env, n).supplier, StatusOf(env, n).wb)
    requires FindByCode(st.ledger, CustomerOrder, NatToString(n)).None?
    requires ExtractArticle(rawArticle) == "" || ExtractArticle(rawArticle) !in env.catalog
    ensures Quiet(st, StepWithId(env, st, n, rawArticle))
  {
  }

  /** With no Demand, no cancellation and the CustomerOrder found, the step is
      steps 4 and 5 on that order. */
  lemma StepAdvances(env: Env, st: RunState, n: nat, rawArticle: string, i: nat)
    requires FindByCode(st.ledger, Demand, NatToString(n)).None?
    requires !IsCancellation(StatusOf(env, n).supplier, StatusOf(env, n).wb)
    requires FindByCode(st.ledger, CustomerOrder, NatToString(n)) == Some(i)
    ensures StepWithId(env, st, n, rawArticle) == Advance(env, st, NatToString(n), StatusOf(env, n), i)
  {
  }

  lemma QuietWhenWaiting(env: Env, st: RunState, n: nat, rawArticle: string, i: nat)
    requires FindByCode(st.ledger, Demand, NatToString(n)).None?
    requires !IsCancellation(StatusOf(env, n).supplier, StatusOf(env, n).wb)
    requires FindByCode(st.ledger, CustomerOrder, NatToString(n)) == Some(i)
    requires NatToString(n) in st.active
    requires !ShouldCreateDemand(env.cfg, StateIdFromHref(StateAfter(env.cfg, st.ledger.docs[i].stateHref,
               TargetWhenActive(env, NatToString(n), StatusOf(env, n)))))
    ensures Quiet(st, StepWithId(env, st, n, rawArticle))
  {
    var oid, sp := NatToString(n), StatusOf(env, n);
    var r := Advance(env, st, oid, sp, i);
    StepAdvances(env, st, n, rawArticle, i);
    AdvanceDocs(env, st, oid, sp, i);
    ResolveSeesOwnMembership(env.cfg, sp.supplier, sp.wb, oid, st.active, {oid}, false);
    assert r.0 == KeptActive;
    assert r.1.active == st.active + {oid};
  }

  /** The step of a settled order creates nothing, keeps `active` as it is, and
      lets the run carry on. */
  lemma SettledStepIsQuiet(env: Env, st: RunState, o: WbOrder)
    requires Settled(env, st, o)
    ensures Quiet(st, Step(env, st, o))
  {
    if o.id.Some? {
      var n := o.id.value;
      var oid := NatToString(n);
      var sp := StatusOf(env, n);
      assert Step(env, st, o) == StepWithId(env, st, n, o.article);
      if FindByCode(st.ledger, Demand, oid).Some? {
        QuietWhenDemandExists(env, st, n, o.article);
      } else if IsCancellation(sp.supplier, sp.wb) {
        QuietWhenCancelled(env, st, n, o.article);
      } else {
        match FindByCode(st.ledger, CustomerOrder, oid)
        case None => QuietWhenSkipped(env, st, n, o.article);
        case Some(i) => QuietWhenWaiting(env, st, n, o.article, i);
      }
    }
  }

  /** Asking again once the order is in `active` gives the same target or
      `confirm2Id` (the second confirm step). */
  lemma TargetAgain(env: Env, active: set<string>, oid: string, sp: StatusPair)
    ensures
      var again := TargetWhenActive(env, oid, sp);
      again == ResolveStateId(env.cfg, sp.supplier, sp.wb, oid, active, false)
      || (again == Some(env.cfg.confirm2Id) && env.cfg.confirm2Id != "")
  {
    if oid in active {
      ResolveSeesOwnMembership(env.cfg, sp.supplier, sp.wb, oid, active, {oid}, false);
    } else if sp.supplier == "confirm" && sp.wb == "waiting" {
      ConfirmTwoStep(env.cfg, oid, active, false);
      ConfirmTwoStep(env.cfg, oid, {oid}, false);
    } else {
      ActiveOnlyMattersForConfirm(env.cfg, sp.supplier, sp.wb, oid, active, {oid}, false);
    }
  }

  /** A state that allowed no Demand still allows none after the target state
      is asked for again. */
  lemma StillNoDemand(env: Env, active: set<string>, oid: string, sp: StatusPair, href: string)
    requires WellFormedConfig(env.cfg)
    requires !ShouldCreateDemand(env.cfg,
      StateIdFromHref(StateAfter(env.cfg, href, ResolveStateId(env.cfg, sp.supplier, sp.wb, oid, active, false))))
    ensures !ShouldCreateDemand(env.cfg,
      StateIdFromHref(StateAfter(env.cfg, StateAfter(env.cfg, href, ResolveStateId(env.cfg, sp.supplier, sp.wb, oid, active, false)),
                                 TargetWhenActive(env, oid, sp))))
  {
    var cfg := env.cfg;
    TargetAgain(env, active, oid, sp);
    var again := TargetWhenActive(env, oid, sp);
    if again.Some? && again != ResolveStateId(cfg, sp.supplier, sp.wb, oid, active, false) {
      StateIdRoundTrip(cfg.baseUrl, "customerorder", cfg.confirm2Id);
      assert cfg.confirm2Id in DenyStates(cfg);
    }
  }

  /** An order kept waiting: its CustomerOrder is found where step 4 left it. */
  lemma KeptActiveSettles(env: Env, st: RunState, oid: string, sp: StatusPair, i: nat, o: WbOrder)
    requires WellFormedConfig(env.cfg)
    requires o.id.Some? && oid == NatToString(o.id.value) && sp == StatusOf(env, o.id.value)
    requires i < |st.ledger.docs| && st.ledger.docs[i].kind == CustomerOrder
    requires st.ledger.docs[i].externalCode == oid && oid != ""
    requires FindByCode(st.ledger, Demand, oid).None? && !IsCancellation(sp.supplier, sp.wb)
    requires FindByCode(st.ledger, CustomerOrder, oid) == Some(i)
    requires Advance(env, st, oid, sp, i).0 == KeptActive
    ensures Settled(env, Advance(env, st, oid, sp, i).1, o)
  {
    var r := Advance(env, st, oid, sp, i);
    AdvanceDocs(env, st, oid, sp, i);
    LookupsSurviveUpdate(st.ledger, r.1.ledger, Demand, oid);
    LookupsSurviveUpdate(st.ledger, r.1.ledger, CustomerOrder, oid);
    StillNoDemand(env, st.active, oid, sp, st.ledger.docs[i].stateHref);
  }

  /** A new Demand is found by its external code afterwards. */
  lemma DemandFound(l1: Ledger, l2: Ledger, oid: string)
    requires |l2.docs| == |l1.docs| + 1
    requires l2.docs[|l1.docs|].kind == Demand && l2.docs[|l1.docs|].externalCode == oid
    ensures FindByCode(l2, Demand, oid).Some?
  {
  }

  /** Steps 4 and 5 leave the order settled unless they stopped the run. */
  lemma AdvanceSettles(env: Env, st: RunState, oid: string, sp: StatusPair, i: nat, o: WbOrder)
    requires WellFormedConfig(env.cfg)
    requires o.id.Some? && oid == NatToString(o.id.value) && sp == StatusOf(env, o.id.value)
    requires i < |st.ledger.docs| && st.ledger.docs[i].kind == CustomerOrder
    requires st.ledger.docs[i].externalCode == oid && oid != ""
    requires FindByCode(st.ledger, Demand, oid).None? && !IsCancellation(sp.supplier, sp.wb)
    requires FindByCode(st.ledger, CustomerOrder, oid) == Some(i)
    requires Continues(Advance(env, st, oid, sp, i).0)
    ensures Settled(env, Advance(env, st, oid, sp, i).1, o)
  {
    var r := Advance(env, st, oid, sp, i);
    if r.0 == KeptActive {
      KeptActiveSettles(env, st, oid, sp, i, o);
    } else {
      AdvanceDocs(env, st, oid, sp, i);
      DemandFound(st.ledger, r.1.ledger, oid);
    }
  }

  lemma SettlesWhenCancelled(env: Env, st: RunState, o: WbOrder)
    requires o.id.Some?
    requires FindByCode(st.ledger, Demand, NatToString(o.id.value)).None?
    requires IsCancellation(StatusOf(env, o.id.value).supplier, StatusOf(env, o.id.value).wb)
    ensures Settled(env, StepWithId(env, st, o.id.value, o.article).1, o)
  {
    var r := StepWithId(env, st, o.id.value, o.article);
    StepWithIdEffects(env, st, o.id.value, o.article);
    LookupsSurviveUpdate(st.ledger, r.1.ledger, Demand, NatToString(o.id.value));
  }

  /** An order met for the first time is settled afterwards: skipped for
      want of an article or product, or given a CustomerOrder that steps 4
      and 5 then settle. */
  lemma SettlesWhenNew(env: Env, st: RunState, o: WbOrder)
    requires WellFormedConfig(env.cfg) && o.id.Some?
    requires FindByCode(st.ledger, Demand, NatToString(o.id.value)).None?
    requires !IsCancellation(StatusOf(env, o.id.value).supplier, StatusOf(env, o.id.value).wb)
    requires FindByCode(st.ledger, CustomerOrder, NatToString(o.id.value)).None?
    requires Continues(Onboard(env, st, o.id.value, o.article).0)
    ensures Settled(env, Onboard(env, st, o.id.value, o.article).1, o)
  {
    var n := o.id.value;
    var article := ExtractArticle(o.article);
    if article != "" && article in env.catalog {
      NewOrderSettles(env, st, o, env.catalog[article]);
    }
  }

  /** The CustomerOrder just created for `o` is what the lookup finds, and
      steps 4 and 5 on it settle `o`. */
  lemma NewOrderSettles(env: Env, st: RunState, o: WbOrder, product: Product)
    requires WellFormedConfig(env.cfg) && o.id.Some?
    requires FindByCode(st.ledger, Demand, NatToString(o.id.value)).None?
    requires !IsCancellation(StatusOf(env, o.id.value).supplier, StatusOf(env, o.id.value).wb)
    requires FindByCode(st.ledger, CustomerOrder, NatToString(o.id.value)).None?
    requires var (st2, i) := NewOrder(env, st, o.id.value, product);
      Continues(Advance(env, st2, NatToString(o.id.value), StatusOf(env, o.id.value), i).0)
    ensures var (st2, i) := NewOrder(env, st, o.id.value, product);
      Settled(env, Advance(env, st2, NatToString(o.id.value), StatusOf(env, o.id.value), i).1, o)
  {
    var n := o.id.value;
    var oid, sp := NatToString(n), StatusOf(env, n);
    var payload := BuildOrderPayload(env.cfg, n, product);
    var (st2, i) := NewOrder(env, st, n, product);
    FindAfterCreate(st.ledger, payload);
    assert st2.ledger == Create(st.ledger, payload).0;
    AdvanceSettles(env, st2, oid, sp, i, o);
  }

  /** A step that lets the run carry on leaves its order settled. */
  lemma StepSettles(env: Env, st: RunState, o: WbOrder)
    requires WellFormedConfig(env.cfg)
    requires Continues(Step(env, st, o).0)
    ensures Settled(env, Step(env, st, o).1, o)
  {
    if o.id.Some? {
      var n := o.id.value;
      var oid := NatToString(n);
      var sp := StatusOf(env, n);
      var r := StepWithId(env, st, n, o.article);
      assert Step(env, st, o) == r;
      if FindByCode(st.ledger, Demand, oid).Some? {
      } else if IsCancellation(sp.supplier, sp.wb) {
        SettlesWhenCancelled(env, st, o);
      } else {
        match FindByCode(st.ledger, CustomerOrder, oid)
        case Some(i) =>
          assert r == Advance(env, st, oid, sp, i);
          AdvanceSettles(env, st, oid, sp, i, o);
        case None =>
          assert r == Onboard(env, st, n, o.article);
          SettlesWhenNew(env, st, o);
      }
    }
  }

  /** Two orders with one id: once the step for the second lets the run carry
      on, the first is settled if it was before. Settledness differs between
      the two only while the id has no CustomerOrder, and a step never
      removes a document, so the first one's reason to be skipped remains. */
  lemma SameIdStaysSettled(env: Env, st: RunState, o2: WbOrder, o: WbOrder)
    requires WellFormedConfig(env.cfg) && o.id.Some? && o2.id == o.id
    requires Settled(env, st, o)
    requires Continues(Step(env, st, o2).0)
    ensures Settled(env, Step(env, st, o2).1, o)
  {
    var st2 := Step(env, st, o2).1;
    var oid := NatToString(o.id.value);
    StepSettles(env, st, o2);
    if FindByCode(st2.ledger, Demand, oid).None? && FindByCode(st2.ledger, CustomerOrder, oid).None? {
      if FindByCode(st.ledger, Demand, oid).Some? {
        FoundByCodeStays(st.ledger, st2.ledger, Demand, oid);
      }
      if FindByCode(st.ledger, CustomerOrder, oid).Some? {
        FoundByCodeStays(st.ledger, st2.ledger, CustomerOrder, oid);
      }
    }
  }

  /** A step that lets the run carry on keeps every settled order settled,
      whether it is for another order or for one with the same id. */
  lemma StepKeepsSettled(env: Env, st: RunState, o2: WbOrder, o: WbOrder)
    requires WellFormedConfig(env.cfg)
    requires Settled(env, st, o)
    requires Continues(Step(env, st, o2).0)
    ensures Settled(env, Step(env, st, o2).1, o)
  {
    var st2 := Step(env, st, o2).1;
    if o.id.Some? && o2.id.Some? {
      if o2.id.value != o.id.value {
        NatToStringInjective(o2.id.value, o.id.value);
        FrameKeeps(st, st2, NatToString(o2.id.value), NatToString(o.id.value));
        SettledKept(env, st, st2, o);
      } else {
        SameIdStaysSettled(env, st, o2, o);
      }
    }
  }

  /** A pass that reaches its end keeps every settled order settled. */
  lemma {:induction false} PassKeepsSettled(env: Env, st: RunState, orders: seq<WbOrder>, o: WbOrder)
    requires WellFormedConfig(env.cfg) && Settled(env, st, o)
    requires Pass(env, st, orders).1
    ensures Settled(env, Pass(env, st, orders).0, o)
    decreases |orders|
  {
    if |orders| > 0 {
      var (out, st2) := Step(env, st, orders[0]);
      StepKeepsSettled(env, st, orders[0], o);
      PassKeepsSettled(env, st2, orders[1..], o);
    }
  }

  /** A pass that reaches its end leaves every one of its orders settled. */
  lemma {:induction false} PassSettles(env: Env, st: RunState, orders: seq<WbOrder>)
    requires WellFormedConfig(env.cfg)
    requires Pass(env, st, orders).1
    ensures forall k :: 0 <= k < |orders| ==> Settled(env, Pass(env, st, orders).0, orders[k])
    decreases |orders|
  {
    if |orders| > 0 {
      var st2 := Step(env, st, orders[0]).1;
      var fin := Pass(env, st2, orders[1..]).0;
      assert Pass(env, st, orders) == Pass(env, st2, orders[1..]);
      StepSettles(env, st, orders[0]);
      PassSettles(env, st2, orders[1..]);
      PassKeepsSettled(env, st2, orders[1..], orders[0]);
      SettledHeadTail(env, fin, orders);
    }
  }

  lemma SettledHeadTail(env: Env, st: RunState, orders: seq<WbOrder>)
    requires |orders| > 0 && Settled(env, st, orders[0])
    requires forall k :: 0 <= k < |orders[1..]| ==> Settled(env, st, orders[1..][k])
    ensures forall k :: 0 <= k < |orders| ==> Settled(env, st, orders[k])
  {
    forall k | 0 < k < |orders| ensures Settled(env, st, orders[k]) {
      assert orders[k] == orders[1..][k - 1];
    }
  }

  /** A pass over settled orders reaches its end, creates nothing, and leaves
      `active` as it was. */
  lemma {:induction false} SettledPassIsQuiet(env: Env, st: RunState, orders: seq<WbOrder>)
    requires WellFormedConfig(env.cfg)
    requires forall k :: 0 <= k < |orders| ==> Settled(env, st, orders[k])
    ensures
      var r := Pass(env, st, orders);
      && r.1
      && |r.0.ledger.docs| == |st.ledger.docs|
      && r.0.active == st.active
      && r.0.msCreated == st.msCreated
    decreases |orders|
  {
    if |orders| > 0 {
      var (out, st2) := Step(env, st, orders[0]);
      var rest := orders[1..];
      SettledStepIsQuiet(env, st, orders[0]);
      forall k | 0 <= k < |rest| ensures Settled(env, st2, rest[k]) {
        assert rest[k] == orders[k + 1];
        StepKeepsSettled(env, st, orders[0], rest[k]);
      }
      SettledPassIsQuiet(env, st2, rest);
    }
  }

  /** Idempotence of the order flow: after a run that reaches its end, a second
      run over the same marketplace data (same listing, statuses, catalog and
      outcomes) also reaches its end, creates no document, and saves the same
      `active` and `ms_created` sets. */
  lemma SecondRunCreatesNothing(env: Env, saved: Saved, ledger: Ledger, listed: seq<WbOrder>, minCreatedAt: int)
    requires WellFormedConfig(env.cfg)
    requires Run(env, saved, ledger, listed, minCreatedAt).completed
    ensures
      var first := Run(env, saved, ledger, listed, minCreatedAt);
      var second := Run(env, first.saved, first.ledger, listed, minCreatedAt);
      && second.completed
      && |second.ledger.docs| == |first.ledger.docs|
      && second.saved == first.saved
  {
    var orders := FilterByCreatedAt(listed, minCreatedAt).0;
    var st0 := RunState(saved.active, saved.msCreated, ledger, NoTally);
    var (st1, done1) := Pass(env, st0, orders);
    PassSettles(env, st0, orders);
    var st1b := RunState(st1.active, st1.msCreated, st1.ledger, NoTally);
    SettledIgnoresTally(env, st1, st1b, orders);
    SettledPassIsQuiet(env, st1b, orders);
  }

  /** Settledness does not depend on the tally. */
  lemma SettledIgnoresTally(env: Env, st1: RunState, st2: RunState, orders: seq<WbOrder>)
    requires st2.active == st1.active && st2.ledger == st1.ledger
    requires forall k :: 0 <= k < |orders| ==> Settled(env, st1, orders[k])
    ensures forall k :: 0 <= k < |orders| ==> Settled(env, st2, orders[k])
  {
  }
}

=== FILE: order_payload.dfy ===
/** The documents the order flow sends to MoySklad, and reading a state id
    back out of a state href. */
module OrderPayload {
  import opened Wrappers
  import opened Text
  import opened Ledger
  import opened OrderStatus

  /** A catalog product as `find_product_by_article` returns it: its `meta`
      and its `salePrices` values (`None` where a price has no value). */
  datatype Product = Product(meta: string, salePrices: seq<Option<int>>)

  /** The product's first sale price, or 0 when it has none. */
  function DefaultPrice(p: Product): (r: int)
    ensures |p.salePrices| > 0 && p.salePrices[0].Some? ==> r == p.salePrices[0].value
    ensures !(|p.salePrices| > 0 && p.salePrices[0].Some?) ==> r == 0
  {
    if |p.salePrices| > 0 && p.salePrices[0].Some? then p.salePrices[0].value else 0
  }

  /** `extract_article`: the order's article with surrounding whitespace removed. */
  function ExtractArticle(rawArticle: string): (r: string)
    ensures r == [] <==> AllSpace(rawArticle)
    ensures Trimmed(r)
    ensures CutFrom(rawArticle, r)
  {
    StripCuts(rawArticle);
    Strip(rawArticle)
  }

  /** `build_ms_order_payload`: a CustomerOrder named after the marketplace id,
      reserving one item of `product` at its default price. */
  function BuildOrderPayload(cfg: Config, wbId: nat, product: Product): (d: Doc)
    ensures d.kind == CustomerOrder
    ensures d.name == NatToString(wbId) && d.externalCode == NatToString(wbId)
    ensures |d.positions| == 1
    ensures d.positions[0] == Position(Some(1), Some(1), Some(DefaultPrice(product)), Some(product.meta))
    ensures d.stateHref != "" <==> cfg.newId != ""
    ensures IsPlainId(cfg.newId) ==> StateIdFromHref(d.stateHref) == cfg.newId
    ensures d.customerOrder.None? && !d.applied
  {
    var oid := NatToString(wbId);
    var state := if cfg.newId != "" then StateHref(cfg.baseUrl, "customerorder", cfg.newId) else "";
    assert IsPlainId(cfg.newId) ==> StateIdFromHref(state) == cfg.newId by {
      if IsPlainId(cfg.newId) {
        StateIdRoundTrip(cfg.baseUrl, "customerorder", cfg.newId);
      }
    }
    Doc(
      kind := CustomerOrder,
      name := oid,
      externalCode := oid,
      organization := EntityHref(cfg.baseUrl, "organization", cfg.orgId),
      agent := EntityHref(cfg.baseUrl, "counterparty", cfg.agentIdWb),
      store := EntityHref(cfg.baseUrl, "store", cfg.storeIdWb),
      targetStore := "",
      salesChannel := EntityHref(cfg.baseUrl, "saleschannel", cfg.salesChannelIdWb),
      stateHref := state,
      comment := "",
      plannedMoment := "",
      positions := [Position(Some(1), Some(1), Some(DefaultPrice(product)), Some(product.meta))],
      customerOrder := None,
      applied := false)
  }

  /** An order position carries a product reference (a non-empty `meta`). */
  predicate HasMeta(p: Position) {
    p.assortment.Some? && p.assortment.value != ""
  }

  /** The Demand line for an order line: quantity defaults to 1, price to 0. */
  function DemandLine(p: Position): Position {
    Position(Some(p.quantity.GetOr(1)), None, Some(p.price.GetOr(0)), p.assortment)
  }

  /** The Demand's positions: the order's lines that carry a product, in order. */
  function DemandPositions(ps: seq<Position>): (r: seq<Position>)
    ensures |r| <= |ps|
    ensures forall i :: 0 <= i < |r| ==> HasMeta(r[i]) && r[i].quantity.Some? && r[i].price.Some?
    ensures forall p :: p in ps && HasMeta(p) ==> DemandLine(p) in r
    ensures forall q :: q in r ==> exists p :: p in ps && HasMeta(p) && q == DemandLine(p)
    ensures (forall i :: 0 <= i < |ps| ==> HasMeta(ps[i])) ==> |r| == |ps|
  {
    if |ps| == 0 then []
    else
      var rest := DemandPositions(ps[1..]);
      assert forall p :: p in ps[1..] ==> p in ps;
      assert forall p :: p in ps ==> p == ps[0] || p in ps[1..];
      if HasMeta(ps[0]) then [DemandLine(ps[0])] + rest else rest
  }

  /** The Demand lines of consecutive order lines are the Demand lines of
      each part, one after the other. */
  lemma {:induction false} DemandPositionsConcat(a: seq<Position>, b: seq<Position>)
    ensures DemandPositions(a + b) == DemandPositions(a) + DemandPositions(b)
    decreases |a|
  {
    if |a| == 0 {
      assert a + b == b;
    } else {
      assert (a + b)[0] == a[0];
      assert (a + b)[1..] == a[1..] + b;
      DemandPositionsConcat(a[1..], b);
    }
  }

  /** One order line gives its Demand line when it carries a product and
      nothing otherwise. With `DemandPositionsConcat` this fixes the order
      and the multiplicity of the Demand's lines. */
  lemma DemandPositionsSingle(p: Position)
    ensures DemandPositions([p]) == if HasMeta(p) then [DemandLine(p)] else []
  {
    assert [p][1..] == [];
  }

  /** The key a Demand is filed under: the order's external code, else its name. */
  function DemandKey(order: Doc): string {
    Or(order.externalCode, order.name)
  }

  /** `build_ms_demand_payload`: a Demand linked to the order `orderId`, with
      the order's parties and the order's lines that carry a product. */
  function BuildDemandPayload(order: Doc, orderId: nat, orderPositions: seq<Position>): (d: Doc)
    ensures d.kind == Demand
    ensures d.externalCode == DemandKey(order) && d.name == "WB-" + DemandKey(order)
    ensures order.externalCode != "" ==> d.externalCode == order.externalCode
    ensures d.positions == DemandPositions(orderPositions)
    ensures d.customerOrder == Some(orderId)
    ensures d.organization == order.organization && d.agent == order.agent && d.store == order.store
    ensures !d.applied && d.stateHref == ""
  {
    var key := DemandKey(order);
    Doc(
      kind := Demand,
      name := "WB-" + key,
      externalCode := key,
      organization := order.organization,
      agent := order.agent,
      store := order.store,
      targetStore := "",
      salesChannel := "",
      stateHref := "",
      comment := "",
      plannedMoment := "",
      positions := DemandPositions(orderPositions),
      customerOrder := Some(orderId),
      applied := false)
  }

  /** `_state_id_from_href`: the last "/"-separated segment of the href once
      its trailing slashes are dropped (a suffix of it, preceded by "/" unless
      it is the whole); "" for an empty href. */
  function StateIdFromHref(href: string): (r: string)
    ensures href == "" ==> r == ""
    ensures forall i :: 0 <= i < |r| ==> r[i] != '/'
    ensures href != "" ==> var t := RStripChar(href, '/');
      && EndsWith(t, r)
      && (|r| < |t| ==> EndsWith(t, "/" + r))
  {
    if href == "" then ""
    else
      var t := RStripChar(href, '/');
      LastSegmentShape(t, '/');
      LastSegment(t, '/')
  }

  /** A state id as MoySklad issues them: non-empty, no "/". */
  predicate IsPlainId(id: string) {
    id != "" && forall i :: 0 <= i < |id| ==> id[i] != '/'
  }

  /** Reading the state id back out of the href built for it gives the id. */
  lemma StateIdRoundTrip(baseUrl: string, entity: string, id: string)
    requires IsPlainId(id)
    ensures StateIdFromHref(StateHref(baseUrl, entity, id)) == id
  {
    var prefix := baseUrl + "/entity/" + entity + "/metadata/states";
    var h := StateHref(baseUrl, entity, id);
    assert h == prefix + ['/'] + id;
    assert RStripChar(h, '/') == h;
    LastSegmentAfterSep(prefix, '/', id);
  }
}

=== FILE: order_status.dfy ===
/** Marketplace (FBS) order statuses and the CustomerOrder state they map to.

    Configuration is an immutable record; an empty id means "not configured",
    exactly as an unset optional environment variable reads in the integration. */
module OrderStatus {
  import opened Wrappers
  import opened Text

  /** The settings the order flow reads. `confirmId` and `confirm2Id` are the two
      "being assembled" states of the two-step confirm; the integration's own
      `Config` record does not declare them (see `OrderSync.RunAsWritten`), and
      here they are optional ids like the others. `demandStateId` is the
      optional state given to a Demand after it is created. */
  datatype Config = Config(
    baseUrl: string,
    orgId: string,
    agentIdWb: string,
    storeIdWb: string,
    salesChannelIdWb: string,
    newId: string,
    confirmId: string,
    confirm2Id: string,
    shippedId: string,
    deliveringId: string,
    deliveredId: string,
    cancelledId: string,
    cancelledBySellerId: string,
    demandStateId: string)

  /** `(supplierStatus, wbStatus)` as the marketplace reports it; "" when missing. */
  datatype StatusPair = StatusPair(supplier: string, wb: string)

  /** `x or None`: a configured id, or nothing. */
  function Configured(id: string): (r: Option<string>)
    ensures r.Some? <==> id != ""
    ensures r.Some? ==> r.value == id
  {
    if id != "" then Some(id) else None
  }

  /** The marketplace reports a cancellation, by the seller or by the buyer. */
  predicate IsCancellation(supplier: string, wb: string) {
    supplier == "cancel" || wb == "canceled" || wb == "canceled_by_client"
  }

  /** Every state id the mapper can ever return. */
  function TargetIds(cfg: Config): set<string> {
    {cfg.newId, cfg.confirmId, cfg.confirm2Id, cfg.shippedId, cfg.deliveringId, cfg.deliveredId, cfg.cancelledId}
  }

  /** The pairs the mapper has a rule for. */
  predicate HasRule(supplier: string, wb: string, hasDemand: bool) {
    || (!hasDemand && IsCancellation(supplier, wb))
    || (wb == "waiting" && (supplier == "new" || supplier == "confirm" || supplier == "complete"))
    || (supplier == "complete" && (wb == "sorted" || wb == "sold"))
  }

  /** `resolve_ms_customerorder_state_id`: the CustomerOrder state that the
      status pair calls for, or nothing. `active` is the set of orders already
      seen waiting for their Demand; it drives the two-step confirm. */
  function ResolveStateId(
    cfg: Config, supplier: string, wb: string, oid: string, active: set<string>, hasDemand: bool
  ): (r: Option<string>)
    ensures r.Some? ==> r.value != "" && r.value in TargetIds(cfg)
    ensures supplier == "" || wb == "" ==> r.None?
    ensures r.Some? ==> HasRule(supplier, wb, hasDemand)
    ensures hasDemand && IsCancellation(supplier, wb) ==> r.None?
  {
    if supplier == "" || wb == "" then None
    else if !hasDemand && IsCancellation(supplier, wb) then Configured(cfg.cancelledId)
    else if wb == "waiting" && supplier == "new" then Configured(cfg.newId)
    else if wb == "waiting" && supplier == "confirm" then
      if oid in active && cfg.confirm2Id != "" then Some(cfg.confirm2Id)
      else Configured(Or(cfg.confirmId, cfg.confirm2Id))
    else if supplier == "complete" && wb == "waiting" then Configured(cfg.shippedId)
    else if supplier == "complete" && wb == "sorted" then Configured(cfg.deliveringId)
    else if supplier == "complete" && wb == "sold" then Configured(cfg.deliveredId)
    else None
  }

  /** Before any Demand exists, a cancellation maps to the cancelled state (when configured). */
  lemma CancelBeforeDemand(cfg: Config, supplier: string, wb: string, oid: string, active: set<string>)
    requires supplier != "" && wb != "" && IsCancellation(supplier, wb)
    ensures ResolveStateId(cfg, supplier, wb, oid, active, false) == Configured(cfg.cancelledId)
  {
  }

  /** Once the Demand exists, nothing maps to the cancelled state through a cancellation. */
  lemma NoCancelAfterDemand(cfg: Config, supplier: string, wb: string, oid: string, active: set<string>)
    requires IsCancellation(supplier, wb)
    ensures ResolveStateId(cfg, supplier, wb, oid, active, true).None?
  {
  }

  lemma NewWaiting(cfg: Config, oid: string, active: set<string>, hasDemand: bool)
    ensures ResolveStateId(cfg, "new", "waiting", oid, active, hasDemand) == Configured(cfg.newId)
  {
  }

  /** Two-step confirm: the first sighting gives `confirmId` (or `confirm2Id`
      when only that one is configured); once the order is remembered in
      `active`, it gives `confirm2Id` whenever that is configured. */
  lemma ConfirmTwoStep(cfg: Config, oid: string, active: set<string>, hasDemand: bool)
    ensures oid in active && cfg.confirm2Id != "" ==>
      ResolveStateId(cfg, "confirm", "waiting", oid, active, hasDemand) == Some(cfg.confirm2Id)
    ensures !(oid in active && cfg.confirm2Id != "") ==>
      ResolveStateId(cfg, "confirm", "waiting", oid, active, hasDemand)
        == (if cfg.confirmId != "" then Some(cfg.confirmId)
            else if cfg.confirm2Id != "" then Some(cfg.confirm2Id)
            else None)
  {
  }

  /** A second sighting never goes back from `confirm2Id` to `confirmId`:
      whatever the first sighting gave, the repeat gives `confirm2Id` or the same. */
  lemma ConfirmNeverRegresses(cfg: Config, oid: string, active: set<string>, hasDemand: bool)
    ensures
      var first := ResolveStateId(cfg, "confirm", "waiting", oid, active - {oid}, hasDemand);
      var again := ResolveStateId(cfg, "confirm", "waiting", oid, active + {oid}, hasDemand);
      again == first || again == Some(cfg.confirm2Id)
  {
  }

  /** Items handed over to the marketplace progress shipped -> delivering -> delivered. */
  lemma CompleteProgression(cfg: Config, oid: string, active: set<string>, hasDemand: bool)
    ensures ResolveStateId(cfg, "complete", "waiting", oid, active, hasDemand) == Configured(cfg.shippedId)
    ensures ResolveStateId(cfg, "complete", "sorted", oid, active, hasDemand) == Configured(cfg.deliveringId)
    ensures ResolveStateId(cfg, "complete", "sold", oid, active, hasDemand) == Configured(cfg.deliveredId)
  {
  }

  /** Membership in `active` matters for the `("confirm", "waiting")` pair only. */
  lemma ActiveOnlyMattersForConfirm(
    cfg: Config, supplier: string, wb: string, oid: string, a1: set<string>, a2: set<string>, hasDemand: bool)
    requires !(supplier == "confirm" && wb == "waiting")
    ensures ResolveStateId(cfg, supplier, wb, oid, a1, hasDemand) == ResolveStateId(cfg, supplier, wb, oid, a2, hasDemand)
  {
  }
}

=== FILE: order_sync.dfy ===
/** One run of the FBS order flow (`orders_sync.main`): filter the listed
    marketplace orders by creation time, then walk them one by one, keeping
    the `active` set (orders waiting for their Demand) and the ledger in step.

    The run is a left fold of `Step` over the orders; it stops at the first
    order whose Demand could not be applied for a reason other than missing
    stock, because `orders_sync.main` re-raises that error. */
module OrderSync {
  import opened Wrappers
  import opened Text
  import opened Ledger
  import opened OrderStatus
  import opened OrderPayload

  /** A marketplace order as listed: its id (when present), its two possible
      creation-time fields and its article. */
  datatype WbOrder = WbOrder(id: Option<nat>, createdAt: Stamp, createdAtAlt: Stamp, article: string)

  /** `o.get("createdAt") or o.get("created_at")` */
  function CreatedStamp(o: WbOrder): Stamp {
    if o.createdAt != Absent then o.createdAt else o.createdAtAlt
  }

  predicate CreatedSince(o: WbOrder, minCreatedAt: int) {
    CreatedStamp(o).At? && CreatedStamp(o).instant >= minCreatedAt
  }

  /** The strict `createdAt` filter: keeps, in order, the orders created at or
      after the cutoff; counts the rest (no date, unparsable date, too old). */
  function FilterByCreatedAt(listed: seq<WbOrder>, minCreatedAt: int): (r: (seq<WbOrder>, nat))
    ensures |r.0| + r.1 == |listed|
    ensures forall i :: 0 <= i < |r.0| ==> CreatedSince(r.0[i], minCreatedAt)
  {
    if |listed| == 0 then ([], 0)
    else
      var rest := FilterByCreatedAt(listed[1..], minCreatedAt);
      if CreatedSince(listed[0], minCreatedAt) then ([listed[0]] + rest.0, rest.1)
      else (rest.0, rest.1 + 1)
  }

  /** An order is kept exactly when it is listed and was created at or after
      the cutoff. */
  lemma {:induction false} FilterByCreatedAtKeeps(listed: seq<WbOrder>, minCreatedAt: int)
    ensures forall o :: o in FilterByCreatedAt(listed, minCreatedAt).0 <==> o in listed && CreatedSince(o, minCreatedAt)
    decreases |listed|
  {
    if |listed| > 0 {
      FilterByCreatedAtKeeps(listed[1..], minCreatedAt);
      FilterByCreatedAtCons(listed, minCreatedAt);
      assert forall o :: o in listed <==> o == listed[0] || o in listed[1..];
    }
  }

  /** Filtering consecutive listings filters each part: kept orders stay in
      listing order and the dropped ones add up. */
  lemma {:induction false} FilterByCreatedAtConcat(a: seq<WbOrder>, b: seq<WbOrder>, minCreatedAt: int)
    ensures FilterByCreatedAt(a + b, minCreatedAt).0 == FilterByCreatedAt(a, minCreatedAt).0 + FilterByCreatedAt(b, minCreatedAt).0
    ensures FilterByCreatedAt(a + b, minCreatedAt).1 == FilterByCreatedAt(a, minCreatedAt).1 + FilterByCreatedAt(b, minCreatedAt).1
    decreases |a|
  {
    if |a| == 0 {
      assert a + b == b;
    } else {
      assert (a + b)[0] == a[0];
      assert (a + b)[1..] == a[1..] + b;
      FilterByCreatedAtConcat(a[1..], b, minCreatedAt);
      FilterByCreatedAtCons(a + b, minCreatedAt);
      FilterByCreatedAtCons(a, minCreatedAt);
    }
  }

  /** One step of the filter. */
  lemma FilterByCreatedAtCons(listed: seq<WbOrder>, minCreatedAt: int)
    requires |listed| > 0
    ensures var rest := FilterByCreatedAt(listed[1..], minCreatedAt);
      FilterByCreatedAt(listed, minCreatedAt) ==
        if CreatedSince(listed[0], minCreatedAt) then ([listed[0]] + rest.0, rest.1) else (rest.0, rest.1 + 1)
  {
    var rest := FilterByCreatedAt(listed[1..], minCreatedAt);
    if CreatedSince(listed[0], minCreatedAt) {
      assert FilterByCreatedAt(listed, minCreatedAt) == ([listed[0]] + rest.0, rest.1);
    } else {
      assert FilterByCreatedAt(listed, minCreatedAt) == (rest.0, rest.1 + 1);
    }
  }

  /** A single order is kept exactly when it was created at or after the
      cutoff, and counted as dropped otherwise. With `FilterByCreatedAtConcat`
      this fixes the order and the multiplicity of what is kept. */
  lemma FilterByCreatedAtSingle(o: WbOrder, minCreatedAt: int)
    ensures FilterByCreatedAt([o], minCreatedAt) == if CreatedSince(o, minCreatedAt) then ([o], 0) else ([], 1)
  {
    assert [o][1..] == [];
    assert FilterByCreatedAt([], minCreatedAt) == ([], 0);
    assert [o] + [] == [o];
  }

  /** What `set_demand_applicable` does for a new Demand: it is applied, it is
      left unapplied for lack of stock (HTTP 412, code 3007), or it fails. */
  datatype ApplyOutcome = Applied | LeftPendingNoStock | OtherError

  /** Everything a run reads from outside: configuration, the marketplace
      statuses by order id, the catalog by article, and how applying each
      order's Demand turns out. */
  datatype Env = Env(
    cfg: Config,
    statuses: map<nat, StatusPair>,
    catalog: map<string, Product>,
    applyOutcomes: map<string, ApplyOutcome>)

  function StatusOf(env: Env, id: nat): StatusPair {
    if id in env.statuses then env.statuses[id] else StatusPair("", "")
  }

  function ApplyOf(env: Env, oid: string): ApplyOutcome {
    if oid in env.applyOutcomes then env.applyOutcomes[oid] else Applied
  }

  /** The order states in which no Demand may be created, without the
      unconfigured (empty) ones. */
  function DenyStates(cfg: Config): set<string> {
    {cfg.newId, cfg.confirmId, cfg.confirm2Id, cfg.shippedId, cfg.cancelledId, cfg.cancelledBySellerId} - {""}
  }

  /** `should_create_demand` */
  predicate ShouldCreateDemand(cfg: Config, stateId: string) {
    stateId != "" && stateId !in DenyStates(cfg)
  }

  /** The summary counters of the final log line. */
  datatype Tally = Tally(
    createdOrders: nat,
    createdDemands: nat,
    skippedNoArticle: nat,
    skippedNoProduct: nat,
    cancelled: nat,
    demandExists: nat,
    activated: nat,
    deactivated: nat,
    leftUnapplied: nat)

  const NoTally := Tally(0, 0, 0, 0, 0, 0, 0, 0, 0)

  datatype RunState = RunState(active: set<string>, msCreated: set<string>, ledger: Ledger, tally: Tally)

  /** How one order was handled. */
  datatype Outcome =
    | NoId
    | DemandExisted
    | Cancelled
    | SkippedNoArticle
    | SkippedNoProduct
    | KeptActive
    | DemandCreated(apply: ApplyOutcome)

  /** An outcome after which the run carries on. */
  predicate Continues(out: Outcome) {
    out != DemandCreated(OtherError)
  }

  /** `l2` differs from `l1` only in documents filed under `key`: documents
      with another external code are untouched, and every new one has `key`. */
  predicate TouchesOnly(l1: Ledger, l2: Ledger, key: string) {
    && Extends(l1, l2)
    && (forall j :: 0 <= j < |l1.docs| && l1.docs[j].externalCode != key ==> l2.docs[j] == l1.docs[j])
    && (forall j :: |l1.docs| <= j < |l2.docs| ==> l2.docs[j].externalCode == key)
  }

  lemma TouchesOnlyTrans(l1: Ledger, l2: Ledger, l3: Ledger, key: string)
    requires TouchesOnly(l1, l2, key) && TouchesOnly(l2, l3, key)
    ensures TouchesOnly(l1, l3, key)
  {
    forall j | 0 <= j < |l1.docs| ensures SameIdentity(l1.docs[j], l3.docs[j]) {
      assert SameIdentity(l1.docs[j], l2.docs[j]) && SameIdentity(l2.docs[j], l3.docs[j]);
    }
    forall j | |l1.docs| <= j < |l3.docs| ensures l3.docs[j].externalCode == key {
      if j < |l2.docs| {
        assert SameIdentity(l2.docs[j], l3.docs[j]);
      }
    }
  }

  /** A step for order `key` changes nothing that belongs to another order. */
  ghost predicate StepFrame(st1: RunState, st2: RunState, key: string) {
    && TouchesOnly(st1.ledger, st2.ledger, key)
    && forall x :: x != key ==> (x in st2.active <==> x in st1.active)
  }

  function Deactivate(st: RunState, oid: string): RunState {
    st.(active := st.active - {oid},
        tally := st.tally.(deactivated := st.tally.deactivated + if oid in st.active then 1 else 0))
  }

  /** Step 2 of the loop: put the order (when it exists) into the cancelled state. */
  function CancelOrder(cfg: Config, l: Ledger, oid: string): (r: Ledger)
    ensures TouchesOnly(l, r, oid) && |r.docs| == |l.docs|
    ensures LedgerOk(l) ==> LedgerOk(r)
  {
    if cfg.cancelledId == "" then l
    else match FindByCode(l, CustomerOrder, oid)
      case None => l
      case Some(i) =>
        var r := SetState(l, i, StateHref(cfg.baseUrl, "customerorder", cfg.cancelledId));
        assert Extends(l, r);
        if LedgerOk(l) then UpdateKeepsUnique(l, r); UpdateKeepsLinks(l, r); r else r
  }

  /** The state href after step 4: the target state when the mapper gives one. */
  function StateAfter(cfg: Config, href: string, target: Option<string>): string {
    if target.Some? then StateHref(cfg.baseUrl, "customerorder", target.value) else href
  }

  /** Step 4's target state for order `oid` in the current run state. */
  function Target(env: Env, st: RunState, oid: string, sp: StatusPair): Option<string> {
    ResolveStateId(env.cfg, sp.supplier, sp.wb, oid, st.active, false)
  }

  /** Step 4: `update_customer_order_state` when the mapper gives a target. */
  function UpdateOrderState(cfg: Config, l: Ledger, i: nat, target: Option<string>): (r: Ledger)
    requires i < |l.docs|
    ensures |r.docs| == |l.docs| && Extends(l, r)
    ensures r.docs[i] == l.docs[i].(stateHref := StateAfter(cfg, l.docs[i].stateHref, target))
    ensures forall j :: 0 <= j < |l.docs| && j != i ==> r.docs[j] == l.docs[j]
    ensures LedgerOk(l) ==> LedgerOk(r)
    ensures TouchesOnly(l, r, l.docs[i].externalCode)
  {
    var r := if target.Some? then SetState(l, i, StateAfter(cfg, l.docs[i].stateHref, target)) else l;
    assert Extends(l, r);
    assert LedgerOk(l) ==> LedgerOk(r) by {
      if LedgerOk(l) {
        UpdateKeepsUnique(l, r);
        UpdateKeepsLinks(l, r);
      }
    }
    r
  }

  /** After a Demand `d` is created and applying it did not fail hard: it is
      marked applied when applying succeeded, and given the configured Demand
      state. Nothing else changes. */
  function FinishDemand(cfg: Config, l: Ledger, d: nat, outcome: ApplyOutcome): (r: Ledger)
    requires d < |l.docs| && !l.docs[d].applied
    ensures |r.docs| == |l.docs| && Extends(l, r)
    ensures forall j :: 0 <= j < |l.docs| && j != d ==> r.docs[j] == l.docs[j]
    ensures r.docs[d].applied <==> outcome == Applied
    ensures cfg.demandStateId != "" ==> r.docs[d].stateHref == StateHref(cfg.baseUrl, "demand", cfg.demandStateId)
    ensures cfg.demandStateId == "" ==> r.docs[d].stateHref == l.docs[d].stateHref
    ensures r.docs[d].(applied := false, stateHref := l.docs[d].stateHref) == l.docs[d]
    ensures LedgerOk(l) ==> LedgerOk(r)
  {
    var l3 := if outcome == Applied then SetApplied(l, d) else l;
    var r := if cfg.demandStateId != "" then SetState(l3, d, StateHref(cfg.baseUrl, "demand", cfg.demandStateId)) else l3;
    assert Extends(l, r);
    assert LedgerOk(l) ==> LedgerOk(r) by {
      if LedgerOk(l) {
        UpdateKeepsUnique(l, r);
        UpdateKeepsLinks(l, r);
      }
    }
    r
  }

  /** Step 5 when the state allows it: create the Demand for order `i`, try to
      apply it, and give it the configured Demand state (unless applying failed
      for a reason other than missing stock, which ends the run first). */
  function CreateDemand(env: Env, l: Ledger, i: nat, oid: string): (r: (ApplyOutcome, Ledger))
    requires i < |l.docs| && l.docs[i].kind == CustomerOrder && l.docs[i].externalCode == oid && oid != ""
    ensures r.0 == ApplyOf(env, oid)
    ensures |r.1.docs| == |l.docs| + 1
    ensures r.1.docs[|l.docs|].kind == Demand && r.1.docs[|l.docs|].externalCode == oid
    ensures r.1.docs[|l.docs|].customerOrder == Some(i)
    ensures r.1.docs[|l.docs|].applied <==> r.0 == Applied
    ensures var p := BuildDemandPayload(l.docs[i], i, l.docs[i].positions);
      r.1.docs[|l.docs|].(applied := false, stateHref := "") == p
    ensures r.0 != OtherError && env.cfg.demandStateId != "" ==>
      r.1.docs[|l.docs|].stateHref == StateHref(env.cfg.baseUrl, "demand", env.cfg.demandStateId)
    ensures r.0 == OtherError || env.cfg.demandStateId == "" ==> r.1.docs[|l.docs|].stateHref == ""
    ensures forall j :: 0 <= j < |l.docs| ==> r.1.docs[j] == l.docs[j]
    ensures LedgerOk(l) && FindByCode(l, Demand, oid).None? ==> LedgerOk(r.1)
    ensures TouchesOnly(l, r.1, oid)
  {
    var l2 := FileDemand(l, i, oid);
    var outcome := ApplyOf(env, oid);
    if outcome == OtherError then (outcome, l2)
    else
      var l4 := FinishDemand(env.cfg, l2, |l.docs|, outcome);
      FinishTouchesOnly(env.cfg, l2, |l.docs|, outcome, oid);
      TouchesOnlyTrans(l, l2, l4, oid);
      (outcome, l4)
  }

  /** Files the Demand built from CustomerOrder `i`, unapplied, after every
      existing document. */
  function FileDemand(l: Ledger, i: nat, oid: string): (r: Ledger)
    requires i < |l.docs| && l.docs[i].kind == CustomerOrder && l.docs[i].externalCode == oid && oid != ""
    ensures |r.docs| == |l.docs| + 1
    ensures r.docs[|l.docs|].kind == Demand && r.docs[|l.docs|].externalCode == oid
    ensures r.docs[|l.docs|].customerOrder == Some(i) && !r.docs[|l.docs|].applied
    ensures r.docs[|l.docs|] == BuildDemandPayload(l.docs[i], i, l.docs[i].positions)
    ensures r.docs[..|l.docs|] == l.docs
    ensures TouchesOnly(l, r, oid)
    ensures LedgerOk(l) && FindByCode(l, Demand, oid).None? ==> LedgerOk(r)
  {
    var demand := BuildDemandPayload(l.docs[i], i, l.docs[i].positions);
    var (l2, d) := Create(l, demand);
    assert TouchesOnly(l, l2, oid);
    assert LedgerOk(l) && FindByCode(l, Demand, oid).None? ==> LedgerOk(l2) by {
      if LedgerOk(l) && FindByCode(l, Demand, oid).None? {
        CreateAfterMissKeepsUnique(l, demand);
      }
    }
    l2
  }

  lemma FinishTouchesOnly(cfg: Config, l: Ledger, d: nat, outcome: ApplyOutcome, key: string)
    requires d < |l.docs| && !l.docs[d].applied && l.docs[d].externalCode == key
    ensures TouchesOnly(l, FinishDemand(cfg, l, d, outcome), key)
  {
  }

  function CountDemand(t: Tally, outcome: ApplyOutcome): Tally {
    t.(createdDemands := t.createdDemands + 1,
       leftUnapplied := t.leftUnapplied + if outcome == LeftPendingNoStock then 1 else 0)
  }

  /** Steps 4 and 5 for the CustomerOrder `i` of order `oid`: move it to its
      target state, then create the Demand if that state allows it, or keep the
      order in `active` until it does. Nothing filed under another key changes,
      and the ledger invariants hold afterwards when no Demand was filed under
      `oid` before. */
  function Advance(env: Env, st: RunState, oid: string, sp: StatusPair, i: nat): (r: (Outcome, RunState))
    requires i < |st.ledger.docs| && st.ledger.docs[i].kind == CustomerOrder
    requires st.ledger.docs[i].externalCode == oid && oid != ""
    ensures r.0 == KeptActive || r.0.DemandCreated?
    ensures r.0.DemandCreated? <==>
      ShouldCreateDemand(env.cfg, StateIdFromHref(StateAfter(env.cfg, st.ledger.docs[i].stateHref, Target(env, st, oid, sp))))
    ensures r.0.DemandCreated? ==> r.0.apply == ApplyOf(env, oid)
    ensures r.0 == KeptActive ==> r.1.active == st.active + {oid}
    ensures r.0.DemandCreated? && Continues(r.0) ==> r.1.active == st.active - {oid}
    ensures r.0 == DemandCreated(OtherError) ==> r.1.active == st.active
    ensures r.1.msCreated == st.msCreated
    ensures TouchesOnly(st.ledger, r.1.ledger, oid)
    ensures LedgerOk(st.ledger) && FindByCode(st.ledger, Demand, oid).None? ==> LedgerOk(r.1.ledger)
  {
    var cfg := env.cfg;
    var target := Target(env, st, oid, sp);
    var l := UpdateOrderState(cfg, st.ledger, i, target);
    LookupsSurviveUpdate(st.ledger, l, Demand, oid);
    if ShouldCreateDemand(cfg, StateIdFromHref(l.docs[i].stateHref)) then
      var (outcome, l2) := CreateDemand(env, l, i, oid);
      TouchesOnlyTrans(st.ledger, l, l2, oid);
      if outcome == OtherError then
        (DemandCreated(OtherError), st.(ledger := l2))
      else
        var st2 := Deactivate(st, oid);
        (DemandCreated(outcome),
         st2.(ledger := l2, tally := CountDemand(st2.tally, outcome)))
    else
      (KeptActive,
       st.(ledger := l,
           active := st.active + {oid},
           tally := st.tally.(activated := st.tally.activated + if oid in st.active then 0 else 1)))
  }

  /** Steps 4 and 5 on the ledger: the order gets its target state, and a
      Demand is appended exactly when one is created, filed under `oid`,
      pointing at the order, applied exactly when applying succeeded. */
  lemma AdvanceDocs(env: Env, st: RunState, oid: string, sp: StatusPair, i: nat)
    requires i < |st.ledger.docs| && st.ledger.docs[i].kind == CustomerOrder
    requires st.ledger.docs[i].externalCode == oid && oid != ""
    ensures
      var r := Advance(env, st, oid, sp, i);
      && r.1.ledger.docs[i].stateHref == StateAfter(env.cfg, st.ledger.docs[i].stateHref, Target(env, st, oid, sp))
      && (r.0 == KeptActive ==> |r.1.ledger.docs| == |st.ledger.docs|)
      && (r.0.DemandCreated? ==>
            && |r.1.ledger.docs| == |st.ledger.docs| + 1
            && r.1.ledger.docs[|st.ledger.docs|].kind == Demand
            && r.1.ledger.docs[|st.ledger.docs|].externalCode == oid
            && r.1.ledger.docs[|st.ledger.docs|].customerOrder == Some(i)
            && r.1.ledger.docs[|st.ledger.docs|].name == "WB-" + oid
            && r.1.ledger.docs[|st.ledger.docs|].positions == DemandPositions(st.ledger.docs[i].positions)
            && (r.1.ledger.docs[|st.ledger.docs|].applied <==> r.0.apply == Applied)
            && (r.0.apply != OtherError && env.cfg.demandStateId != "" ==>
                  r.1.ledger.docs[|st.ledger.docs|].stateHref == StateHref(env.cfg.baseUrl, "demand", env.cfg.demandStateId)))
  {
    var l := UpdateOrderState(env.cfg, st.ledger, i, Target(env, st, oid, sp));
    assert l.docs[i].positions == st.ledger.docs[i].positions;
    if ShouldCreateDemand(env.cfg, StateIdFromHref(l.docs[i].stateHref)) {
      var (outcome, l2) := CreateDemand(env, l, i, oid);
      assert l2.docs[i] == l.docs[i];
    }
  }

  /** Steps 4 and 5 count every Demand they append, and create no order. */
  lemma AdvanceTally(env: Env, st: RunState, oid: string, sp: StatusPair, i: nat)
    requires i < |st.ledger.docs| && st.ledger.docs[i].kind == CustomerOrder
    requires st.ledger.docs[i].externalCode == oid && oid != ""
    ensures
      var r := Advance(env, st, oid, sp, i);
      && (Continues(r.0) ==>
            |r.1.ledger.docs| - |st.ledger.docs| == r.1.tally.createdDemands - st.tally.createdDemands)
      && r.1.tally.createdOrders == st.tally.createdOrders
  {
    AdvanceDocs(env, st, oid, sp, i);
  }

  /** Step 3: create the CustomerOrder for marketplace order `n` and remember
      it in `ms_created`. */
  function NewOrder(env: Env, st: RunState, n: nat, product: Product): (r: (RunState, nat))
    ensures r.0.ledger.docs == st.ledger.docs + [BuildOrderPayload(env.cfg, n, product)]
    ensures r.1 == |st.ledger.docs|
    ensures r.0.active == st.active && r.0.msCreated == st.msCreated + {NatToString(n)}
    ensures r.0.tally == st.tally.(createdOrders := st.tally.createdOrders + 1)
    ensures TouchesOnly(st.ledger, r.0.ledger, NatToString(n))
    ensures FindByCode(st.ledger, Demand, NatToString(n)).None? ==> FindByCode(r.0.ledger, Demand, NatToString(n)).None?
    ensures LedgerOk(st.ledger) && FindByCode(st.ledger, CustomerOrder, NatToString(n)).None? ==> LedgerOk(r.0.ledger)
  {
    var oid := NatToString(n);
    var payload := BuildOrderPayload(env.cfg, n, product);
    var (l, i) := Create(st.ledger, payload);
    assert LedgerOk(st.ledger) && FindByCode(st.ledger, CustomerOrder, oid).None? ==> LedgerOk(l) by {
      if LedgerOk(st.ledger) && FindByCode(st.ledger, CustomerOrder, oid).None? {
        CreateAfterMissKeepsUnique(st.ledger, payload);
      }
    }
    (st.(ledger := l, msCreated := st.msCreated + {oid},
         tally := st.tally.(createdOrders := st.tally.createdOrders + 1)), i)
  }

  /** Step 3 and on for an order with no Demand, no cancellation and no
      CustomerOrder yet: skipped when it has no article or the article names
      no product, otherwise its CustomerOrder is created and advanced. */
  function Onboard(env: Env, st: RunState, n: nat, rawArticle: string): (r: (Outcome, RunState))
    ensures r.0 in {SkippedNoArticle, SkippedNoProduct, KeptActive} || r.0.DemandCreated?
    ensures r.0 == SkippedNoArticle <==> ExtractArticle(rawArticle) == ""
    ensures r.0 == SkippedNoProduct <==> ExtractArticle(rawArticle) != "" && ExtractArticle(rawArticle) !in env.catalog
    ensures r.0 in {SkippedNoArticle, SkippedNoProduct} ==> r.1.ledger == st.ledger && r.1.active == st.active
    ensures r.0 == KeptActive ==> r.1.active == st.active + {NatToString(n)}
    ensures r.0.DemandCreated? && Continues(r.0) ==> r.1.active == st.active - {NatToString(n)}
    ensures r.0 == DemandCreated(OtherError) ==> r.1.active == st.active
  {
    var article := ExtractArticle(rawArticle);
    if article == "" then
      (SkippedNoArticle, st.(tally := st.tally.(skippedNoArticle := st.tally.skippedNoArticle + 1)))
    else if article !in env.catalog then
      (SkippedNoProduct, st.(tally := st.tally.(skippedNoProduct := st.tally.skippedNoProduct + 1)))
    else
      var (st2, i) := NewOrder(env, st, n, env.catalog[article]);
      Advance(env, st2, NatToString(n), StatusOf(env, n), i)
  }

  /** The loop body of `main` for an order that has an id (steps 1 to 5). */
  function StepWithId(env: Env, st: RunState, n: nat, rawArticle: string): (r: (Outcome, RunState))
    ensures r.0 != NoId
    ensures r.0 == DemandExisted <==> FindByCode(st.ledger, Demand, NatToString(n)).Some?
    ensures r.0 == Cancelled <==>
      FindByCode(st.ledger, Demand, NatToString(n)).None? && IsCancellation(StatusOf(env, n).supplier, StatusOf(env, n).wb)
    ensures r.0 in {DemandExisted, Cancelled, DemandCreated(Applied), DemandCreated(LeftPendingNoStock)} ==>
      r.1.active == st.active - {NatToString(n)}
    ensures r.0 == KeptActive ==> r.1.active == st.active + {NatToString(n)}
    ensures r.0 in {SkippedNoArticle, SkippedNoProduct, DemandCreated(OtherError)} ==> r.1.active == st.active
    ensures r.0 in {DemandExisted, SkippedNoArticle, SkippedNoProduct} ==> r.1.ledger == st.ledger
  {
    var oid := NatToString(n);
    var sp := StatusOf(env, n);
    if FindByCode(st.ledger, Demand, oid).Some? then
      var st2 := Deactivate(st, oid);
      (DemandExisted, st2.(tally := st2.tally.(demandExists := st2.tally.demandExists + 1)))
    else if IsCancellation(sp.supplier, sp.wb) then
      var st2 := Deactivate(st, oid);
      (Cancelled, st2.(ledger := CancelOrder(env.cfg, st.ledger, oid),
                       tally := st2.tally.(cancelled := st2.tally.cancelled + 1)))
    else match FindByCode(st.ledger, CustomerOrder, oid)
      case Some(i) => Advance(env, st, oid, sp, i)
      case None => Onboard(env, st, n, rawArticle)
  }

  /** What a step for order `key` promises about the run state: it touches
      only what is filed under `key`, keeps the ledger invariants, and counts
      every document it creates. */
  ghost predicate StepEffects(st: RunState, r: (Outcome, RunState), key: string) {
    && StepFrame(st, r.1, key)
    && (LedgerOk(st.ledger) ==> LedgerOk(r.1.ledger))
    && (r.0 in {DemandExisted, Cancelled, SkippedNoArticle, SkippedNoProduct} ==> |r.1.ledger.docs| == |st.ledger.docs|)
    && (Continues(r.0) ==>
          |r.1.ledger.docs| - |st.ledger.docs|
            == (r.1.tally.createdOrders - st.tally.createdOrders) + (r.1.tally.createdDemands - st.tally.createdDemands))
  }

  lemma AdvanceEffects(env: Env, st: RunState, oid: string, sp: StatusPair, i: nat)
    requires i < |st.ledger.docs| && st.ledger.docs[i].kind == CustomerOrder
    requires st.ledger.docs[i].externalCode == oid && oid != ""
    requires FindByCode(st.ledger, Demand, oid).None?
    ensures StepEffects(st, Advance(env, st, oid, sp, i), oid)
  {
    AdvanceTally(env, st, oid, sp, i);
  }

  lemma OnboardEffects(env: Env, st: RunState, n: nat, rawArticle: string)
    requires FindByCode(st.ledger, Demand, NatToString(n)).None?
    requires FindByCode(st.ledger, CustomerOrder, NatToString(n)).None?
    ensures StepEffects(st, Onboard(env, st, n, rawArticle), NatToString(n))
  {
    var oid := NatToString(n);
    var article := ExtractArticle(rawArticle);
    if article != "" && article in env.catalog {
      var (st2, i) := NewOrder(env, st, n, env.catalog[article]);
      var r := Advance(env, st2, oid, StatusOf(env, n), i);
      assert Onboard(env, st, n, rawArticle) == r;
      AdvanceEffects(env, st2, oid, StatusOf(env, n), i);
      AfterNewOrderEffects(st, st2, r, oid);
    }
  }

  /** The effects of advancing a just-created order, counted from before its
      creation. */
  lemma AfterNewOrderEffects(st: RunState, st2: RunState, r: (Outcome, RunState), oid: string)
    requires StepEffects(st2, r, oid) && (r.0 == KeptActive || r.0.DemandCreated?)
    requires TouchesOnly(st.ledger, st2.ledger, oid) && |st2.ledger.docs| == |st.ledger.docs| + 1
    requires st2.active == st.active && st2.tally == st.tally.(createdOrders := st.tally.createdOrders + 1)
    requires LedgerOk(st.ledger) ==> LedgerOk(st2.ledger)
    ensures StepEffects(st, r, oid)
  {
    TouchesOnlyTrans(st.ledger, st2.ledger, r.1.ledger, oid);
  }

  /** A step for order `n` touches only what is filed under its key, keeps the
      ledger invariants, and counts every document it creates. */
  lemma StepWithIdEffects(env: Env, st: RunState, n: nat, rawArticle: string)
    ensures
      var r := StepWithId(env, st, n, rawArticle);
      && StepFrame(st, r.1, NatToString(n))
      && (LedgerOk(st.ledger) ==> LedgerOk(r.1.ledger))
      && (r.0 in {DemandExisted, Cancelled, SkippedNoArticle, SkippedNoProduct} ==> |r.1.ledger.docs| == |st.ledger.docs|)
      && (Continues(r.0) ==>
            |r.1.ledger.docs| - |st.ledger.docs|
              == (r.1.tally.createdOrders - st.tally.createdOrders) + (r.1.tally.createdDemands - st.tally.createdDemands))
  {
    var sp := StatusOf(env, n);
    if FindByCode(st.ledger, Demand, NatToString(n)).Some? || IsCancellation(sp.supplier, sp.wb) {
      EarlyStepEffects(env, st, n, rawArticle);
    } else {
      LaterStepEffects(env, st, n, rawArticle);
    }
  }

  /** Steps 1 and 2: a known Demand or a cancellation. */
  lemma EarlyStepEffects(env: Env, st: RunState, n: nat, rawArticle: string)
    requires FindByCode(st.ledger, Demand, NatToString(n)).Some? ||
      IsCancellation(StatusOf(env, n).supplier, StatusOf(env, n).wb)
    ensures StepEffects(st, StepWithId(env, st, n, rawArticle), NatToString(n))
  {
  }

  /** Steps 3 to 5: the order is advanced, or onboarded first. */
  lemma LaterStepEffects(env: Env, st: RunState, n: nat, rawArticle: string)
    requires FindByCode(st.ledger, Demand, NatToString(n)).None?
    requires !IsCancellation(StatusOf(env, n).supplier, StatusOf(env, n).wb)
    ensures StepEffects(st, StepWithId(env, st, n, rawArticle), NatToString(n))
  {
    var oid := NatToString(n);
    match FindByCode(st.ledger, CustomerOrder, oid)
    case Some(i) =>
      assert StepWithId(env, st, n, rawArticle) == Advance(env, st, oid, StatusOf(env, n), i);
      AdvanceEffects(env, st, oid, StatusOf(env, n), i);
    case None =>
      assert StepWithId(env, st, n, rawArticle) == Onboard(env, st, n, rawArticle);
      OnboardEffects(env, st, n, rawArticle);
  }

  /** One iteration of the loop over the filtered orders. */
  function Step(env: Env, st: RunState, o: WbOrder): (r: (Outcome, RunState))
    ensures o.id.None? <==> r.0 == NoId
    ensures o.id.None? ==> r.1 == st
    ensures o.id.Some? ==> StepFrame(st, r.1, NatToString(o.id.value))
    ensures LedgerOk(st.ledger) ==> LedgerOk(r.1.ledger)
  {
    match o.id
    case None => (NoId, st)
    case Some(n) =>
      StepWithIdEffects(env, st, n, o.article);
      StepWithId(env, st, n, o.article)
  }

  /** The ids of the orders, as the external codes they are filed under. */
  function OrderKeys(orders: seq<WbOrder>): set<string> {
    set i | 0 <= i < |orders| && orders[i].id.Some? :: NatToString(orders[i].id.value)
  }

  /** The loop of `main` over the filtered orders; `r.1` is false when it
      stopped on a Demand that could not be applied. */
  function Pass(env: Env, st: RunState, orders: seq<WbOrder>): (r: (RunState, bool))
    ensures Extends(st.ledger, r.0.ledger)
    ensures LedgerOk(st.ledger) ==> LedgerOk(r.0.ledger)
    ensures forall x :: x !in OrderKeys(orders) ==> (x in r.0.active <==> x in st.active)
    decreases |orders|
  {
    if |orders| == 0 then (st, true)
    else
      var (out, st2) := Step(env, st, orders[0]);
      if !Continues(out) then (st2, false)
      else
        var r := Pass(env, st2, orders[1..]);
        assert OrderKeys(orders) == OrderKeys(orders[..1]) + OrderKeys(orders[1..]) by {
          KeysSplit(orders);
        }
        r
  }

  lemma KeysSplit(orders: seq<WbOrder>)
    requires |orders| > 0
    ensures OrderKeys(orders) == OrderKeys(orders[..1]) + OrderKeys(orders[1..])
  {
    forall x | x in OrderKeys(orders) ensures x in OrderKeys(orders[..1]) + OrderKeys(orders[1..]) {
      var i :| 0 <= i < |orders| && orders[i].id.Some? && x == NatToString(orders[i].id.value);
      if i > 0 {
        assert orders[1..][i - 1] == orders[i];
      } else {
        assert orders[..1][0] == orders[0];
      }
    }
    forall x | x in OrderKeys(orders[1..]) ensures x in OrderKeys(orders) {
      var i :| 0 <= i < |orders[1..]| && orders[1..][i].id.Some? && x == NatToString(orders[1..][i].id.value);
      assert orders[i + 1] == orders[1..][i];
    }
  }

  /** What survives between runs: the two JSON sets. */
  datatype Saved = Saved(active: set<string>, msCreated: set<string>)

  /** The result of one run: what is saved, the ledger afterwards, the tally,
      and whether the run reached its end. */
  datatype RunResult = RunResult(saved: Saved, ledger: Ledger, tally: Tally, completed: bool)

  /** `orders_sync.main` from the listed orders on. The `active` set is saved
      only when the loop finishes; `ms_created` is saved after every creation. */
  function Run(env: Env, saved: Saved, ledger: Ledger, listed: seq<WbOrder>, minCreatedAt: int): (r: RunResult)
    ensures Extends(ledger, r.ledger)
    ensures LedgerOk(ledger) ==> LedgerOk(r.ledger)
    ensures !r.completed ==> r.saved.active == saved.active
    ensures forall x :: x !in OrderKeys(FilterByCreatedAt(listed, minCreatedAt).0) ==>
      (x in r.saved.active <==> x in saved.active)
  {
    var orders := FilterByCreatedAt(listed, minCreatedAt).0;
    var (st, completed) := Pass(env, RunState(saved.active, saved.msCreated, ledger, NoTally), orders);
    RunResult(Saved(if completed then st.active else saved.active, st.msCreated), st.ledger, st.tally, completed)
  }

  /** `main` as written: the deny set (orders_sync.py line 272) reads
      `ms_status_confirm_id` and `ms_status_confirm2_id`, which the frozen
      `Config` dataclass does not declare, so the attribute lookup raises
      before the first order on every run. Nothing is created and neither
      JSON set is written. `Run` is the run with both ids as optional
      settings, as `resolve_ms_customerorder_state_id` evidently intends. */
  function RunAsWritten(env: Env, saved: Saved, ledger: Ledger, listed: seq<WbOrder>, minCreatedAt: int): (r: RunResult)
    ensures r.ledger == ledger && r.saved == saved && !r.completed
  {
    RunResult(saved, ledger, NoTally, false)
  }

  /** The two runs part on any new order whose article names a product: the
      intended run files its CustomerOrder, the run as written files
      nothing. */
  lemma ConfirmFieldsAbortRun(env: Env, saved: Saved, ledger: Ledger, o: WbOrder, minCreatedAt: int)
    requires o.id.Some? && CreatedSince(o, minCreatedAt)
    requires ExtractArticle(o.article) != "" && ExtractArticle(o.article) in env.catalog
    requires FindByCode(ledger, Demand, NatToString(o.id.value)).None?
    requires FindByCode(ledger, CustomerOrder, NatToString(o.id.value)).None?
    requires !IsCancellation(StatusOf(env, o.id.value).supplier, StatusOf(env, o.id.value).wb)
    ensures var fixed := Run(env, saved, ledger, [o], minCreatedAt);
      && |fixed.ledger.docs| > |ledger.docs|
      && fixed.ledger.docs[|ledger.docs|].kind == CustomerOrder
      && fixed.ledger.docs[|ledger.docs|].externalCode == NatToString(o.id.value)
    ensures RunAsWritten(env, saved, ledger, [o], minCreatedAt).ledger == ledger
  {
    var st := RunState(saved.active, saved.msCreated, ledger, NoTally);
    FilterByCreatedAtSingle(o, minCreatedAt);
    assert Run(env, saved, ledger, [o], minCreatedAt).ledger == Pass(env, st, [o]).0.ledger;
    OnboardFilesOrder(env, st, o);
    PassOfOne(env, st, o);
    assert SameIdentity(Step(env, st, o).1.ledger.docs[|ledger.docs|], Pass(env, st, [o]).0.ledger.docs[|ledger.docs|]);
  }

  /** The step for a new order whose article names a product files its
      CustomerOrder after every existing document. */
  lemma OnboardFilesOrder(env: Env, st: RunState, o: WbOrder)
    requires o.id.Some? && ExtractArticle(o.article) != "" && ExtractArticle(o.article) in env.catalog
    requires FindByCode(st.ledger, Demand, NatToString(o.id.value)).None?
    requires FindByCode(st.ledger, CustomerOrder, NatToString(o.id.value)).None?
    requires !IsCancellation(StatusOf(env, o.id.value).supplier, StatusOf(env, o.id.value).wb)
    ensures var l := Step(env, st, o).1.ledger;
      && |l.docs| > |st.ledger.docs|
      && l.docs[|st.ledger.docs|].kind == CustomerOrder
      && l.docs[|st.ledger.docs|].externalCode == NatToString(o.id.value)
  {
    var n := o.id.value;
    var oid := NatToString(n);
    var product := env.catalog[ExtractArticle(o.article)];
    var (st1, i) := NewOrder(env, st, n, product);
    assert st1.ledger.docs[i] == BuildOrderPayload(env.cfg, n, product);
    var step := Advance(env, st1, oid, StatusOf(env, n), i);
    assert Step(env, st, o) == step;
    assert SameIdentity(st1.ledger.docs[i], step.1.ledger.docs[i]);
  }

  /** A pass over one order ends where its step leaves the ledger. */
  lemma PassOfOne(env: Env, st: RunState, o: WbOrder)
    ensures Pass(env, st, [o]).0.ledger == Step(env, st, o).1.ledger
  {
    assert [o][0] == o && [o][1..] == [];
  }
}

=== FILE: stocks.dfy ===
/** The stock push (`app/stocks_sync.py`): MoySklad stock-report rows become
    `{sku, amount}` lines for Wildberries, then go out in batches.

    A row's SKU is its own article/code/externalCode when it has one, and
    otherwise the one of the assortment entity its href points at, fetched
    once per href and cached. */
module Stocks {
  import opened Wrappers
  import opened Text

  /** One row of the stock report. `stock` and `reserve` are 0 when missing.
      `assortment` and `product` are the nested entities: `None` when
      missing or empty, otherwise the `meta.href` they carry ("" when that
      is missing). */
  datatype Row = Row(
    stock: int,
    reserve: int,
    article: string,
    code: string,
    externalCode: string,
    assortment: Option<string>,
    product: Option<string>)

  /** The fields of a fetched assortment entity the SKU is read from. */
  datatype Entity = Entity(article: string, code: string, externalCode: string)

  /** An outgoing stock line. */
  datatype StockLine = StockLine(sku: string, amount: int)

  datatype Stats = Stats(total: nat, sent: nat, skippedNoSku: nat, assortmentFetch: nat)

  /** `_calc_available`: stock minus reserve, never below zero. */
  function CalcAvailable(r: Row): (n: int)
    ensures n >= 0 && n >= r.stock - r.reserve
    ensures n == 0 || n == r.stock - r.reserve
  {
    if r.stock - r.reserve > 0 then r.stock - r.reserve else 0
  }

  /** The first non-empty of article, code and externalCode, stripped. */
  function SkuOf(article: string, code: string, externalCode: string): string {
    Strip(Or(article, Or(code, externalCode)))
  }

  /** `extract_inline`: the SKU the row itself carries. */
  function InlineSku(r: Row): string {
    SkuOf(r.article, r.code, r.externalCode)
  }

  /** The href `extract_from_assortment` would fetch: the assortment's when
      there is one, else the product's, else "". */
  function HrefOf(r: Row): string {
    if r.assortment.Some? then r.assortment.value
    else if r.product.Some? then r.product.value
    else ""
  }

  /** The SKU of the entity behind `href`. */
  function RemoteSku(remote: string -> Entity, href: string): string {
    var e := remote(href);
    SkuOf(e.article, e.code, e.externalCode)
  }

  /** The SKU lookup behind hrefs, as a function value. */
  function Lookup(remote: string -> Entity): string -> string {
    h => RemoteSku(remote, h)
  }

  /** The SKU a row resolves to, with no cache in between, given how the
      inline SKU is read and how an href is looked up: the inline one when
      not empty, else the looked-up one when there is an href, else "". */
  function ResolveWith(inlineSku: Row -> string, lookup: string -> string, r: Row): string {
    if inlineSku(r) != "" then inlineSku(r)
    else if HrefOf(r) == "" then ""
    else lookup(HrefOf(r))
  }

  function Resolver(inlineSku: Row -> string, lookup: string -> string): Row -> string {
    r => ResolveWith(inlineSku, lookup, r)
  }

  /** The SKU `build_stocks_payload` settles on for a row. */
  function Resolve(remote: string -> Entity, r: Row): string {
    ResolveWith(InlineSku, Lookup(remote), r)
  }

  /** The line a row contributes when its SKU resolves to `sku`: the SKU and
      the available amount, or nothing for an empty SKU. */
  function LineOf(sku: string, r: Row): seq<StockLine> {
    if sku != "" then [StockLine(sku, CalcAvailable(r))] else []
  }

  /** The payload of the first `n` rows, each row's SKU given by `resolve`:
      one line per row whose SKU is not empty, in row order. */
  function PayloadUpTo(resolve: Row -> string, rows: seq<Row>, n: nat): (out: seq<StockLine>)
    requires n <= |rows|
    ensures |out| <= n
  {
    if n == 0 then [] else PayloadUpTo(resolve, rows, n - 1) + LineOf(resolve(rows[n - 1]), rows[n - 1])
  }

  /** The payload `build_stocks_payload` should produce, as a plain filter
      and map over the rows. */
  function Payload(remote: string -> Entity, rows: seq<Row>): seq<StockLine> {
    PayloadUpTo(Resolver(InlineSku, Lookup(remote)), rows, |rows|)
  }

  /** Every line of the payload comes from a row whose SKU resolves, and
      carries that SKU and the row's available amount. */
  lemma {:induction false} PayloadSound(resolve: Row -> string, rows: seq<Row>, n: nat, q: StockLine)
    requires n <= |rows| && q in PayloadUpTo(resolve, rows, n)
    ensures q.sku != "" && q.amount >= 0
    ensures exists i :: (0 <= i < n && resolve(rows[i]) != "" &&
      q == StockLine(resolve(rows[i]), CalcAvailable(rows[i])))
  {
    if q in PayloadUpTo(resolve, rows, n - 1) {
      PayloadSound(resolve, rows, n - 1, q);
    } else {
      assert q in LineOf(resolve(rows[n - 1]), rows[n - 1]);
    }
  }

  /** Every row whose SKU resolves has its line in the payload. */
  lemma {:induction false} PayloadComplete(resolve: Row -> string, rows: seq<Row>, n: nat, i: nat)
    requires i < n <= |rows| && resolve(rows[i]) != ""
    ensures StockLine(resolve(rows[i]), CalcAvailable(rows[i])) in PayloadUpTo(resolve, rows, n)
  {
    if i < n - 1 {
      PayloadComplete(resolve, rows, n - 1, i);
    }
  }

  /** A row resolves either to nothing or to a trimmed SKU, the inline one
      or the looked-up one. */
  lemma ResolveTrimmed(remote: string -> Entity, r: Row)
    ensures Resolve(remote, r) == "" || Trimmed(Resolve(remote, r))
  {
    var e := remote(HrefOf(r));
    var fetched := Strip(Or(e.article, Or(e.code, e.externalCode)));
    var own := Strip(Or(r.article, Or(r.code, r.externalCode)));
    assert own == "" || Trimmed(own);
    assert fetched == "" || Trimmed(fetched);
  }

  /** What Wildberries receives: every SKU in the payload is non-empty and trimmed, and
      every amount is at least 0. */
  lemma PayloadLinesClean(remote: string -> Entity, rows: seq<Row>, q: StockLine)
    requires q in Payload(remote, rows)
    ensures q.sku != "" && Trimmed(q.sku) && q.amount >= 0
  {
    var resolve := Resolver(InlineSku, Lookup(remote));
    PayloadSound(resolve, rows, |rows|, q);
    var i :| 0 <= i < |rows| && resolve(rows[i]) != "" && q == StockLine(resolve(rows[i]), CalcAvailable(rows[i]));
    ResolveTrimmed(remote, rows[i]);
  }

  /** No href is listed twice. */
  predicate Distinct(s: seq<string>) {
    forall a, b :: 0 <= a < b < |s| ==> s[a] != s[b]
  }

  /** Does the row need the assortment lookup: no inline SKU, but an href? */
  predicate NeedsFetch(inlineSku: Row -> string, r: Row) {
    inlineSku(r) == "" && HrefOf(r) != ""
  }

  /** Does some row among the first `n` need `href` fetched? */
  predicate Needed(inlineSku: Row -> string, rows: seq<Row>, n: int, href: string) {
    exists j :: 0 <= j < n && j < |rows| && NeedsFetch(inlineSku, rows[j]) && HrefOf(rows[j]) == href
  }

  /** The hrefs some row among the first `n` needs fetched. */
  function FetchSet(inlineSku: Row -> string, rows: seq<Row>, n: nat): set<string>
    requires n <= |rows|
  {
    if n == 0 then {}
    else
      var own := if NeedsFetch(inlineSku, rows[n - 1]) then {HrefOf(rows[n - 1])} else {};
      FetchSet(inlineSku, rows, n - 1) + own
  }

  lemma {:induction false} FetchSetNeeded(inlineSku: Row -> string, rows: seq<Row>, n: nat, h: string)
    requires n <= |rows|
    ensures h in FetchSet(inlineSku, rows, n) <==> Needed(inlineSku, rows, n, h)
  {
    if n > 0 {
      FetchSetNeeded(inlineSku, rows, n - 1, h);
      if Needed(inlineSku, rows, n, h) {
        var j :| 0 <= j < n && NeedsFetch(inlineSku, rows[j]) && HrefOf(rows[j]) == h;
        if j < n - 1 {
          assert Needed(inlineSku, rows, n - 1, h);
        }
      }
    }
  }

  /** The hrefs fetched so far are exactly those the first `n` rows need. */
  ghost predicate FetchedFor(inlineSku: Row -> string, rows: seq<Row>, n: nat, fetches: seq<string>)
    requires n <= |rows|
  {
    forall h :: h in fetches <==> h in FetchSet(inlineSku, rows, n)
  }

  /** The href cache: every href it holds has been fetched once, and maps to
      the SKU looked up for it. */
  ghost predicate CacheOk(lookup: string -> string, cache: map<string, string>, fetches: seq<string>) {
    && Distinct(fetches)
    && (forall h :: h in cache <==> h in fetches)
    && (forall h :: h in cache ==> cache[h] == lookup(h))
  }

  /** `extract_inline`, then `extract_from_assortment` when that is empty:
      the row's SKU through the cache. `fetched` says whether the entity had
      to be fetched, which happens exactly when the row needs an href the
      cache does not hold yet. */
  method RowSku(inlineSku: Row -> string, lookup: string -> string, r: Row,
                cache: map<string, string>, fetches: seq<string>)
    returns (sku: string, cache': map<string, string>, fetches': seq<string>, fetched: bool)
    requires CacheOk(lookup, cache, fetches)
    ensures sku == ResolveWith(inlineSku, lookup, r)
    ensures CacheOk(lookup, cache', fetches')
    ensures fetched <==> NeedsFetch(inlineSku, r) && HrefOf(r) !in fetches
    ensures fetches' == if fetched then fetches + [HrefOf(r)] else fetches
  {
    sku, cache', fetches', fetched := inlineSku(r), cache, fetches, false;
    if sku == "" {
      var href := HrefOf(r);
      if href != "" {
        if href in cache {
          sku := cache[href];
        } else {
          sku := lookup(href);
          cache' := cache[href := sku];
          fetches' := fetches + [href];
          fetched := true;
        }
      }
    }
  }

  /** Is `out` the payload of the first `n` rows? */
  ghost predicate PayloadSoFar(inlineSku: Row -> string, lookup: string -> string,
                               rows: seq<Row>, n: nat, out: seq<StockLine>)
    requires n <= |rows|
  {
    out == PayloadUpTo(Resolver(inlineSku, lookup), rows, n)
  }

  /** One turn of the loop in `build_stocks_payload`: resolve row `i`
      through the cache and append its line when the SKU is not empty. */
  method TakeRow(inlineSku: Row -> string, lookup: string -> string, rows: seq<Row>, i: nat,
                 out: seq<StockLine>, sent: nat, cache: map<string, string>, fetches: seq<string>)
    returns (lineSent: bool, out': seq<StockLine>, sent': nat,
             cache': map<string, string>, fetches': seq<string>, fetched: bool)
    requires i < |rows| && PayloadSoFar(inlineSku, lookup, rows, i, out) && sent == |out|
    requires CacheOk(lookup, cache, fetches)
    requires FetchedFor(inlineSku, rows, i, fetches)
    ensures PayloadSoFar(inlineSku, lookup, rows, i + 1, out') && sent' == |out'|
    ensures CacheOk(lookup, cache', fetches')
    ensures FetchedFor(inlineSku, rows, i + 1, fetches')
    ensures sent' == if lineSent then sent + 1 else sent
    ensures |fetches'| == if fetched then |fetches| + 1 else |fetches|
  {
    var sku;
    sku, cache', fetches', fetched := RowSku(inlineSku, lookup, rows[i], cache, fetches);
    lineSent := sku != "";
    out' := out + LineOf(sku, rows[i]);
    sent' := if lineSent then sent + 1 else sent;
  }

  /** The loop of `build_stocks_payload`, for any way of reading the inline
      SKU and looking up an href. */
  method BuildWith(inlineSku: Row -> string, lookup: string -> string, rows: seq<Row>)
    returns (out: seq<StockLine>, stats: Stats, fetches: seq<string>)
    ensures out == PayloadUpTo(Resolver(inlineSku, lookup), rows, |rows|)
    ensures stats.total == |rows| && stats.sent == |out|
    ensures stats.sent + stats.skippedNoSku == stats.total
    ensures stats.assortmentFetch == |fetches| && Distinct(fetches)
    ensures forall h :: h in fetches <==> Needed(inlineSku, rows, |rows|, h)
  {
    out, fetches := [], [];
    var total, sent, skipped, fetchCount := 0, 0, 0, 0;
    var cache: map<string, string> := map[];
    var i := 0;
    while i < |rows|
      invariant 0 <= i <= |rows|
      invariant PayloadSoFar(inlineSku, lookup, rows, i, out)
      invariant total == i && sent == |out| && sent + skipped == i
      invariant fetchCount == |fetches| && CacheOk(lookup, cache, fetches)
      invariant FetchedFor(inlineSku, rows, i, fetches)
    {
      total := total + 1;
      var lineSent, fetched;
      lineSent, out, sent, cache, fetches, fetched :=
        TakeRow(inlineSku, lookup, rows, i, out, sent, cache, fetches);
      if fetched {
        fetchCount := fetchCount + 1;
      }
      if !lineSent {
        skipped := skipped + 1;
      }
      i := i + 1;
    }
    stats := Stats(total, sent, skipped, fetchCount);
    FetchedAllNeeded(inlineSku, rows, fetches);
  }

  /** Once every row is taken, the hrefs fetched are exactly those needed. */
  lemma FetchedAllNeeded(inlineSku: Row -> string, rows: seq<Row>, fetches: seq<string>)
    requires FetchedFor(inlineSku, rows, |rows|, fetches)
    ensures forall h :: h in fetches <==> Needed(inlineSku, rows, |rows|, h)
  {
    forall h {
      FetchSetNeeded(inlineSku, rows, |rows|, h);
    }
  }

  /** `build_stocks_payload`, with the assortment fetch as the function
      `remote`. Also returns the hrefs fetched, in fetch order.

      The cache makes no difference to the result: the lines are those of
      `Payload`. Every href a row needs is fetched exactly once, whether its
      entity has a SKU or not, and no other href is fetched. */
  method BuildStocksPayload(remote: string -> Entity, rows: seq<Row>)
    returns (out: seq<StockLine>, stats: Stats, fetches: seq<string>)
    ensures out == Payload(remote, rows)
    ensures stats.total == |rows| && stats.sent == |out|
    ensures stats.sent + stats.skippedNoSku == stats.total
    ensures stats.assortmentFetch == |fetches| && Distinct(fetches)
    ensures forall h :: h in fetches <==> Needed(InlineSku, rows, |rows|, h)
  {
    out, stats, fetches := BuildWith(InlineSku, Lookup(remote), rows);
  }

  /** The concatenation of a list of lists. */
  function Flatten<T>(ss: seq<seq<T>>): seq<T> {
    if |ss| == 0 then [] else ss[0] + Flatten(ss[1..])
  }

  /** `chunk(lst, n)`: consecutive slices of `n` items, the last one
      shorter when `n` does not divide the length. Written as a recursion
      over the list rather than as the comprehension over
      `range(0, len(lst), n)`; the slices are the same. */
  function Chunk<T>(s: seq<T>, n: nat): (r: seq<seq<T>>)
    requires n > 0
    ensures Flatten(r) == s
    ensures forall k :: 0 <= k < |r| ==> 0 < |r[k]| <= n
    ensures forall k :: 0 <= k < |r| - 1 ==> |r[k]| == n
    decreases |s|
  {
    if |s| == 0 then []
    else if |s| <= n then
      assert Flatten([s]) == s + Flatten([]);
      [s]
    else
      var rest := Chunk(s[n..], n);
      var r := [s[..n]] + rest;
      assert r[1..] == rest;
      assert Flatten(r) == s[..n] + Flatten(rest);
      assert s[..n] + s[n..] == s;
      assert forall k :: 1 <= k < |r| ==> r[k] == rest[k - 1];
      r
  }
}

=== FILE: supply_docs.dfy ===
/** The FBW documents: the supply's CustomerOrder, its Move and its Demand,
    each found by a deterministic key before anything is created, and the
    planned-date update of the order. */
module SupplyDocs {
  import opened Wrappers
  import opened Text
  import opened Ledger
  import opened OrderPayload
  import opened SupplyText

  /** The settings the supply flow reads (both configuration records). */
  datatype FbwConfig = FbwConfig(
    baseUrl: string,
    orgId: string,
    agentIdWb: string,
    storeIdWb: string,
    salesChannelIdFbw: string,
    statusCustomerOrderId: string,
    statusMoveId: string,
    statusDemandId: string,
    storeSourceId: string,
    storeWbId: string,
    tzOffset: string)

  /** `f"fbw-{number}"`: the name and external code of a supply's order. */
  function OrderKey(number: string): string {
    "fbw-" + number
  }

  /** The catalog can serve line `g`: it has an article and a positive
      quantity, and the catalog knows the article. */
  predicate Serves(catalog: map<string, Product>, g: Good) {
    ExtractGoodArticle(g) != "" && g.qty > 0 && ExtractGoodArticle(g) in catalog
  }

  /** Line `g` asks for article `a`, in a positive quantity, and the catalog
      does not know `a`. */
  predicate Unknown(catalog: map<string, Product>, g: Good, a: string) {
    a == ExtractGoodArticle(g) && a != "" && g.qty > 0 && a !in catalog
  }

  /** What becomes of one supply line: skipped (no article or no positive
      quantity), missing from the catalog, or a line for `product`. */
  datatype LineResult = Skip | Missing(article: string) | Line(product: Product, qty: int)

  function Classify(catalog: map<string, Product>, g: Good): (r: LineResult)
    ensures r.Line? ==> r.qty > 0 && r.qty == g.qty && ExtractGoodArticle(g) in catalog
    ensures r.Missing? ==> r.article == ExtractGoodArticle(g) && r.article != "" && r.article !in catalog
    ensures r.Skip? <==> ExtractGoodArticle(g) == "" || g.qty <= 0
    ensures r.Line? <==> Serves(catalog, g)
    ensures r.Line? ==> r.product == catalog[ExtractGoodArticle(g)]
    ensures r.Missing? <==> Unknown(catalog, g, ExtractGoodArticle(g))
  {
    var article := ExtractGoodArticle(g);
    if article == "" || g.qty <= 0 then Skip
    else if article !in catalog then Missing(article)
    else Line(catalog[article], g.qty)
  }

  /** A document line: quantity and product, and the product's sale price
      when `priced` (the Demand's lines). */
  function LineFor(p: Product, qty: int, priced: bool): Position {
    Position(Some(qty), None, if priced then Some(DefaultPrice(p)) else None, Some(p.meta))
  }

  /** Every supply line, classified, in order. */
  function ClassifyAll(catalog: map<string, Product>, goods: seq<Good>): (r: seq<LineResult>)
    ensures |r| == |goods|
    ensures forall i :: 0 <= i < |goods| ==> r[i] == Classify(catalog, goods[i])
  {
    seq(|goods|, i requires 0 <= i < |goods| => Classify(catalog, goods[i]))
  }

  /** Classified lines that carry a positive quantity whenever they are lines. */
  predicate PositiveLines(cs: seq<LineResult>) {
    forall i :: 0 <= i < |cs| && cs[i].Line? ==> cs[i].qty > 0
  }

  /** The document lines, in order: one per classified line that is a `Line`. */
  function LinesOf(cs: seq<LineResult>, priced: bool): (r: seq<Position>)
    requires PositiveLines(cs)
    ensures |r| <= |cs|
    ensures forall i :: 0 <= i < |r| ==> r[i].quantity.Some? && r[i].quantity.value > 0 && r[i].assortment.Some?
  {
    if |cs| == 0 then []
    else
      assert forall i :: 1 <= i < |cs| ==> cs[i] == cs[1..][i - 1];
      var rest := LinesOf(cs[1..], priced);
      if cs[0].Line? then [LineFor(cs[0].product, cs[0].qty, priced)] + rest else rest
  }

  /** The head line, if it is a `Line`, then the lines of the rest. */
  lemma LinesOfCons(cs: seq<LineResult>, priced: bool)
    requires |cs| > 0 && PositiveLines(cs)
    ensures PositiveLines(cs[1..])
    ensures LinesOf(cs, priced) ==
      (if cs[0].Line? then [LineFor(cs[0].product, cs[0].qty, priced)] else []) + LinesOf(cs[1..], priced)
  {
    assert forall i :: 1 <= i < |cs| ==> cs[i] == cs[1..][i - 1];
    if !cs[0].Line? {
      assert [] + LinesOf(cs[1..], priced) == LinesOf(cs[1..], priced);
    }
  }

  /** Every `Line` gives a document line, every document line comes from a
      `Line`, and there are none exactly when no classified line is a `Line`. */
  lemma {:induction false} LinesOfMembers(cs: seq<LineResult>, priced: bool)
    requires PositiveLines(cs)
    ensures var r := LinesOf(cs, priced);
      && (forall i :: 0 <= i < |cs| && cs[i].Line? ==> LineFor(cs[i].product, cs[i].qty, priced) in r)
      && (forall q :: q in r ==> exists i :: 0 <= i < |cs| && cs[i].Line? && q == LineFor(cs[i].product, cs[i].qty, priced))
      && (r == [] <==> forall i :: 0 <= i < |cs| ==> !cs[i].Line?)
    decreases |cs|
  {
    if |cs| > 0 {
      var tail := cs[1..];
      LinesOfCons(cs, priced);
      LinesOfMembers(tail, priced);
      var r, rest := LinesOf(cs, priced), LinesOf(tail, priced);
      var h := if cs[0].Line? then [LineFor(cs[0].product, cs[0].qty, priced)] else [];
      assert r == h + rest;
      forall i | 0 <= i < |cs| && cs[i].Line? ensures LineFor(cs[i].product, cs[i].qty, priced) in r {
        if i == 0 {
          assert r[0] == LineFor(cs[0].product, cs[0].qty, priced);
        } else {
          assert cs[i] == tail[i - 1];
          assert LineFor(cs[i].product, cs[i].qty, priced) in rest;
        }
      }
      forall q | q in r ensures exists i :: 0 <= i < |cs| && cs[i].Line? && q == LineFor(cs[i].product, cs[i].qty, priced) {
        if q in h {
          assert cs[0].Line? && q == LineFor(cs[0].product, cs[0].qty, priced);
        } else {
          assert q in rest;
          var k :| 0 <= k < |tail| && tail[k].Line? && q == LineFor(tail[k].product, tail[k].qty, priced);
          assert cs[k + 1] == tail[k];
        }
      }
      if cs[0].Line? {
        assert r != [];
      } else {
        assert (forall i :: 0 <= i < |cs| ==> !cs[i].Line?) <==> (forall i :: 0 <= i < |tail| ==> !tail[i].Line?) by {
          if forall i :: 0 <= i < |tail| ==> !tail[i].Line? {
            forall i | 0 <= i < |cs| ensures !cs[i].Line? {
              if i > 0 { assert cs[i] == tail[i - 1]; }
            }
          }
        }
      }
    }
  }

  /** The document lines for `goods`: one per line whose article is in the
      catalog and whose quantity is positive, in order. */
  function Lines(catalog: map<string, Product>, goods: seq<Good>, priced: bool): (r: seq<Position>)
    ensures forall i :: 0 <= i < |goods| && Serves(catalog, goods[i]) ==>
      LineFor(catalog[ExtractGoodArticle(goods[i])], goods[i].qty, priced) in r
    ensures forall q :: q in r ==> exists i :: (0 <= i < |goods| && Serves(catalog, goods[i]) &&
      q == LineFor(catalog[ExtractGoodArticle(goods[i])], goods[i].qty, priced))
    ensures r == [] <==> forall i :: 0 <= i < |goods| ==> !Serves(catalog, goods[i])
  {
    LinesMembers(catalog, goods, priced);
    LinesOf(ClassifyAll(catalog, goods), priced)
  }

  lemma LinesMembers(catalog: map<string, Product>, goods: seq<Good>, priced: bool)
    ensures var r := LinesOf(ClassifyAll(catalog, goods), priced);
      && (forall i :: 0 <= i < |goods| && Serves(catalog, goods[i]) ==>
        LineFor(catalog[ExtractGoodArticle(goods[i])], goods[i].qty, priced) in r)
      && (forall q :: q in r ==> exists i :: (0 <= i < |goods| && Serves(catalog, goods[i]) &&
        q == LineFor(catalog[ExtractGoodArticle(goods[i])], goods[i].qty, priced)))
      && (r == [] <==> forall i :: 0 <= i < |goods| ==> !Serves(catalog, goods[i]))
  {
    var cs := ClassifyAll(catalog, goods);
    var r := LinesOf(cs, priced);
    LinesOfMembers(cs, priced);
    forall i | 0 <= i < |goods| && Serves(catalog, goods[i])
      ensures LineFor(catalog[ExtractGoodArticle(goods[i])], goods[i].qty, priced) in r
    {
      assert cs[i] == Classify(catalog, goods[i]);
    }
    forall q | q in r ensures exists i :: (0 <= i < |goods| && Serves(catalog, goods[i]) &&
        q == LineFor(catalog[ExtractGoodArticle(goods[i])], goods[i].qty, priced))
    {
      var k :| 0 <= k < |cs| && cs[k].Line? && q == LineFor(cs[k].product, cs[k].qty, priced);
      assert cs[k] == Classify(catalog, goods[k]);
    }
    assert (forall i :: 0 <= i < |cs| ==> !cs[i].Line?) <==> (forall i :: 0 <= i < |goods| ==> !Serves(catalog, goods[i])) by {
      forall i | 0 <= i < |goods| ensures cs[i].Line? <==> Serves(catalog, goods[i]) {
        assert cs[i] == Classify(catalog, goods[i]);
      }
    }
  }

  /** The lines of consecutive classified parts are the lines of each part,
      one after the other. */
  lemma {:induction false} LinesOfConcat(a: seq<LineResult>, b: seq<LineResult>, priced: bool)
    requires PositiveLines(a) && PositiveLines(b)
    ensures PositiveLines(a + b)
    ensures LinesOf(a + b, priced) == LinesOf(a, priced) + LinesOf(b, priced)
    decreases |a|
  {
    assert PositiveLines(a + b) by {
      forall i | 0 <= i < |a + b| && (a + b)[i].Line? ensures (a + b)[i].qty > 0 {
        if i >= |a| {
          assert (a + b)[i] == b[i - |a|];
        }
      }
    }
    if |a| == 0 {
      assert a + b == b;
    } else {
      assert (a + b)[0] == a[0];
      assert (a + b)[1..] == a[1..] + b;
      assert PositiveLines(a[1..]) by {
        forall i | 0 <= i < |a[1..]| && a[1..][i].Line? ensures a[1..][i].qty > 0 {
          assert a[1..][i] == a[i + 1];
        }
      }
      LinesOfConcat(a[1..], b, priced);
    }
  }

  /** Consecutive supply lines give consecutive document lines: the
      document keeps the supply's order and repeats a repeated line. */
  lemma LinesConcat(catalog: map<string, Product>, a: seq<Good>, b: seq<Good>, priced: bool)
    ensures Lines(catalog, a + b, priced) == Lines(catalog, a, priced) + Lines(catalog, b, priced)
  {
    var ca, cb := ClassifyAll(catalog, a), ClassifyAll(catalog, b);
    ClassifyAllConcat(catalog, a, b);
    LinesOfConcat(ca, cb, priced);
    assert Lines(catalog, a + b, priced) == LinesOf(ca + cb, priced);
    assert Lines(catalog, a, priced) == LinesOf(ca, priced);
    assert Lines(catalog, b, priced) == LinesOf(cb, priced);
  }

  lemma ClassifyAllConcat(catalog: map<string, Product>, a: seq<Good>, b: seq<Good>)
    ensures ClassifyAll(catalog, a + b) == ClassifyAll(catalog, a) + ClassifyAll(catalog, b)
  {
    var ca, cb := ClassifyAll(catalog, a), ClassifyAll(catalog, b);
    forall i | 0 <= i < |a + b| ensures ClassifyAll(catalog, a + b)[i] == (ca + cb)[i] {
      if i < |a| { assert (a + b)[i] == a[i]; } else { assert (a + b)[i] == b[i - |a|]; }
    }
  }

  /** One supply line gives one document line exactly when the catalog can
      serve it. With `LinesConcat` this fixes the document's lines. */
  lemma LinesSingle(catalog: map<string, Product>, g: Good, priced: bool)
    ensures Lines(catalog, [g], priced) ==
      if Serves(catalog, g) then [LineFor(catalog[ExtractGoodArticle(g)], g.qty, priced)] else []
  {
    var c := Classify(catalog, g);
    assert ClassifyAll(catalog, [g]) == [c];
    assert [c][1..] == [];
    assert LinesOf([c], priced) == if c.Line? then [LineFor(c.product, c.qty, priced)] else [];
  }

  /** The articles, in order, of the classified lines the catalog does not know. */
  function MissingOf(cs: seq<LineResult>): (r: seq<string>)
    ensures forall i :: 0 <= i < |cs| && cs[i].Missing? ==> cs[i].article in r
    ensures forall a :: a in r ==> exists i :: 0 <= i < |cs| && cs[i].Missing? && cs[i].article == a
  {
    if |cs| == 0 then []
    else
      var rest := MissingOf(cs[1..]);
      assert forall i :: 1 <= i < |cs| ==> cs[i] == cs[1..][i - 1];
      if cs[0].Missing? then [cs[0].article] + rest else rest
  }

  /** `not_found`: the articles, in order, that the catalog does not know. */
  function NotFound(catalog: map<string, Product>, goods: seq<Good>): (r: seq<string>)
    ensures forall a :: a in r <==> exists i :: 0 <= i < |goods| && Unknown(catalog, goods[i], a)
  {
    MissingOf(ClassifyAll(catalog, goods))
  }

  /** What `_ensure_customerorder` leaves behind: the ledger, the order (none
      when nothing could be ordered) and the articles it could not find. */
  datatype Ensured = Ensured(ledger: Ledger, order: Option<nat>, notFound: seq<string>)

  /** The existing order of a supply: by external code, else by name. */
  function ExistingOrder(l: Ledger, number: string): (r: Option<nat>)
    ensures r.Some? ==> r.value < |l.docs| && l.docs[r.value].kind == CustomerOrder
    ensures r.None? <==> FindByCode(l, CustomerOrder, OrderKey(number)).None? && FindByName(l, CustomerOrder, OrderKey(number)).None?
    ensures FindByCode(l, CustomerOrder, OrderKey(number)).Some? ==> r == FindByCode(l, CustomerOrder, OrderKey(number))
    ensures FindByCode(l, CustomerOrder, OrderKey(number)).None? ==> r == FindByName(l, CustomerOrder, OrderKey(number))
  {
    var byCode := FindByCode(l, CustomerOrder, OrderKey(number));
    if byCode.Some? then byCode else FindByName(l, CustomerOrder, OrderKey(number))
  }

  /** The CustomerOrder payload of a new supply. */
  function SupplyOrderPayload(
    fcfg: FbwConfig, number: string, planned: string, dest: string, lines: seq<Position>
  ): Doc {
    Doc(
      kind := CustomerOrder,
      name := OrderKey(number),
      externalCode := OrderKey(number),
      organization := EntityHref(fcfg.baseUrl, "organization", fcfg.orgId),
      agent := EntityHref(fcfg.baseUrl, "counterparty", fcfg.agentIdWb),
      store := EntityHref(fcfg.baseUrl, "store", fcfg.storeIdWb),
      targetStore := "",
      salesChannel := EntityHref(fcfg.baseUrl, "saleschannel", fcfg.salesChannelIdFbw),
      stateHref := StateHref(fcfg.baseUrl, "customerorder", fcfg.statusCustomerOrderId),
      comment := Comment(number, dest),
      plannedMoment := planned,
      positions := lines,
      customerOrder := None,
      applied := false)
  }

  /** A supply with no order yet: a new order holding `lines` (the catalog's
      lines for its goods), or nothing when there are none; `missing` is
      passed through as the articles the catalog did not know. */
  function NewSupplyOrder(
    fcfg: FbwConfig, l: Ledger, number: string, planned: string, dest: string,
    lines: seq<Position>, missing: seq<string>
  ): (r: Ensured)
    requires FindByCode(l, CustomerOrder, OrderKey(number)).None?
    ensures r.notFound == missing
    ensures lines == [] ==> r.ledger == l && r.order.None?
    ensures lines != [] ==>
      && r.ledger.docs == l.docs + [SupplyOrderPayload(fcfg, number, planned, dest, lines)]
      && r.order == Some(|l.docs|)
      && FindByCode(r.ledger, CustomerOrder, OrderKey(number)) == r.order
    ensures LedgerOk(l) ==> LedgerOk(r.ledger)
    ensures Extends(l, r.ledger)
  {
    if lines == [] then Ensured(l, None, missing)
    else
      var d := SupplyOrderPayload(fcfg, number, planned, dest, lines);
      var (l2, id) := Create(l, d);
      FindAfterCreate(l, d);
      assert LedgerOk(l) ==> LedgerOk(l2) by {
        if LedgerOk(l) {
          CreateAfterMissKeepsOk(l, d);
        }
      }
      Ensured(l2, Some(id), missing)
  }

  /** `_ensure_customerorder`: the supply's existing order, else a new one
      holding the lines the catalog can serve, else nothing. */
  function EnsureCustomerOrder(
    fcfg: FbwConfig, catalog: map<string, Product>, l: Ledger,
    number: string, planRaw: string, dest: string, goods: seq<Good>
  ): (r: Ensured)
    ensures ExistingOrder(l, number).Some? ==> r == Ensured(l, ExistingOrder(l, number), [])
    ensures ExistingOrder(l, number).None? ==>
      r == NewSupplyOrder(fcfg, l, number, NormalizeMoment(planRaw, fcfg.tzOffset), dest,
                          Lines(catalog, goods, false), NotFound(catalog, goods))
    ensures r.order.Some? ==> r.order.value < |r.ledger.docs| && r.ledger.docs[r.order.value].kind == CustomerOrder
    ensures r.order.Some? ==> ExistingOrder(r.ledger, number) == r.order
    ensures r.order.Some? <==> ExistingOrder(l, number).Some? || Lines(catalog, goods, false) != []
    ensures LedgerOk(l) ==> LedgerOk(r.ledger)
    ensures Extends(l, r.ledger)
  {
    var existing := ExistingOrder(l, number);
    if existing.Some? then Ensured(l, existing, [])
    else
      NewSupplyOrder(fcfg, l, number, NormalizeMoment(planRaw, fcfg.tzOffset), dest,
                     Lines(catalog, goods, false), NotFound(catalog, goods))
  }

  /** A second call finds the order the first one returned and changes nothing. */
  lemma EnsureCustomerOrderIdempotent(
    fcfg: FbwConfig, catalog: map<string, Product>, l: Ledger,
    number: string, planRaw: string, dest: string, goods: seq<Good>)
    ensures
      var first := EnsureCustomerOrder(fcfg, catalog, l, number, planRaw, dest, goods);
      var again := EnsureCustomerOrder(fcfg, catalog, first.ledger, number, planRaw, dest, goods);
      again.ledger == first.ledger && again.order == first.order
  {
  }

  /** Find-before-create by external code: the document filed under
      `d.externalCode`, else `d` created and then marked applied when the
      apply call (`applyOk`) succeeds. */
  function EnsureDoc(l: Ledger, d: Doc, applyOk: bool): (r: (Ledger, nat))
    requires !d.applied
    ensures r.1 < |r.0.docs| && r.0.docs[r.1].kind == d.kind && r.0.docs[r.1].externalCode == d.externalCode
    ensures FindByCode(l, d.kind, d.externalCode).Some? ==> r == (l, FindByCode(l, d.kind, d.externalCode).value)
    ensures FindByCode(l, d.kind, d.externalCode).None? ==>
      && r.0.docs == l.docs + [d.(applied := applyOk)]
      && r.1 == |l.docs|
    ensures Extends(l, r.0)
  {
    var existing := FindByCode(l, d.kind, d.externalCode);
    if existing.Some? then (l, existing.value)
    else Create(l, d.(applied := applyOk))
  }

  /** Ensuring a document keeps the ledger well formed, provided the order it
      links to (if any) is an existing CustomerOrder. */
  lemma EnsureDocKeepsOk(l: Ledger, d: Doc, applyOk: bool)
    requires !d.applied && LedgerOk(l)
    requires d.customerOrder.Some? ==>
      d.customerOrder.value < |l.docs| && l.docs[d.customerOrder.value].kind == CustomerOrder
    ensures LedgerOk(EnsureDoc(l, d, applyOk).0)
  {
    if FindByCode(l, d.kind, d.externalCode).None? {
      CreateAfterMissKeepsUnique(l, d.(applied := applyOk));
    }
  }

  /** Ensuring the same document twice creates it at most once. */
  lemma EnsureDocIdempotent(l: Ledger, d: Doc, ok1: bool, ok2: bool)
    requires !d.applied
    ensures EnsureDoc(EnsureDoc(l, d, ok1).0, d, ok2) == EnsureDoc(l, d, ok1)
  {
    if FindByCode(l, d.kind, d.externalCode).None? {
      assert FindByCode(EnsureDoc(l, d, ok1).0, d.kind, d.externalCode) == Some(|l.docs|);
    }
  }

  /** `FBW:{order name}:MOVE` and `FBW:{order name}:DEMAND`. */
  function MoveCode(orderName: string): string {
    "FBW:" + orderName + ":MOVE"
  }

  function DemandCode(orderName: string): string {
    "FBW:" + orderName + ":DEMAND"
  }

  /** The Move payload: from the source store to the marketplace store. */
  function MovePayload(fcfg: FbwConfig, order: Doc, code: string, lines: seq<Position>, number: string): Doc {
    Doc(
      kind := Move,
      name := Or(order.name, OrderKey(number)),
      externalCode := code,
      organization := order.organization,
      agent := "",
      store := EntityHref(fcfg.baseUrl, "store", fcfg.storeSourceId),
      targetStore := EntityHref(fcfg.baseUrl, "store", fcfg.storeWbId),
      salesChannel := "",
      stateHref := StateHref(fcfg.baseUrl, "move", fcfg.statusMoveId),
      comment := order.comment,
      plannedMoment := "",
      positions := lines,
      customerOrder := None,
      applied := false)
  }

  /** The Demand payload: shipped from the marketplace store, linked to the order. */
  function SupplyDemandPayload(
    fcfg: FbwConfig, order: Doc, orderId: nat, code: string, lines: seq<Position>, number: string
  ): Doc {
    Doc(
      kind := Demand,
      name := Or(order.name, OrderKey(number)),
      externalCode := code,
      organization := order.organization,
      agent := order.agent,
      store := EntityHref(fcfg.baseUrl, "store", fcfg.storeWbId),
      targetStore := "",
      salesChannel := "",
      stateHref := StateHref(fcfg.baseUrl, "demand", fcfg.statusDemandId),
      comment := order.comment,
      plannedMoment := "",
      positions := lines,
      customerOrder := Some(orderId),
      applied := false)
  }

  /** `_ensure_move`: the Move filed under `code`, created once. */
  function EnsureMove(
    fcfg: FbwConfig, catalog: map<string, Product>, applyOk: bool, l: Ledger,
    orderId: nat, code: string, goods: seq<Good>, number: string
  ): (r: (Ledger, nat))
    requires orderId < |l.docs|
    ensures r.1 < |r.0.docs| && r.0.docs[r.1].kind == Move && r.0.docs[r.1].externalCode == code
    ensures FindByCode(l, Move, code).Some? ==> r.0 == l
    ensures |l.docs| <= |r.0.docs| <= |l.docs| + 1 && r.0.docs[..|l.docs|] == l.docs
    ensures FindByCode(l, Move, code).None? ==>
      && |r.0.docs| == |l.docs| + 1 && r.1 == |l.docs|
      && r.0.docs[r.1].positions == Lines(catalog, goods, false)
      && (r.0.docs[r.1].applied <==> applyOk)
    ensures LedgerOk(l) ==> LedgerOk(r.0)
    ensures Extends(l, r.0)
  {
    var d := MovePayload(fcfg, l.docs[orderId], code, Lines(catalog, goods, false), number);
    assert LedgerOk(l) ==> LedgerOk(EnsureDoc(l, d, applyOk).0) by {
      if LedgerOk(l) {
        EnsureDocKeepsOk(l, d, applyOk);
      }
    }
    EnsureDoc(l, d, applyOk)
  }

  /** `_ensure_demand`: the Demand filed under `code`, created once and
      linked to the order. */
  function EnsureDemand(
    fcfg: FbwConfig, catalog: map<string, Product>, applyOk: bool, l: Ledger,
    orderId: nat, code: string, goods: seq<Good>, number: string
  ): (r: (Ledger, nat))
    requires orderId < |l.docs| && l.docs[orderId].kind == CustomerOrder
    ensures r.1 < |r.0.docs| && r.0.docs[r.1].kind == Demand && r.0.docs[r.1].externalCode == code
    ensures FindByCode(l, Demand, code).Some? ==> r.0 == l
    ensures |l.docs| <= |r.0.docs| <= |l.docs| + 1 && r.0.docs[..|l.docs|] == l.docs
    ensures FindByCode(l, Demand, code).None? ==>
      && |r.0.docs| == |l.docs| + 1 && r.1 == |l.docs|
      && r.0.docs[r.1].positions == Lines(catalog, goods, true)
      && r.0.docs[r.1].customerOrder == Some(orderId)
      && (r.0.docs[r.1].applied <==> applyOk)
    ensures LedgerOk(l) ==> LedgerOk(r.0)
    ensures Extends(l, r.0)
  {
    var d := SupplyDemandPayload(fcfg, l.docs[orderId], orderId, code, Lines(catalog, goods, true), number);
    assert LedgerOk(l) ==> LedgerOk(EnsureDoc(l, d, applyOk).0) by {
      if LedgerOk(l) {
        EnsureDocKeepsOk(l, d, applyOk);
      }
    }
    EnsureDoc(l, d, applyOk)
  }

  /** Sets the order's planned moment to `newVal` unless `newVal` is empty or
      already stored (compared after `strip()`). */
  function SetPlannedIfChanged(l: Ledger, id: nat, newVal: string): (r: Ledger)
    requires id < |l.docs|
    ensures |r.docs| == |l.docs| && Extends(l, r)
    ensures forall j :: 0 <= j < |l.docs| && j != id ==> r.docs[j] == l.docs[j]
    ensures newVal == "" || Strip(l.docs[id].plannedMoment) == newVal ==> r == l
    ensures newVal != "" && Strip(l.docs[id].plannedMoment) != newVal ==>
      r.docs[id] == l.docs[id].(plannedMoment := newVal)
    ensures LedgerOk(l) ==> LedgerOk(r)
  {
    if newVal == "" || Strip(l.docs[id].plannedMoment) == newVal then l
    else
      SetPlannedKeepsOk(l, id, newVal);
      SetPlanned(l, id, newVal)
  }

  /** Changing a planned moment in place keeps every identity and the
      ledger invariants. */
  lemma SetPlannedKeepsOk(l: Ledger, id: nat, moment: string)
    requires id < |l.docs|
    ensures var r := SetPlanned(l, id, moment);
      Extends(l, r) && (LedgerOk(l) ==> LedgerOk(r))
  {
    var r := SetPlanned(l, id, moment);
    forall j | 0 <= j < |l.docs| ensures SameIdentity(l.docs[j], r.docs[j]) {
      if j != id {
        assert r.docs[j] == l.docs[j];
      }
    }
    if LedgerOk(l) {
      UpdateKeepsUnique(l, r);
      UpdateKeepsLinks(l, r);
    }
  }

  /** `_update_planned_date_if_needed`: set the order's planned moment to the
      normalised plan date when there is one and it differs from the stored
      one (compared after `strip()`). */
  function UpdatePlannedDate(l: Ledger, id: nat, planRaw: string, tz: string): (r: Ledger)
    requires id < |l.docs|
    ensures |r.docs| == |l.docs| && Extends(l, r)
    ensures forall j :: 0 <= j < |l.docs| && j != id ==> r.docs[j] == l.docs[j]
    ensures NormalizeMoment(planRaw, tz) == "" ==> r == l
    ensures NormalizeMoment(planRaw, tz) != "" ==>
      r.docs[id] == l.docs[id].(plannedMoment := NormalizeMoment(planRaw, tz))
        || (r == l && Strip(l.docs[id].plannedMoment) == NormalizeMoment(planRaw, tz))
    ensures LedgerOk(l) ==> LedgerOk(r)
  {
    SetPlannedIfChanged(l, id, NormalizeMoment(planRaw, tz))
  }

  /** Updating the planned date twice with the same plan date changes nothing
      the second time, as long as the offset has no surrounding blanks. */
  lemma UpdatePlannedDateIdempotent(l: Ledger, id: nat, planRaw: string, tz: string)
    requires id < |l.docs| && Trimmed(tz)
    ensures UpdatePlannedDate(UpdatePlannedDate(l, id, planRaw, tz), id, planRaw, tz) == UpdatePlannedDate(l, id, planRaw, tz)
  {
    var newVal := NormalizeMoment(planRaw, tz);
    NormalizeMomentTrimmed(planRaw, tz);
    StripNoop(newVal);
    SetPlannedIfChangedTwice(l, id, newVal);
    var l1 := SetPlannedIfChanged(l, id, newVal);
    UpdateIsSet(l, id, planRaw, tz, newVal);
    UpdateIsSet(l1, id, planRaw, tz, newVal);
  }

  lemma UpdateIsSet(l: Ledger, id: nat, planRaw: string, tz: string, newVal: string)
    requires id < |l.docs| && newVal == NormalizeMoment(planRaw, tz)
    ensures UpdatePlannedDate(l, id, planRaw, tz) == SetPlannedIfChanged(l, id, newVal)
  {
  }

  /** Setting a stripped moment a second time finds it already stored. */
  lemma SetPlannedIfChangedTwice(l: Ledger, id: nat, newVal: string)
    requires id < |l.docs| && Strip(newVal) == newVal
    ensures var l1 := SetPlannedIfChanged(l, id, newVal);
      SetPlannedIfChanged(l1, id, newVal) == l1
  {
    var l1 := SetPlannedIfChanged(l, id, newVal);
    if l1 != l {
      assert l1.docs[id].plannedMoment == newVal;
    }
  }
}

=== FILE: supply_idempotence.dfy ===
/** Running the FBW supply flow twice over the same listing appends nothing
    the second time and leaves the supplies' records as the first run left
    them.

    After the first run every listed supply is "handled" (recorded, or
    excluded for a reason the second run sees again) and every recorded one
    has its flags "settled" (raised for the status it is listed with). The
    argument needs supplies listed under different ids to have different
    numbers: a supply that found no order might otherwise find the one a
    later supply with its number created. */
module SupplyIdempotence {
  import opened Wrappers
  import opened Text
  import opened Assoc
  import opened Ledger
  import opened SupplyText
  import opened SupplyDocs
  import opened SupplySync

  /** Supplies under different ids do not share a non-empty number. */
  predicate NumbersIdentify(items: Dict<Supply>) {
    forall i, j :: 0 <= i < |items| && 0 <= j < |items| && items[i].0 != items[j].0 && SupplyNumber(items[i].1) != "" ==>
      SupplyNumber(items[i].1) != SupplyNumber(items[j].1)
  }

  lemma NumbersIdentifyAt(items: Dict<Supply>, i: nat, j: nat)
    requires NumbersIdentify(items) && i < |items| && j < |items|
    ensures items[i].0 != items[j].0 && SupplyNumber(items[i].1) != "" ==>
      SupplyNumber(items[i].1) != SupplyNumber(items[j].1)
  {
  }

  /** `l2` is `l1` after in-place updates and appended documents none of
      which is a CustomerOrder. */
  predicate SameOrders(l1: Ledger, l2: Ledger) {
    Extends(l1, l2) && forall j :: |l1.docs| <= j < |l2.docs| ==> l2.docs[j].kind != CustomerOrder
  }

  lemma SameOrdersTrans(l1: Ledger, l2: Ledger, l3: Ledger)
    requires SameOrders(l1, l2) && SameOrders(l2, l3)
    ensures SameOrders(l1, l3)
  {
    forall j | |l1.docs| <= j < |l3.docs| ensures l3.docs[j].kind != CustomerOrder {
      if j < |l2.docs| {
        assert SameIdentity(l2.docs[j], l3.docs[j]);
      }
    }
  }

  /** Such a change finds every supply's order where it was. */
  lemma OrderLookupsSurvive(l1: Ledger, l2: Ledger, number: string)
    requires SameOrders(l1, l2)
    ensures FindSupplyOrder(l2, number) == FindSupplyOrder(l1, number)
    ensures ExistingOrder(l2, number) == ExistingOrder(l1, number)
  {
    CodeLookupSurvives(l1, l2, CustomerOrder, OrderKey(number));
    NameLookupSurvives(l1, l2, CustomerOrder, OrderKey(number));
  }

  /** The documents of one active supply add no CustomerOrder. */
  lemma ActiveDocsKeepsOrders(env: FbwEnv, l: Ledger, o: nat, sid: string, s: Supply, info: SupplyInfo, number: string)
    requires IsOrder(l, o)
    ensures SameOrders(l, ActiveDocs(env, l, o, sid, s, info, number))
  {
    var l1 := PlanStep(env, l, o, s, info);
    assert SameIdentity(l.docs[o], l1.docs[o]);
    var l2 := MoveStep(env, l1, o, sid, s, info, number);
    assert SameIdentity(l1.docs[o], l2.docs[o]);
    var l3 := DemandStep(env, l2, o, sid, s, info, number);
    assert ActiveDocs(env, l, o, sid, s, info, number) == l3;
    OneAppended(l1, l2);
    OneAppended(l2, l3);
    SameOrdersTrans(l, l1, l2);
    SameOrdersTrans(l, l2, l3);
  }

  /** Appending at most one document, not a CustomerOrder, adds no order. */
  lemma OneAppended(l1: Ledger, l2: Ledger)
    requires Extends(l1, l2) && |l2.docs| <= |l1.docs| + 1
    requires |l2.docs| > |l1.docs| ==> l2.docs[|l1.docs|].kind != CustomerOrder
    ensures SameOrders(l1, l2)
  {
  }

  lemma ActiveOneKeepsOrders(env: FbwEnv, byId: Dict<Supply>, p: Progress, sid: string)
    ensures SameOrders(p.ledger, ActiveOne(env, byId, p, sid).ledger)
  {
    if Acts(byId, p, sid) {
      var info, s := Get(p.supplies, sid).value, Get(byId, sid).value;
      var number := ActiveNumber(info, s);
      var o := FindSupplyOrder(p.ledger, number).value;
      ActiveOneDocs(env, byId, p, sid);
      ActiveDocsKeepsOrders(env, p.ledger, o, sid, s, info, number);
    }
  }

  /** An acting step's ledger is the documents of its supply. */
  lemma ActiveOneDocs(env: FbwEnv, byId: Dict<Supply>, p: Progress, sid: string)
    requires Acts(byId, p, sid)
    ensures var info, s := Get(p.supplies, sid).value, Get(byId, sid).value;
      var number := ActiveNumber(info, s);
      var o := FindSupplyOrder(p.ledger, number).value;
      IsOrder(p.ledger, o) && ActiveOne(env, byId, p, sid).ledger == ActiveDocs(env, p.ledger, o, sid, s, info, number)
  {
  }

  lemma {:induction false} ActivePassKeepsOrders(env: FbwEnv, byId: Dict<Supply>, p: Progress, keys: seq<string>)
    ensures SameOrders(p.ledger, ActivePass(env, byId, p, keys).ledger)
    decreases |keys|
  {
    if |keys| > 0 {
      var p1 := ActiveOne(env, byId, p, keys[0]);
      ActiveOneKeepsOrders(env, byId, p, keys[0]);
      ActivePassKeepsOrders(env, byId, p1, keys[1..]);
      SameOrdersTrans(p.ledger, p1.ledger, ActivePass(env, byId, p1, keys[1..]).ledger);
    }
  }

  /** Supply `sid`, listed as `s`, needs no import: it is recorded, or it
      predates the bootstrap, or it has no number, or it has no order and
      no line the catalog can serve. */
  predicate Handled(env: FbwEnv, bootAt: int, p: Progress, sid: string, s: Supply) {
    || HasKey(p.supplies, sid)
    || !CreatedAfter(s, bootAt)
    || SupplyNumber(s) == ""
    || (ExistingOrder(p.ledger, SupplyNumber(s)).None? && !HasServedLine(env, sid))
  }

  /** Every item from the `j`-th on is handled. */
  predicate HandledFrom(env: FbwEnv, bootAt: int, p: Progress, items: Dict<Supply>, j: nat) {
    forall t :: j <= t < |items| ==> Handled(env, bootAt, p, items[t].0, items[t].1)
  }

  /** An import step either records its supply or changes nothing. */
  lemma ImportOneRecordsOrIdles(env: FbwEnv, bootAt: int, p: Progress, sid: string, s: Supply)
    ensures var r := ImportOne(env, bootAt, p, sid, s);
      r == p || (HasKey(r.supplies, sid) && !HasKey(p.supplies, sid))
  {
    var r := ImportOne(env, bootAt, p, sid, s);
    if !(HasKey(p.supplies, sid) || !CreatedAfter(s, bootAt) || SupplyNumber(s) == "") && !HasKey(r.supplies, sid) {
      var number := SupplyNumber(s);
      var e := EnsureCustomerOrder(env.fcfg, env.catalog, p.ledger, number, PlanDate(s), Destination(s), GoodsOf(env, sid));
      assert r == ImportNew(env, p, sid, s);
      assert e.order.None?;
    }
  }

  /** A handled supply's import step changes nothing. */
  lemma HandledIdles(env: FbwEnv, bootAt: int, p: Progress, sid: string, s: Supply)
    requires Handled(env, bootAt, p, sid, s)
    ensures ImportOne(env, bootAt, p, sid, s) == p
  {
    if !(HasKey(p.supplies, sid) || !CreatedAfter(s, bootAt) || SupplyNumber(s) == "") {
      assert ImportOne(env, bootAt, p, sid, s) == ImportNew(env, p, sid, s);
    }
  }

  /** A supply's own import step leaves it handled. */
  lemma ImportOneHandles(env: FbwEnv, bootAt: int, p: Progress, sid: string, s: Supply)
    ensures Handled(env, bootAt, ImportOne(env, bootAt, p, sid, s), sid, s)
  {
    ImportOneRecordsOrIdles(env, bootAt, p, sid, s);
  }

  /** The import step of another supply, with another number, keeps a
      handled supply handled: the order it may create is filed under its
      own number. */
  lemma ImportOneKeepsHandled(env: FbwEnv, bootAt: int, p: Progress, sid: string, s: Supply, sid2: string, s2: Supply)
    requires Handled(env, bootAt, p, sid2, s2)
    requires sid2 != sid && SupplyNumber(s2) != "" ==> SupplyNumber(s2) != SupplyNumber(s)
    ensures Handled(env, bootAt, ImportOne(env, bootAt, p, sid, s), sid2, s2)
  {
    var r := ImportOne(env, bootAt, p, sid, s);
    ImportOneRecordsOrIdles(env, bootAt, p, sid, s);
    if r != p && sid2 != sid && !HasKey(p.supplies, sid2) && CreatedAfter(s2, bootAt) && SupplyNumber(s2) != "" {
      NewOrderElsewhere(env, p, sid, s, SupplyNumber(s2));
    }
  }

  /** Importing supply `sid` finds no order for another number that was not
      found before. */
  lemma NewOrderElsewhere(env: FbwEnv, p: Progress, sid: string, s: Supply, other: string)
    requires !HasKey(p.supplies, sid) && other != SupplyNumber(s)
    ensures ExistingOrder(ImportNew(env, p, sid, s).ledger, other) == ExistingOrder(p.ledger, other)
  {
    ImportNewFilesUnder(env, p, sid, s);
    OtherOrderSurvives(p.ledger, ImportNew(env, p, sid, s).ledger, SupplyNumber(s), other);
  }

  /** Documents appended under one number do not change which order another
      number finds. */
  lemma OtherOrderSurvives(l1: Ledger, l2: Ledger, number: string, other: string)
    requires Extends(l1, l2) && other != number
    requires forall j :: |l1.docs| <= j < |l2.docs| ==>
      l2.docs[j].externalCode == OrderKey(number) && l2.docs[j].name == OrderKey(number)
    ensures ExistingOrder(l2, other) == ExistingOrder(l1, other)
  {
    OrderKeyInjective(other, number);
    CodeLookupSurvives(l1, l2, CustomerOrder, OrderKey(other));
    NameLookupSurvives(l1, l2, CustomerOrder, OrderKey(other));
  }

  lemma OrderKeyInjective(a: string, b: string)
    requires a != b
    ensures OrderKey(a) != OrderKey(b)
  {
    assert OrderKey(a)[4..] == a && OrderKey(b)[4..] == b;
  }

  /** What an import step appends is filed under the supply's own number. */
  lemma ImportNewFilesUnder(env: FbwEnv, p: Progress, sid: string, s: Supply)
    requires !HasKey(p.supplies, sid)
    ensures var l2 := ImportNew(env, p, sid, s).ledger;
      forall j :: |p.ledger.docs| <= j < |l2.docs| ==>
        l2.docs[j].externalCode == OrderKey(SupplyNumber(s)) && l2.docs[j].name == OrderKey(SupplyNumber(s))
  {
    var number := SupplyNumber(s);
    var e := EnsureCustomerOrder(env.fcfg, env.catalog, p.ledger, number, PlanDate(s), Destination(s), GoodsOf(env, sid));
    assert ImportNew(env, p, sid, s).ledger == e.ledger;
    if ExistingOrder(p.ledger, number).None? {
      ExistingOrderMissesCode(p.ledger, number);
      var planned := NormalizeMoment(PlanDate(s), env.fcfg.tzOffset);
      var lines := Lines(env.catalog, GoodsOf(env, sid), false);
      if lines != [] {
        var d := SupplyOrderPayload(env.fcfg, number, planned, Destination(s), lines);
        AppendedFiledUnder(p.ledger.docs, e.ledger.docs, d, OrderKey(number));
      } else {
        assert e.ledger == p.ledger;
      }
    } else {
      assert e.ledger == p.ledger;
    }
  }

  lemma AppendedFiledUnder(a: seq<Doc>, b: seq<Doc>, d: Doc, key: string)
    requires b == a + [d] && d.externalCode == key && d.name == key
    ensures forall j :: |a| <= j < |b| ==> b[j].externalCode == key && b[j].name == key
  {
  }

  lemma ExistingOrderMissesCode(l: Ledger, number: string)
    requires ExistingOrder(l, number).None?
    ensures FindByCode(l, CustomerOrder, OrderKey(number)).None?
  {
  }

  /** The import pass over a remaining list of items, head first. */
  function ImportRest(env: FbwEnv, bootAt: int, p: Progress, rest: Dict<Supply>): Progress
    decreases |rest|
  {
    if rest == [] then p
    else ImportRest(env, bootAt, ImportOne(env, bootAt, p, rest[0].0, rest[0].1), rest[1..])
  }

  /** The pass from item `j` is the pass over the items from `j` on. */
  lemma {:induction false} ImportFromRest(env: FbwEnv, bootAt: int, p: Progress, items: Dict<Supply>, j: nat)
    requires j <= |items|
    ensures ImportFrom(env, bootAt, p, items, j) == ImportRest(env, bootAt, p, items[j..])
    decreases |items| - j
  {
    if j < |items| {
      var p1 := ImportOne(env, bootAt, p, items[j].0, items[j].1);
      assert items[j..][0] == items[j] && items[j..][1..] == items[j + 1..];
      ImportFromRest(env, bootAt, p1, items, j + 1);
    }
  }

  /** No item of `rest` is supply `sid` under the number of `s`. */
  predicate Apart(rest: Dict<Supply>, sid: string, s: Supply) {
    forall i :: 0 <= i < |rest| && rest[i].0 != sid && SupplyNumber(s) != "" ==>
      SupplyNumber(s) != SupplyNumber(rest[i].1)
  }

  lemma HeadApart(rest: Dict<Supply>)
    requires |rest| > 0 && NumbersIdentify(rest)
    ensures Apart(rest[1..], rest[0].0, rest[0].1)
  {
    forall i | 0 <= i < |rest[1..]|
      ensures rest[1..][i].0 != rest[0].0 && SupplyNumber(rest[0].1) != "" ==>
        SupplyNumber(rest[0].1) != SupplyNumber(rest[1..][i].1)
    {
      NumbersIdentifyAt(rest, 0, i + 1);
    }
  }

  lemma TailIdentifies(rest: Dict<Supply>)
    requires |rest| > 0 && NumbersIdentify(rest)
    ensures NumbersIdentify(rest[1..])
  {
    forall i, j | 0 <= i < |rest[1..]| && 0 <= j < |rest[1..]|
      ensures rest[1..][i].0 != rest[1..][j].0 && SupplyNumber(rest[1..][i].1) != "" ==>
        SupplyNumber(rest[1..][i].1) != SupplyNumber(rest[1..][j].1)
    {
      NumbersIdentifyAt(rest, i + 1, j + 1);
    }
  }

  lemma ApartTail(rest: Dict<Supply>, sid: string, s: Supply)
    requires |rest| > 0 && Apart(rest, sid, s)
    ensures Apart(rest[1..], sid, s)
  {
    forall i | 0 <= i < |rest[1..]| ensures rest[1..][i] == rest[i + 1] { }
  }

  /** Every item of the pass is handled by its own step, which no later
      step undoes. */
  lemma {:induction false} ImportRestHandles(env: FbwEnv, bootAt: int, p: Progress, rest: Dict<Supply>, sid: string, s: Supply)
    requires (sid, s) in rest && NumbersIdentify(rest)
    ensures Handled(env, bootAt, ImportRest(env, bootAt, p, rest), sid, s)
    decreases |rest|
  {
    var p1 := ImportOne(env, bootAt, p, rest[0].0, rest[0].1);
    assert ImportRest(env, bootAt, p, rest) == ImportRest(env, bootAt, p1, rest[1..]);
    if rest[0] == (sid, s) {
      ImportOneHandles(env, bootAt, p, sid, s);
      HeadApart(rest);
      ImportRestKeepsHandled(env, bootAt, p1, rest[1..], sid, s);
    } else {
      assert (sid, s) in rest[1..];
      TailIdentifies(rest);
      ImportRestHandles(env, bootAt, p1, rest[1..], sid, s);
    }
  }

  /** A handled supply stays handled through steps of other supplies with
      other numbers. */
  lemma {:induction false} ImportRestKeepsHandled(env: FbwEnv, bootAt: int, p: Progress, rest: Dict<Supply>, sid: string, s: Supply)
    requires Handled(env, bootAt, p, sid, s) && Apart(rest, sid, s)
    ensures Handled(env, bootAt, ImportRest(env, bootAt, p, rest), sid, s)
    decreases |rest|
  {
    if rest != [] {
      var p1 := ImportOne(env, bootAt, p, rest[0].0, rest[0].1);
      assert ImportRest(env, bootAt, p, rest) == ImportRest(env, bootAt, p1, rest[1..]);
      ImportOneKeepsHandled(env, bootAt, p, rest[0].0, rest[0].1, sid, s);
      ApartTail(rest, sid, s);
      ImportRestKeepsHandled(env, bootAt, p1, rest[1..], sid, s);
    }
  }
  /** An import pass over handled items changes nothing. */
  lemma {:induction false} ImportFromIdles(env: FbwEnv, bootAt: int, p: Progress, items: Dict<Supply>, j: nat)
    requires j <= |items|
    requires HandledFrom(env, bootAt, p, items, j)
    ensures ImportFrom(env, bootAt, p, items, j) == p
    decreases |items| - j
  {
    if j < |items| {
      HandledIdles(env, bootAt, p, items[j].0, items[j].1);
      ImportFromIdles(env, bootAt, p, items, j + 1);
    }
  }

  /** Being handled survives a change that keeps the recorded ids and adds
      no CustomerOrder. */
  lemma HandledStable(env: FbwEnv, bootAt: int, p: Progress, q: Progress, sid: string, s: Supply)
    requires Handled(env, bootAt, p, sid, s)
    requires HasKey(q.supplies, sid) <==> HasKey(p.supplies, sid)
    requires SameOrders(p.ledger, q.ledger)
    ensures Handled(env, bootAt, q, sid, s)
  {
    OrderLookupsSurvive(p.ledger, q.ledger, SupplyNumber(s));
  }

  /** The flags of supply `sid` already say what its listed status asks for,
      whenever the active pass acts on it. */
  predicate FlagsSettled(byId: Dict<Supply>, p: Progress, sid: string) {
    Acts(byId, p, sid) ==> NextInfo(Get(p.supplies, sid).value, Get(byId, sid).value) == Get(p.supplies, sid).value
  }

  /** The active pass acts on a supply as before when its record is the same
      and no CustomerOrder was added. */
  lemma ActsStable(byId: Dict<Supply>, p: Progress, q: Progress, sid: string)
    requires Get(q.supplies, sid) == Get(p.supplies, sid) && SameOrders(p.ledger, q.ledger)
    ensures Acts(byId, q, sid) <==> Acts(byId, p, sid)
    ensures FlagsSettled(byId, q, sid) <==> FlagsSettled(byId, p, sid)
  {
    if HasKey(p.supplies, sid) && HasKey(byId, sid) {
      OrderLookupsSurvive(p.ledger, q.ledger, ActiveNumber(Get(p.supplies, sid).value, Get(byId, sid).value));
    }
  }

  /** An active step leaves its own supply settled and keeps every settled
      supply settled. */
  lemma ActiveOneSettles(env: FbwEnv, byId: Dict<Supply>, p: Progress, sid: string, x: string)
    requires x == sid || FlagsSettled(byId, p, x)
    ensures FlagsSettled(byId, ActiveOne(env, byId, p, sid), x)
  {
    var r := ActiveOne(env, byId, p, sid);
    ActiveOneKeepsOrders(env, byId, p, sid);
    if x != sid {
      ActsStable(byId, p, r, x);
    } else if Acts(byId, p, sid) {
      var info, s := Get(p.supplies, sid).value, Get(byId, sid).value;
      OrderLookupsSurvive(p.ledger, r.ledger, ActiveNumber(info, s));
      assert ActiveNumber(NextInfo(info, s), s) == ActiveNumber(info, s);
    }
  }

  /** After an active pass every supply it walked is settled, and so is
      every supply that was settled before. */
  lemma {:induction false} ActivePassSettles(env: FbwEnv, byId: Dict<Supply>, p: Progress, keys: seq<string>, x: string)
    requires x in keys || FlagsSettled(byId, p, x)
    ensures FlagsSettled(byId, ActivePass(env, byId, p, keys), x)
    decreases |keys|
  {
    if |keys| > 0 {
      var p1 := ActiveOne(env, byId, p, keys[0]);
      if x == keys[0] || FlagsSettled(byId, p, x) {
        ActiveOneSettles(env, byId, p, keys[0], x);
      } else {
        assert x in keys[1..];
      }
      ActivePassSettles(env, byId, p1, keys[1..], x);
    }
  }

  /** The active step of a settled supply appends nothing and leaves every
      record as it is. */
  lemma ActiveOneQuiet(env: FbwEnv, byId: Dict<Supply>, p: Progress, sid: string)
    requires FlagsSettled(byId, p, sid)
    ensures ActiveOne(env, byId, p, sid).supplies == p.supplies
    ensures |ActiveOne(env, byId, p, sid).ledger.docs| == |p.ledger.docs|
  {
    if Acts(byId, p, sid) {
      PutSame(p.supplies, sid);
    }
  }

  /** An active pass over settled supplies appends nothing and leaves every
      record as it is. */
  lemma {:induction false} ActivePassQuiet(env: FbwEnv, byId: Dict<Supply>, p: Progress, keys: seq<string>)
    requires forall x :: x in keys ==> FlagsSettled(byId, p, x)
    ensures ActivePass(env, byId, p, keys).supplies == p.supplies
    ensures |ActivePass(env, byId, p, keys).ledger.docs| == |p.ledger.docs|
    decreases |keys|
  {
    if |keys| > 0 {
      var p1 := ActiveOne(env, byId, p, keys[0]);
      ActiveOneQuiet(env, byId, p, keys[0]);
      ActiveOneKeepsOrders(env, byId, p, keys[0]);
      forall x | x in keys[1..] ensures FlagsSettled(byId, p1, x) {
        ActsStable(byId, p, p1, x);
      }
      ActivePassQuiet(env, byId, p1, keys[1..]);
    }
  }

  /** What the first run leaves: every listed supply handled, every recorded
      supply settled. */
  lemma FirstRunLeaves(env: FbwEnv, st: FbwState, l: Ledger, listed: seq<Supply>)
    requires st.bootstrappedAt != Absent && NumbersIdentify(IndexSupplies(listed))
    ensures var r := SupplyRun(env, st, l, listed);
      var byId, p := IndexSupplies(listed), Progress(r.1, r.0.supplies);
      && HandledFrom(env, BootAt(st, env.now), p, byId, 0)
      && (forall x :: x in Keys(r.0.supplies) ==> FlagsSettled(byId, p, x))
  {
    var byId, bootAt := IndexSupplies(listed), BootAt(st, env.now);
    var p0 := Progress(l, st.supplies);
    var p1 := ImportPass(env, bootAt, p0, byId);
    var p2 := ActivePass(env, byId, p1, Keys(p1.supplies));
    assert SupplyRun(env, st, l, listed) == (FbwState(st.bootstrappedAt, p2.supplies), p2.ledger);
    ActivePassKeepsOrders(env, byId, p1, Keys(p1.supplies));
    ImportFromRest(env, bootAt, p0, byId, 0);
    assert byId[0..] == byId;
    forall t | 0 <= t < |byId| ensures Handled(env, bootAt, p2, byId[t].0, byId[t].1) {
      assert byId[t] in byId;
      ImportRestHandles(env, bootAt, p0, byId, byId[t].0, byId[t].1);
      HandledStable(env, bootAt, p1, p2, byId[t].0, byId[t].1);
    }
    forall x | x in Keys(p2.supplies) ensures FlagsSettled(byId, p2, x) {
      HasKeyInKeys(p2.supplies, x);
      HasKeyInKeys(p1.supplies, x);
      ActivePassSettles(env, byId, p1, Keys(p1.supplies), x);
    }
  }

  /** Idempotence of the supply flow: once bootstrapped, a second run over
      the same listing, catalog, goods and apply outcomes appends no
      document and leaves the saved state exactly as the first run left it. */
  lemma SecondSupplyRunQuiet(env: FbwEnv, st: FbwState, l: Ledger, listed: seq<Supply>)
    requires st.bootstrappedAt != Absent && NumbersIdentify(IndexSupplies(listed))
    ensures
      var (st1, l1) := SupplyRun(env, st, l, listed);
      var (st2, l2) := SupplyRun(env, st1, l1, listed);
      st2 == st1 && |l2.docs| == |l1.docs|
  {
    var r1 := SupplyRun(env, st, l, listed);
    var byId, bootAt := IndexSupplies(listed), BootAt(st, env.now);
    var p := Progress(r1.1, r1.0.supplies);
    FirstRunLeaves(env, st, l, listed);
    assert BootAt(r1.0, env.now) == bootAt;
    ImportFromIdles(env, bootAt, p, byId, 0);
    ActivePassQuiet(env, byId, p, Keys(p.supplies));
    RunUnfolds(env, r1.0, r1.1, listed);
  }

  /** A bootstrapped run is its two passes. */
  lemma RunUnfolds(env: FbwEnv, st: FbwState, l: Ledger, listed: seq<Supply>)
    requires st.bootstrappedAt != Absent
    ensures var byId := IndexSupplies(listed);
      var p1 := ImportPass(env, BootAt(st, env.now), Progress(l, st.supplies), byId);
      var p2 := ActivePass(env, byId, p1, Keys(p1.supplies));
      SupplyRun(env, st, l, listed) == (FbwState(st.bootstrappedAt, p2.supplies), p2.ledger)
  {
  }
}

=== FILE: supply_sync.dfy ===
/** One run of the FBW supply flow (`supplies_sync.main`): bootstrap on the
    very first run, then import the supplies created since the bootstrap as
    CustomerOrders, then walk the recorded supplies and create each one's
    Move (status 3) and Demand (status 5) at most once.

    The run state is the persisted `{bootstrappedAt, supplies}` record; the
    supplies map goes from supply id to `{number, orderId, move, demand}`. */
module SupplySync {
  import opened Wrappers
  import opened Text
  import opened Assoc
  import opened Ledger
  import opened OrderPayload
  import opened SupplyText
  import opened SupplyDocs

  /** A `supplyID` as the marketplace sends it: a JSON number or a string. */
  datatype IdValue = IdNum(n: int) | IdText(t: string)

  /** `str(v)` */
  function IdStr(v: IdValue): string {
    match v
    case IdNum(n) => IntToString(n)
    case IdText(t) => t
  }

  /** Python truthiness: 0 and "" are false. */
  predicate Truthy(v: IdValue) {
    match v
    case IdNum(n) => n != 0
    case IdText(t) => t != ""
  }

  /** `str(v or "")` for an optional id. */
  function IdOrEmpty(v: Option<IdValue>): string {
    if v.Some? && Truthy(v.value) then IdStr(v.value) else ""
  }

  /** A supply as the marketplace lists it; `supplyId` is `None` when the
      field is missing or null. */
  datatype Supply = Supply(
    supplyId: Option<IdValue>,
    createDate: Stamp,
    warehouseName: string,
    warehouse: string,
    destinationWarehouse: string,
    supplyDate: string,
    planDate: string,
    statusId: Option<int>)

  /** What the run state remembers of an imported supply. */
  datatype SupplyInfo = SupplyInfo(number: string, orderId: nat, move: bool, demand: bool)

  /** The persisted run state. `bootstrappedAt` is `Absent` before the first run. */
  datatype FbwState = FbwState(bootstrappedAt: Stamp, supplies: Dict<SupplyInfo>)

  /** Everything a run reads from outside: configuration, the catalog by
      article, each supply's goods, the documents whose apply call fails, and
      the current instant. */
  datatype FbwEnv = FbwEnv(
    fcfg: FbwConfig,
    catalog: map<string, Product>,
    goods: map<string, seq<Good>>,
    applyFails: set<string>,
    now: int)

  function GoodsOf(env: FbwEnv, sid: string): seq<Good> {
    if sid in env.goods then env.goods[sid] else []
  }

  /** Whether applying the document filed under `code` succeeds. */
  predicate ApplyOk(env: FbwEnv, code: string) {
    code !in env.applyFails
  }

  /** `s` was not created at or before the bootstrap instant (a missing or
      unparsable creation date does not exclude it). */
  predicate CreatedAfter(s: Supply, bootAt: int) {
    !(s.createDate.At? && s.createDate.instant <= bootAt)
  }

  /** `str(s.get("supplyID") or "").strip()`: the number shown in the interface. */
  function SupplyNumber(s: Supply): string {
    Strip(IdOrEmpty(s.supplyId))
  }

  /** `str(sid)`: the key a listed supply is filed under, `None` when it has
      no id. A falsy id (0 or "") is still a key. */
  function SupplyKey(s: Supply): Option<string> {
    if s.supplyId.None? then None else Some(IdStr(s.supplyId.value))
  }

  /** The destination warehouse: the first non-empty of three fields, stripped. */
  function Destination(s: Supply): string {
    Strip(Or(Or(s.warehouseName, s.warehouse), s.destinationWarehouse))
  }

  /** The raw plan date: `supplyDate`, else `planDate`, stripped. */
  function PlanDate(s: Supply): string {
    Strip(Or(s.supplyDate, s.planDate))
  }

  /** Supply `s` is the last one listed under id `k`. */
  predicate LastListed(listed: seq<Supply>, k: string, s: Supply) {
    exists i :: 0 <= i < |listed| && listed[i] == s && SupplyKey(s) == Some(k) &&
      forall j :: i < j < |listed| ==> SupplyKey(listed[j]) != Some(k)
  }

  /** `supplies_by_id`: the listed supplies by id, skipping those without
      one; a later supply with the same id replaces the earlier one in its
      place. */
  function IndexSupplies(listed: seq<Supply>): Dict<Supply> {
    if |listed| == 0 then []
    else
      var prev := IndexSupplies(listed[..|listed| - 1]);
      var s := listed[|listed| - 1];
      if SupplyKey(s).None? then prev else Put(prev, SupplyKey(s).value, s)
  }

  /** The index holds exactly the listed ids. */
  lemma {:induction false} IndexSuppliesHas(listed: seq<Supply>, k: string)
    ensures HasKey(IndexSupplies(listed), k) <==> exists i :: 0 <= i < |listed| && SupplyKey(listed[i]) == Some(k)
    decreases |listed|
  {
    if |listed| > 0 {
      var init := listed[..|listed| - 1];
      var s := listed[|listed| - 1];
      var prev := IndexSupplies(init);
      assert HasKey(prev, k) <==> exists i :: 0 <= i < |init| && SupplyKey(init[i]) == Some(k) by {
        IndexSuppliesHas(init, k);
      }
      assert HasKey(IndexSupplies(listed), k) <==> SupplyKey(s) == Some(k) || HasKey(prev, k) by {
        if SupplyKey(s).Some? {
          PutHasKey(prev, SupplyKey(s).value, s, k);
        }
      }
      assert (exists i :: 0 <= i < |listed| && SupplyKey(listed[i]) == Some(k)) <==>
        SupplyKey(s) == Some(k) || exists i :: 0 <= i < |init| && SupplyKey(init[i]) == Some(k)
      by {
        assert forall i :: 0 <= i < |init| ==> listed[i] == init[i];
        assert listed[|listed| - 1] == s;
      }
    }
  }

  /** Each id in the index holds the last supply listed under it. */
  lemma {:induction false} IndexSuppliesLast(listed: seq<Supply>, k: string)
    requires HasKey(IndexSupplies(listed), k)
    ensures LastListed(listed, k, Get(IndexSupplies(listed), k).value)
    decreases |listed|
  {
    var init := listed[..|listed| - 1];
    var s := listed[|listed| - 1];
    var prev := IndexSupplies(init);
    var v := Get(IndexSupplies(listed), k).value;
    if SupplyKey(s) == Some(k) {
      assert LastListed(listed, k, s) by {
        assert listed[|listed| - 1] == s;
      }
    } else {
      assert HasKey(prev, k) && v == Get(prev, k).value by {
        if SupplyKey(s).Some? {
          PutHasKey(prev, SupplyKey(s).value, s, k);
        }
      }
      IndexSuppliesLast(init, k);
      assert LastListed(listed, k, v) by {
        var i :| 0 <= i < |init| && init[i] == v && SupplyKey(v) == Some(k) &&
          forall j :: i < j < |init| ==> SupplyKey(init[j]) != Some(k);
        assert listed[i] == init[i];
        forall j | i < j < |listed|
          ensures SupplyKey(listed[j]) != Some(k)
        {
          if j < |init| {
            assert listed[j] == init[j];
          }
        }
      }
    }
  }

  /** Every entry of the index is a listed supply filed under its own id. */
  predicate EntriesListed(listed: seq<Supply>, items: Dict<Supply>) {
    forall i :: 0 <= i < |items| ==> items[i].1 in listed && SupplyKey(items[i].1) == Some(items[i].0)
  }

  lemma {:induction false} IndexSuppliesEntries(listed: seq<Supply>)
    ensures EntriesListed(listed, IndexSupplies(listed))
    decreases |listed|
  {
    if |listed| > 0 {
      var init := listed[..|listed| - 1];
      IndexSuppliesEntries(init);
      assert forall x :: x in init ==> x in listed;
      assert listed[|listed| - 1] in listed;
    }
  }

  /** The ledger together with the supplies map, as a pass leaves them. */
  datatype Progress = Progress(ledger: Ledger, supplies: Dict<SupplyInfo>)

  /** Every recorded supply points at a CustomerOrder of the ledger. */
  ghost predicate RecordsOk(p: Progress) {
    forall k :: HasKey(p.supplies, k) ==>
      Get(p.supplies, k).value.orderId < |p.ledger.docs| &&
      p.ledger.docs[Get(p.supplies, k).value.orderId].kind == CustomerOrder
  }

  /** `m2` is `m1` after a pass: no supply forgotten, its number and order
      kept, and its `move` and `demand` flags never reset. */
  ghost predicate Grows(m1: Dict<SupplyInfo>, m2: Dict<SupplyInfo>) {
    forall k :: HasKey(m1, k) ==>
      && HasKey(m2, k)
      && Get(m2, k).value.number == Get(m1, k).value.number
      && Get(m2, k).value.orderId == Get(m1, k).value.orderId
      && (Get(m1, k).value.move ==> Get(m2, k).value.move)
      && (Get(m1, k).value.demand ==> Get(m2, k).value.demand)
  }

  lemma GrowsTrans(m1: Dict<SupplyInfo>, m2: Dict<SupplyInfo>, m3: Dict<SupplyInfo>)
    requires Grows(m1, m2) && Grows(m2, m3)
    ensures Grows(m1, m3)
  {
  }

  /** The pass keeps the ledger's history and invariants and the records'
      order references. */
  ghost predicate Preserves(p1: Progress, p2: Progress) {
    && Extends(p1.ledger, p2.ledger)
    && (LedgerOk(p1.ledger) ==> LedgerOk(p2.ledger))
    && (RecordsOk(p1) ==> RecordsOk(p2))
    && Grows(p1.supplies, p2.supplies)
  }

  lemma PreservesTrans(p1: Progress, p2: Progress, p3: Progress)
    requires Preserves(p1, p2) && Preserves(p2, p3)
    ensures Preserves(p1, p3)
  {
    ExtendsTrans(p1.ledger, p2.ledger, p3.ledger);
    GrowsTrans(p1.supplies, p2.supplies, p3.supplies);
  }

  /** The catalog can serve at least one of the supply's lines. */
  predicate HasServedLine(env: FbwEnv, sid: string) {
    Lines(env.catalog, GoodsOf(env, sid), false) != []
  }

  /** The order `_ensure_customerorder` obtains for a supply: it exists
      already, or the catalog can serve at least one of its lines. */
  predicate ObtainsOrder(env: FbwEnv, l: Ledger, sid: string, number: string) {
    ExistingOrder(l, number).Some? || HasServedLine(env, sid)
  }

  /** Importing a supply that passed the checks: ensure its order and, when
      one is obtained, record the supply with both flags down. */
  function ImportNew(env: FbwEnv, p: Progress, sid: string, s: Supply): (r: Progress)
    requires !HasKey(p.supplies, sid)
    ensures forall k :: k != sid ==> Get(r.supplies, k) == Get(p.supplies, k)
    ensures HasKey(r.supplies, sid) <==> ObtainsOrder(env, p.ledger, sid, SupplyNumber(s))
    ensures HasKey(r.supplies, sid) ==>
      var info := Get(r.supplies, sid).value;
      && info.number == SupplyNumber(s) && !info.move && !info.demand
      && ExistingOrder(r.ledger, info.number) == Some(info.orderId)
    ensures Extends(p.ledger, r.ledger)
    ensures LedgerOk(p.ledger) ==> LedgerOk(r.ledger)
  {
    var number := SupplyNumber(s);
    var e := EnsureCustomerOrder(env.fcfg, env.catalog, p.ledger, number, PlanDate(s), Destination(s), GoodsOf(env, sid));
    if e.order.None? then Progress(e.ledger, p.supplies)
    else Progress(e.ledger, Put(p.supplies, sid, SupplyInfo(number, e.order.value, false, false)))
  }

  /** A step that extends the ledger and changes at most the record of one
      supply `sid` that was not recorded before, pointing it at a
      CustomerOrder, keeps everything `Preserves` asks for. */
  lemma RecordPreserves(p: Progress, r: Progress, sid: string)
    requires !HasKey(p.supplies, sid)
    requires Extends(p.ledger, r.ledger) && (LedgerOk(p.ledger) ==> LedgerOk(r.ledger))
    requires forall k :: k != sid ==> Get(r.supplies, k) == Get(p.supplies, k)
    requires HasKey(r.supplies, sid) ==>
      Get(r.supplies, sid).value.orderId < |r.ledger.docs| &&
      r.ledger.docs[Get(r.supplies, sid).value.orderId].kind == CustomerOrder
    ensures Preserves(p, r)
  {
    assert Grows(p.supplies, r.supplies) by {
      forall k | HasKey(p.supplies, k)
        ensures k != sid && Get(r.supplies, k) == Get(p.supplies, k)
      {
      }
    }
    assert RecordsOk(p) ==> RecordsOk(r) by {
      if RecordsOk(p) {
        forall k | HasKey(r.supplies, k)
          ensures Get(r.supplies, k).value.orderId < |r.ledger.docs|
          ensures r.ledger.docs[Get(r.supplies, k).value.orderId].kind == CustomerOrder
        {
          if k != sid {
            var id := Get(p.supplies, k).value.orderId;
            assert SameIdentity(p.ledger.docs[id], r.ledger.docs[id]);
          }
        }
      }
    }
  }

  /** The new-supply pass for one supply `sid` (listed as `s`): record it with
      both flags down when it is not yet known, was created after the
      bootstrap, has a number, and gets an order. */
  function ImportOne(env: FbwEnv, bootAt: int, p: Progress, sid: string, s: Supply): (r: Progress)
    ensures forall k :: k != sid ==> Get(r.supplies, k) == Get(p.supplies, k)
    ensures HasKey(p.supplies, sid) || !CreatedAfter(s, bootAt) || SupplyNumber(s) == "" ==> r == p
    ensures !HasKey(p.supplies, sid) ==>
      (HasKey(r.supplies, sid) <==>
        CreatedAfter(s, bootAt) && SupplyNumber(s) != "" && ObtainsOrder(env, p.ledger, sid, SupplyNumber(s)))
    ensures !HasKey(p.supplies, sid) && HasKey(r.supplies, sid) ==>
      var info := Get(r.supplies, sid).value;
      && info.number == SupplyNumber(s) && !info.move && !info.demand
      && ExistingOrder(r.ledger, info.number) == Some(info.orderId)
  {
    if HasKey(p.supplies, sid) || !CreatedAfter(s, bootAt) || SupplyNumber(s) == "" then p
    else ImportNew(env, p, sid, s)
  }

  lemma ImportOnePreserves(env: FbwEnv, bootAt: int, p: Progress, sid: string, s: Supply)
    ensures Preserves(p, ImportOne(env, bootAt, p, sid, s))
  {
    if !(HasKey(p.supplies, sid) || !CreatedAfter(s, bootAt) || SupplyNumber(s) == "") {
      var r := ImportNew(env, p, sid, s);
      if HasKey(r.supplies, sid) {
        var id := Get(r.supplies, sid).value.orderId;
        assert ExistingOrder(r.ledger, Get(r.supplies, sid).value.number) == Some(id);
      }
      RecordPreserves(p, r, sid);
    }
  }

  /** The new-supply pass: `ImportOne` over the listed supplies, in order. */
  function ImportPass(env: FbwEnv, bootAt: int, p: Progress, items: Dict<Supply>): Progress {
    ImportFrom(env, bootAt, p, items, 0)
  }

  /** The rest of the new-supply pass, from the `j`-th listed supply on. */
  function ImportFrom(env: FbwEnv, bootAt: int, p: Progress, items: Dict<Supply>, j: nat): Progress
    requires j <= |items|
    decreases |items| - j
  {
    if j == |items| then p
    else ImportFrom(env, bootAt, ImportOne(env, bootAt, p, items[j].0, items[j].1), items, j + 1)
  }

  /** The new-supply pass keeps the ledger and the map's invariants, and
      forgets no supply. */
  lemma {:induction false} ImportFromPreserves(env: FbwEnv, bootAt: int, p: Progress, items: Dict<Supply>, j: nat)
    requires j <= |items|
    ensures Preserves(p, ImportFrom(env, bootAt, p, items, j))
    decreases |items| - j
  {
    if j < |items| {
      var p1 := ImportOne(env, bootAt, p, items[j].0, items[j].1);
      ImportOnePreserves(env, bootAt, p, items[j].0, items[j].1);
      ImportFromPreserves(env, bootAt, p1, items, j + 1);
      PreservesTrans(p, p1, ImportFrom(env, bootAt, p1, items, j + 1));
    }
  }

  /** A supply the new-supply pass records was among its items, created
      after the bootstrap and numbered. */
  lemma {:induction false} ImportFromNew(env: FbwEnv, bootAt: int, p: Progress, items: Dict<Supply>, j: nat, k: string)
    requires j <= |items|
    requires !HasKey(p.supplies, k) && HasKey(ImportFrom(env, bootAt, p, items, j).supplies, k)
    ensures exists i :: j <= i < |items| && items[i].0 == k && CreatedAfter(items[i].1, bootAt) && SupplyNumber(items[i].1) != ""
    decreases |items| - j
  {
    var p1 := ImportOne(env, bootAt, p, items[j].0, items[j].1);
    if HasKey(p1.supplies, k) {
      assert items[j].0 == k && CreatedAfter(items[j].1, bootAt) && SupplyNumber(items[j].1) != "";
    } else {
      ImportFromNew(env, bootAt, p1, items, j + 1, k);
    }
  }

  /** The new-supply pass records every item created after the bootstrap,
      numbered, and with at least one line the catalog can serve. */
  lemma {:induction false} ImportFromRecords(env: FbwEnv, bootAt: int, p: Progress, items: Dict<Supply>, j: nat, i: nat)
    requires j <= i < |items|
    requires CreatedAfter(items[i].1, bootAt) && SupplyNumber(items[i].1) != "" && HasServedLine(env, items[i].0)
    ensures HasKey(ImportFrom(env, bootAt, p, items, j).supplies, items[i].0)
    decreases |items| - j
  {
    var p1 := ImportOne(env, bootAt, p, items[j].0, items[j].1);
    if i == j {
      ImportOneRecords(env, bootAt, p, items[j].0, items[j].1);
      ImportFromPreserves(env, bootAt, p1, items, j + 1);
      PreservesHasKey(p1, ImportFrom(env, bootAt, p1, items, j + 1), items[i].0);
    } else {
      ImportFromRecords(env, bootAt, p1, items, j + 1, i);
    }
  }

  /** A supply created after the bootstrap, numbered, with a line the
      catalog serves, is in the map after its own import step. */
  lemma ImportOneRecords(env: FbwEnv, bootAt: int, p: Progress, sid: string, s: Supply)
    requires CreatedAfter(s, bootAt) && SupplyNumber(s) != ""
    requires HasServedLine(env, sid)
    ensures HasKey(ImportOne(env, bootAt, p, sid, s).supplies, sid)
  {
    if HasKey(p.supplies, sid) {
      ImportOnePreserves(env, bootAt, p, sid, s);
      PreservesHasKey(p, ImportOne(env, bootAt, p, sid, s), sid);
    }
  }

  lemma PreservesHasKey(p1: Progress, p2: Progress, k: string)
    requires Preserves(p1, p2) && HasKey(p1.supplies, k)
    ensures HasKey(p2.supplies, k)
  {
  }

  /** The active pass looks an order up by name first, then by external code. */
  function FindSupplyOrder(l: Ledger, number: string): (r: Option<nat>)
    ensures r.Some? ==> r.value < |l.docs| && l.docs[r.value].kind == CustomerOrder
    ensures r.None? <==> FindByName(l, CustomerOrder, OrderKey(number)).None? && FindByCode(l, CustomerOrder, OrderKey(number)).None?
    ensures FindByName(l, CustomerOrder, OrderKey(number)).Some? ==> r == FindByName(l, CustomerOrder, OrderKey(number))
  {
    var byName := FindByName(l, CustomerOrder, OrderKey(number));
    if byName.Some? then byName else FindByCode(l, CustomerOrder, OrderKey(number))
  }

  /** An order reference that is valid in `l`. */
  predicate IsOrder(l: Ledger, o: nat) {
    o < |l.docs| && l.docs[o].kind == CustomerOrder
  }

  /** `l2` is `l1` with documents appended and none edited. */
  predicate AppendsOnly(l1: Ledger, l2: Ledger) {
    |l1.docs| <= |l2.docs| && l2.docs[..|l1.docs|] == l1.docs
  }

  /** The plan-date step: the order's planned moment follows the supply's
      plan date while the Demand is not recorded. */
  function PlanStep(env: FbwEnv, l: Ledger, o: nat, s: Supply, info: SupplyInfo): (r: Ledger)
    requires IsOrder(l, o)
    ensures |r.docs| == |l.docs| && Extends(l, r)
    ensures LedgerOk(l) ==> LedgerOk(r)
    ensures info.demand ==> r == l
    ensures !info.demand ==> r == UpdatePlannedDate(l, o, PlanDate(s), env.fcfg.tzOffset)
  {
    if info.demand then l else UpdatePlannedDate(l, o, PlanDate(s), env.fcfg.tzOffset)
  }

  /** The Move step: on status 3, while no Move is recorded, the Move filed
      under `FBW:{order name}:MOVE` is ensured. */
  function MoveStep(env: FbwEnv, l: Ledger, o: nat, sid: string, s: Supply, info: SupplyInfo, number: string): (r: Ledger)
    requires IsOrder(l, o)
    ensures Extends(l, r) && AppendsOnly(l, r) && |r.docs| <= |l.docs| + 1
    ensures LedgerOk(l) ==> LedgerOk(r)
    ensures s.statusId == Some(3) && !info.move ==> FindByCode(r, Move, MoveCode(l.docs[o].name)).Some?
    ensures !(s.statusId == Some(3) && !info.move) ==> r == l
    ensures |r.docs| > |l.docs| ==> r.docs[|l.docs|].kind == Move
  {
    if s.statusId == Some(3) && !info.move then
      var code := MoveCode(l.docs[o].name);
      EnsureMove(env.fcfg, env.catalog, ApplyOk(env, code), l, o, code, GoodsOf(env, sid), number).0
    else l
  }

  /** The Demand step: on status 5, while no Demand is recorded, the Demand
      filed under `FBW:{order name}:DEMAND` is ensured. */
  function DemandStep(env: FbwEnv, l: Ledger, o: nat, sid: string, s: Supply, info: SupplyInfo, number: string): (r: Ledger)
    requires IsOrder(l, o)
    ensures Extends(l, r) && AppendsOnly(l, r) && |r.docs| <= |l.docs| + 1
    ensures LedgerOk(l) ==> LedgerOk(r)
    ensures s.statusId == Some(5) && !info.demand ==> FindByCode(r, Demand, DemandCode(l.docs[o].name)).Some?
    ensures !(s.statusId == Some(5) && !info.demand) ==> r == l
    ensures |r.docs| > |l.docs| ==> r.docs[|l.docs|].kind == Demand
  {
    if s.statusId == Some(5) && !info.demand then
      var code := DemandCode(l.docs[o].name);
      EnsureDemand(env.fcfg, env.catalog, ApplyOk(env, code), l, o, code, GoodsOf(env, sid), number).0
    else l
  }

  /** The documents one active supply touches: the plan date while its
      Demand is not recorded, then the Move on status 3 and the Demand on
      status 5, each only while its flag is down. */
  function ActiveDocs(env: FbwEnv, l: Ledger, o: nat, sid: string, s: Supply, info: SupplyInfo, number: string): (r: Ledger)
    requires IsOrder(l, o)
    ensures Extends(l, r) && |r.docs| <= |l.docs| + 1
    ensures LedgerOk(l) ==> LedgerOk(r)
    ensures info.demand ==> AppendsOnly(l, r)
    ensures s.statusId == Some(3) && !info.move ==> FindByCode(r, Move, MoveCode(l.docs[o].name)).Some?
    ensures s.statusId == Some(5) && !info.demand ==> FindByCode(r, Demand, DemandCode(l.docs[o].name)).Some?
  {
    var l1 := PlanStep(env, l, o, s, info);
    assert SameIdentity(l.docs[o], l1.docs[o]);
    var l2 := MoveStep(env, l1, o, sid, s, info, number);
    assert SameIdentity(l1.docs[o], l2.docs[o]);
    var l3 := DemandStep(env, l2, o, sid, s, info, number);
    ExtendsTrans(l, l1, l2);
    ExtendsTrans(l, l2, l3);
    assert s.statusId == Some(3) && !info.move ==> FindByCode(l3, Move, MoveCode(l.docs[o].name)).Some? by {
      if s.statusId == Some(3) && !info.move {
        FoundByCodeStays(l2, l3, Move, MoveCode(l.docs[o].name));
      }
    }
    assert info.demand ==> AppendsOnly(l, l3) by {
      if info.demand {
        assert l3.docs[..|l.docs|] == l2.docs[..|l1.docs|][..|l.docs|];
      }
    }
    l3
  }

  /** The flags after one active step: each raised when its status is seen. */
  function NextInfo(info: SupplyInfo, s: Supply): (r: SupplyInfo)
    ensures r.number == info.number && r.orderId == info.orderId
    ensures r.move <==> info.move || s.statusId == Some(3)
    ensures r.demand <==> info.demand || s.statusId == Some(5)
  {
    info.(move := info.move || s.statusId == Some(3), demand := info.demand || s.statusId == Some(5))
  }

  /** The number an active supply goes by: the recorded one, else its id. */
  function ActiveNumber(info: SupplyInfo, s: Supply): string {
    Strip(Or(info.number, IdOrEmpty(s.supplyId)))
  }

  /** The active pass acts on `sid`: it is recorded, listed this run, has a
      number and its order is found. */
  predicate Acts(byId: Dict<Supply>, p: Progress, sid: string) {
    && HasKey(p.supplies, sid) && HasKey(byId, sid)
    && ActiveNumber(Get(p.supplies, sid).value, Get(byId, sid).value) != ""
    && FindSupplyOrder(p.ledger, ActiveNumber(Get(p.supplies, sid).value, Get(byId, sid).value)).Some?
  }

  /** A step that extends the ledger and changes at most the record of the
      recorded supply `sid`, keeping its number and order and raising
      flags only, keeps everything `Preserves` asks for. */
  lemma RaisePreserves(p: Progress, r: Progress, sid: string)
    requires HasKey(p.supplies, sid) && HasKey(r.supplies, sid)
    requires Extends(p.ledger, r.ledger) && (LedgerOk(p.ledger) ==> LedgerOk(r.ledger))
    requires forall k :: k != sid ==> Get(r.supplies, k) == Get(p.supplies, k)
    requires var a, b := Get(p.supplies, sid).value, Get(r.supplies, sid).value;
      a.number == b.number && a.orderId == b.orderId && (a.move ==> b.move) && (a.demand ==> b.demand)
    ensures Preserves(p, r)
  {
    assert RecordsOk(p) ==> RecordsOk(r) by {
      if RecordsOk(p) {
        forall k | HasKey(r.supplies, k)
          ensures Get(r.supplies, k).value.orderId < |r.ledger.docs|
          ensures r.ledger.docs[Get(r.supplies, k).value.orderId].kind == CustomerOrder
        {
          var id := Get(p.supplies, k).value.orderId;
          assert SameIdentity(p.ledger.docs[id], r.ledger.docs[id]);
        }
      }
    }
  }

  /** The active pass for one recorded supply `sid`: nothing unless it
      `Acts` on it. Otherwise, with `info` its record, `s` its listing and
      `name` its order's name: the flags go up with the statuses seen,
      status 3 leaves a Move filed under `MoveCode(name)` and status 5 a
      Demand filed under `DemandCode(name)` (each only while its flag was
      down), and once the Demand is recorded no existing document changes. */
  function ActiveOne(env: FbwEnv, byId: Dict<Supply>, p: Progress, sid: string): (r: Progress)
    ensures forall k :: k != sid ==> Get(r.supplies, k) == Get(p.supplies, k)
    ensures forall k :: HasKey(r.supplies, k) <==> HasKey(p.supplies, k)
    ensures Extends(p.ledger, r.ledger) && (LedgerOk(p.ledger) ==> LedgerOk(r.ledger))
    ensures |r.ledger.docs| <= |p.ledger.docs| + 1
    ensures !Acts(byId, p, sid) ==> r == p
    ensures Acts(byId, p, sid) ==>
      var info, s := Get(p.supplies, sid).value, Get(byId, sid).value;
      var name := p.ledger.docs[FindSupplyOrder(p.ledger, ActiveNumber(info, s)).value].name;
      && Get(r.supplies, sid) == Some(NextInfo(info, s))
      && (s.statusId == Some(3) && !info.move ==> FindByCode(r.ledger, Move, MoveCode(name)).Some?)
      && (s.statusId == Some(5) && !info.demand ==> FindByCode(r.ledger, Demand, DemandCode(name)).Some?)
      && (info.demand ==> AppendsOnly(p.ledger, r.ledger))
  {
    var info := Get(p.supplies, sid);
    var s := Get(byId, sid);
    if info.None? || s.None? then p
    else
      var number := ActiveNumber(info.value, s.value);
      if number == "" then p
      else
        var o := FindSupplyOrder(p.ledger, number);
        if o.None? then p
        else
          var l := ActiveDocs(env, p.ledger, o.value, sid, s.value, info.value, number);
          var m := Put(p.supplies, sid, NextInfo(info.value, s.value));
          assert forall k :: HasKey(m, k) <==> HasKey(p.supplies, k) by {
            forall k {
              PutHasKey(p.supplies, sid, NextInfo(info.value, s.value), k);
            }
          }
          Progress(l, m)
  }

  lemma ActiveOnePreserves(env: FbwEnv, byId: Dict<Supply>, p: Progress, sid: string)
    ensures Preserves(p, ActiveOne(env, byId, p, sid))
  {
    var r := ActiveOne(env, byId, p, sid);
    if r != p {
      RaisePreserves(p, r, sid);
    }
  }

  /** The active pass: `ActiveOne` over the supplies recorded when it began. */
  function ActivePass(env: FbwEnv, byId: Dict<Supply>, p: Progress, keys: seq<string>): (r: Progress)
    ensures Preserves(p, r)
    ensures forall k :: HasKey(r.supplies, k) <==> HasKey(p.supplies, k)
    decreases |keys|
  {
    if |keys| == 0 then p
    else
      var p1 := ActiveOne(env, byId, p, keys[0]);
      ActiveOnePreserves(env, byId, p, keys[0]);
      var r := ActivePass(env, byId, p1, keys[1..]);
      PreservesTrans(p, p1, r);
      r
  }

  /** `boot_at`: the bootstrap instant, or now when it does not parse. */
  function BootAt(st: FbwState, now: int): int {
    if st.bootstrappedAt.At? then st.bootstrappedAt.instant else now
  }

  /** One run: the bootstrap on the first one, else the two passes. */
  function SupplyRun(env: FbwEnv, st: FbwState, l: Ledger, listed: seq<Supply>): (r: (FbwState, Ledger))
    ensures st.bootstrappedAt == Absent ==> r == (FbwState(At(env.now), st.supplies), l)
    ensures st.bootstrappedAt != Absent ==> r.0.bootstrappedAt == st.bootstrappedAt
    ensures Preserves(Progress(l, st.supplies), Progress(r.1, r.0.supplies))
  {
    if st.bootstrappedAt == Absent then (FbwState(At(env.now), st.supplies), l)
    else
      var p0 := Progress(l, st.supplies);
      var p1 := ImportPass(env, BootAt(st, env.now), p0, IndexSupplies(listed));
      ImportFromPreserves(env, BootAt(st, env.now), p0, IndexSupplies(listed), 0);
      var p2 := ActivePass(env, IndexSupplies(listed), p1, Keys(p1.supplies));
      PreservesTrans(p0, p1, p2);
      (FbwState(st.bootstrappedAt, p2.supplies), p2.ledger)
  }

  /** The last listing of an id is unique. */
  lemma LastListedUnique(listed: seq<Supply>, k: string, s1: Supply, s2: Supply)
    requires LastListed(listed, k, s1) && LastListed(listed, k, s2)
    ensures s1 == s2
  {
    var i1 :| 0 <= i1 < |listed| && listed[i1] == s1 && SupplyKey(s1) == Some(k) &&
      forall j :: i1 < j < |listed| ==> SupplyKey(listed[j]) != Some(k);
    var i2 :| 0 <= i2 < |listed| && listed[i2] == s2 && SupplyKey(s2) == Some(k) &&
      forall j :: i2 < j < |listed| ==> SupplyKey(listed[j]) != Some(k);
    assert !(i1 < i2) && !(i2 < i1);
  }

  /** Supplies created at or before the bootstrap are never imported: an id
      the state does not know, all of whose listings predate the bootstrap,
      is still unknown after the run. */
  lemma OldSuppliesNeverImported(env: FbwEnv, st: FbwState, l: Ledger, listed: seq<Supply>, k: string)
    requires st.bootstrappedAt != Absent && !HasKey(st.supplies, k)
    requires forall i :: 0 <= i < |listed| && SupplyKey(listed[i]) == Some(k) ==>
      !CreatedAfter(listed[i], BootAt(st, env.now))
    ensures !HasKey(SupplyRun(env, st, l, listed).0.supplies, k)
  {
    var byId := IndexSupplies(listed);
    var bootAt := BootAt(st, env.now);
    var p1 := ImportPass(env, bootAt, Progress(l, st.supplies), byId);
    IndexSuppliesEntries(listed);
    assert forall i :: 0 <= i < |byId| && byId[i].0 == k ==> !CreatedAfter(byId[i].1, bootAt) by {
      forall i | 0 <= i < |byId| && byId[i].0 == k
        ensures !CreatedAfter(byId[i].1, bootAt)
      {
        var j :| 0 <= j < |listed| && listed[j] == byId[i].1;
      }
    }
    if HasKey(p1.supplies, k) {
      ImportFromNew(env, bootAt, Progress(l, st.supplies), byId, 0, k);
      assert false;
    }
  }

  /** A listed supply is recorded by the run when its last listing was
      created after the bootstrap, has a number, and has a line the catalog
      can serve. */
  lemma NewSupplyRecorded(env: FbwEnv, st: FbwState, l: Ledger, listed: seq<Supply>, k: string, s: Supply)
    requires st.bootstrappedAt != Absent && LastListed(listed, k, s)
    requires CreatedAfter(s, BootAt(st, env.now)) && SupplyNumber(s) != ""
    requires HasServedLine(env, k)
    ensures HasKey(SupplyRun(env, st, l, listed).0.supplies, k)
  {
    var byId := IndexSupplies(listed);
    var bootAt := BootAt(st, env.now);
    var i :| 0 <= i < |listed| && listed[i] == s && SupplyKey(s) == Some(k) &&
      forall j :: i < j < |listed| ==> SupplyKey(listed[j]) != Some(k);
    IndexSuppliesHas(listed, k);
    IndexSuppliesLast(listed, k);
    LastListedUnique(listed, k, s, Get(byId, k).value);
    var n := IndexOf(byId, k).value;
    assert byId[n] == (k, s);
    ImportFromRecords(env, bootAt, Progress(l, st.supplies), byId, 0, n);
  }
}

=== FILE: supply_text.dfy ===
/** The FBW string helpers: plan-date normalisation, the order comment and
    the article of a supply line. */
module SupplyText {
  import opened Text

  /** `YYYY-MM-DD`: ten characters with dashes at positions 4 and 7. */
  predicate IsDateOnly(s: string) {
    |s| == 10 && s[4] == '-' && s[7] == '-'
  }

  /** The text ends in "Z", or its last six characters hold a sign. */
  predicate MarksOffset(s: string) {
    EndsWith(s, "Z") || HasChar(Last(s, 6), '+') || HasChar(Last(s, 6), '-')
  }

  /** `_normalize_moment`: a marketplace plan date as an ISO moment with an
      offset. A date gets midnight and `tz`; "Z" becomes "+00:00"; a time
      without an offset gets `tz`; anything else is kept. */
  function NormalizeMoment(raw: string, tz: string): (r: string)
    ensures AllSpace(raw) ==> r == ""
    ensures var s := Strip(raw);
      IsDateOnly(s) ==> r == s + "T00:00:00" + tz
    ensures var s := Strip(raw);
      !IsDateOnly(s) && MarksOffset(s) ==> |r| >= |s| && !HasChar(r, 'Z')
    ensures var s := Strip(raw);
      !IsDateOnly(s) && MarksOffset(s) ==> r == ReplaceChar(s, 'Z', "+00:00")
    ensures var s := Strip(raw);
      !IsDateOnly(s) && MarksOffset(s) && !HasChar(s, 'Z') ==> r == s
    ensures var s := Strip(raw);
      !IsDateOnly(s) && !MarksOffset(s) && HasChar(s, 'T') ==> r == s + tz
    ensures var s := Strip(raw);
      !IsDateOnly(s) && !MarksOffset(s) && !HasChar(s, 'T') ==> r == s
  {
    var s := Strip(raw);
    if s == "" then s
    else if IsDateOnly(s) then s + "T00:00:00" + tz
    else if MarksOffset(s) then ZuluReplaced(s); ReplaceChar(s, 'Z', "+00:00")
    else if HasChar(s, 'T') then s + tz
    else s
  }

  lemma ZuluReplaced(s: string)
    ensures var r := ReplaceChar(s, 'Z', "+00:00");
      |r| >= |s| && !HasChar(r, 'Z') && (!HasChar(s, 'Z') ==> r == s)
  {
    var rep := "+00:00";
    assert forall i :: 0 <= i < |rep| ==> rep[i] != 'Z';
  }

  /** A UTC moment written with a trailing "Z" gets the offset "+00:00" in
      its place. */
  lemma NormalizeMomentZulu(raw: string, tz: string, x: string)
    requires Strip(raw) == x + "Z" && !HasChar(x, 'Z') && !IsDateOnly(x + "Z")
    ensures NormalizeMoment(raw, tz) == x + "+00:00"
  {
    var s := x + "Z";
    assert s[|s| - 1..] == "Z";
    assert MarksOffset(s);
    ReplaceCharConcat(x, "Z", 'Z', "+00:00");
    ReplaceCharSingle('Z', 'Z', "+00:00");
    assert ReplaceChar(x, 'Z', "+00:00") == x;
  }

  /** With an offset that has no surrounding blanks, the normalised moment has
      none either, so reading it back through `strip()` gives it unchanged. */
  lemma NormalizeMomentTrimmed(raw: string, tz: string)
    requires Trimmed(tz)
    ensures Trimmed(NormalizeMoment(raw, tz))
  {
    var s := Strip(raw);
    var r := NormalizeMoment(raw, tz);
    if s == "" {
      assert r == s;
    } else if IsDateOnly(s) {
      var midnight := "T00:00:00";
      assert r == s + (midnight + tz);
      assert Trimmed(midnight);
      TrimmedConcat(midnight, tz);
      TrimmedConcat(s, midnight + tz);
    } else if MarksOffset(s) {
      assert r == ReplaceChar(s, 'Z', "+00:00");
      ReplaceCharEnds(s, 'Z', "+00:00");
      assert !IsSpace('+') && !IsSpace('0');
    } else if HasChar(s, 'T') {
      assert r == s + tz;
      TrimmedConcat(s, tz);
    } else {
      assert r == s;
    }
  }

  /** `_comment`: "number - dest", or just the number when there is no
      destination; both parts stripped. */
  function Comment(number: string, dest: string): (r: string)
    ensures AllSpace(dest) ==> r == Strip(number)
    ensures !AllSpace(dest) ==>
      && |r| == |Strip(number)| + 3 + |Strip(dest)|
      && StartsWith(r, Strip(number))
      && r[|Strip(number)|..|Strip(number)| + 3] == " - "
      && r[|Strip(number)| + 3..] == Strip(dest)
  {
    var n, d := Strip(number), Strip(dest);
    if d != "" then n + " - " + d else n
  }

  /** A supply line as the marketplace lists it: the three places an article
      may be given, and the quantity (already a number). */
  datatype Good = Good(article: string, vendorCode: string, supplierArticle: string, qty: int)

  /** `_extract_article`: the first of the three fields that is non-empty,
      stripped. A field of blanks is still "non-empty" and wins. */
  function ExtractGoodArticle(g: Good): (r: string)
    ensures g.article != "" ==> r == Strip(g.article)
    ensures g.article == "" && g.vendorCode != "" ==> r == Strip(g.vendorCode)
    ensures g.article == "" && g.vendorCode == "" ==> r == Strip(g.supplierArticle)
    ensures Trimmed(r)
  {
    Strip(Or(Or(g.article, g.vendorCode), g.supplierArticle))
  }
}

=== FILE: text.dfy ===
/** The handful of Python `str` operations the integration relies on, on `seq<char>`.

    Each function is written the way Python defines it and carries the
    characterisation a caller needs (what was removed, what was kept). */
module Text {
  import opened Wrappers

  /** The characters `str.strip()` removes: those for which `str.isspace()`
      holds, i.e. U+0009..U+000D, U+001C..U+0020, U+0085, U+00A0, U+1680,
      U+2000..U+200A, U+2028, U+2029, U+202F, U+205F and U+3000. */
  predicate IsSpace(c: char) {
    || '\t' <= c <= '\r'
    || '\U{1C}' <= c <= ' '
    || c == '\U{85}' || c == '\U{A0}' || c == '\U{1680}'
    || '\U{2000}' <= c <= '\U{200A}'
    || c == '\U{2028}' || c == '\U{2029}' || c == '\U{202F}' || c == '\U{205F}' || c == '\U{3000}'
  }

  predicate AllSpace(s: string) {
    forall i :: 0 <= i < |s| ==> IsSpace(s[i])
  }

  /** No whitespace at either end: what `strip()` leaves alone. */
  predicate Trimmed(t: string) {
    t == [] || (!IsSpace(t[0]) && !IsSpace(t[|t| - 1]))
  }

  /** Python's truthiness-based `a or b` on two strings. */
  function Or(a: string, b: string): string {
    if a != "" then a else b
  }

  /** `s.lstrip()`: drops leading whitespace only. */
  function TrimStart(s: string): (r: string)
    ensures |r| <= |s|
    ensures forall k :: 0 <= k < |r| ==> r[k] == s[|s| - |r| + k]
    ensures forall k {:trigger IsSpace(s[k])} :: 0 <= k < |s| - |r| ==> IsSpace(s[k])
    ensures r == [] || !IsSpace(r[0])
  {
    if |s| > 0 && IsSpace(s[0]) then TrimStart(s[1..]) else s
  }

  /** `s.rstrip()`: drops trailing whitespace only. */
  function TrimEnd(s: string): (r: string)
    ensures |r| <= |s|
    ensures forall k {:trigger r[k]} :: 0 <= k < |r| ==> r[k] == s[k]
    ensures forall k {:trigger IsSpace(s[k])} :: |r| <= k < |s| ==> IsSpace(s[k])
    ensures r == [] || !IsSpace(r[|r| - 1])
  {
    if |s| > 0 && IsSpace(s[|s| - 1]) then TrimEnd(s[..|s| - 1]) else s
  }

  /** `r` is `s` with a run of whitespace removed from each end. */
  predicate CutFrom(s: string, r: string) {
    exists i, j :: 0 <= i <= j <= |s| && r == s[i..j] && AllSpace(s[..i]) && AllSpace(s[j..])
  }

  /** `s.strip()`: the text between the leading and the trailing whitespace. */
  function Strip(s: string): (r: string)
    ensures |r| <= |s|
    ensures Trimmed(r)
    ensures r == [] <==> AllSpace(s)
  {
    var t := TrimStart(s);
    StripFacts(s, t, TrimEnd(t));
    TrimEnd(t)
  }

  lemma StripFacts(s: string, t: string, r: string)
    requires t == TrimStart(s) && r == TrimEnd(t)
    ensures Trimmed(r)
    ensures r == [] <==> AllSpace(s)
  {
    if r != [] {
      assert r[0] == t[0];
      assert !AllSpace(s) by {
        assert s[|s| - |t|] == t[0];
      }
    }
  }

  /** What `strip()` keeps is its input with a run of whitespace cut from
      each end, and nothing else changed. Kept apart from `Strip`'s own
      contract so that every caller of `Strip` does not carry it. */
  lemma StripCuts(s: string)
    ensures CutFrom(s, Strip(s))
  {
    var t := TrimStart(s);
    var r := TrimEnd(t);
    assert Strip(s) == r;
    TrimStartCut(s);
    TrimEndCut(t);
    CutCompose(s, t, r);
  }

  /** `lstrip()` keeps a suffix and removes only whitespace before it. */
  lemma TrimStartCut(s: string)
    ensures var t := TrimStart(s);
      s[|s| - |t|..] == t && AllSpace(s[..|s| - |t|])
  {
    var t := TrimStart(s);
    assert s[|s| - |t|..] == t;
  }

  /** `rstrip()` keeps a prefix and removes only whitespace after it. */
  lemma TrimEndCut(t: string)
    ensures var r := TrimEnd(t);
      t[..|r|] == r && AllSpace(t[|r|..])
  {
    var r := TrimEnd(t);
    assert t[..|r|] == r;
  }

  /** Cutting whitespace off the front and then off the back is one cut. */
  lemma CutCompose(s: string, t: string, r: string)
    requires |t| <= |s| && s[|s| - |t|..] == t && AllSpace(s[..|s| - |t|])
    requires |r| <= |t| && t[..|r|] == r && AllSpace(t[|r|..])
    ensures CutFrom(s, r)
  {
    var i := |s| - |t|;
    var j := i + |r|;
    assert s[i..j] == t[..|r|];
    assert s[j..] == t[|r|..];
  }

  /** A string with no surrounding whitespace is its own `strip()`. */
  lemma StripNoop(s: string)
    requires Trimmed(s)
    ensures Strip(s) == s
  {
    var t := TrimStart(s);
    assert |t| == |s|;
    assert t == s;
    var r := TrimEnd(t);
    assert |r| == |t|;
    assert r == t;
  }

  /** Joining two unpadded strings, the first non-empty, leaves no padding. */
  lemma TrimmedConcat(a: string, b: string)
    requires Trimmed(a) && Trimmed(b) && a != []
    ensures Trimmed(a + b)
  {
    assert (a + b)[0] == a[0];
    if b != [] {
      assert (a + b)[|a + b| - 1] == b[|b| - 1];
    } else {
      assert a + b == a;
    }
  }

  /** `s.rstrip(c)`: drops every trailing occurrence of `c`. */
  function RStripChar(s: string, c: char): (r: string)
    ensures |r| <= |s|
    ensures forall k {:trigger r[k]} :: 0 <= k < |r| ==> r[k] == s[k]
    ensures forall k :: |r| <= k < |s| ==> s[k] == c
    ensures r == [] || r[|r| - 1] != c
  {
    if |s| > 0 && s[|s| - 1] == c then RStripChar(s[..|s| - 1], c) else s
  }

  /** `s.lstrip(c)`: drops every leading occurrence of `c`. */
  function LStripChar(s: string, c: char): (r: string)
    ensures |r| <= |s|
    ensures forall k {:trigger r[k]} :: 0 <= k < |r| ==> r[k] == s[|s| - |r| + k]
    ensures forall k {:trigger s[k]} :: 0 <= k < |s| - |r| ==> s[k] == c
    ensures r == [] || r[0] != c
  {
    if |s| > 0 && s[0] == c then LStripChar(s[1..], c) else s
  }

  predicate StartsWith(s: string, prefix: string) {
    |prefix| <= |s| && s[..|prefix|] == prefix
  }

  /** A string is its prefix followed by the rest. */
  lemma PrefixRejoin(s: string, prefix: string)
    requires StartsWith(s, prefix)
    ensures prefix + s[|prefix|..] == s
  {
    assert s == s[..|prefix|] + s[|prefix|..];
  }

  predicate EndsWith(s: string, suffix: string) {
    |suffix| <= |s| && s[|s| - |suffix|..] == suffix
  }

  /** `s[-n:]` for `n >= 0`: the last `n` characters, or all of `s` when shorter. */
  function Last(s: string, n: nat): (r: string)
    ensures |r| == if |s| < n then |s| else n
    ensures EndsWith(s, r)
  {
    if |s| <= n then s else s[|s| - n..]
  }

  /** Does `needle` occur in `s` at position `i`? */
  predicate OccursAt(s: string, needle: string, i: int) {
    0 <= i && i + |needle| <= |s| && s[i..i + |needle|] == needle
  }

  /** `s.find(needle)`, with `None` for Python's `-1`: the first position of `needle`. */
  function Find(s: string, needle: string): (r: Option<nat>)
    ensures r.Some? ==> OccursAt(s, needle, r.value)
    ensures r.Some? ==> forall j :: 0 <= j < r.value ==> !OccursAt(s, needle, j)
    ensures r.None? ==> forall j :: 0 <= j <= |s| ==> !OccursAt(s, needle, j)
  {
    FindFrom(s, needle, 0)
  }

  function FindFrom(s: string, needle: string, from: nat): (r: Option<nat>)
    requires from <= |s| + 1
    requires forall j :: 0 <= j < from ==> !OccursAt(s, needle, j)
    ensures r.Some? ==> from <= r.value && OccursAt(s, needle, r.value)
    ensures r.Some? ==> forall j :: 0 <= j < r.value ==> !OccursAt(s, needle, j)
    ensures r.None? ==> forall j :: 0 <= j <= |s| ==> !OccursAt(s, needle, j)
    decreases |s| + 1 - from
  {
    if from + |needle| > |s| then None
    else if s[from..from + |needle|] == needle then Some(from)
    else FindFrom(s, needle, from + 1)
  }

  /** `needle in s`. */
  predicate Contains(s: string, needle: string) {
    Find(s, needle).Some?
  }

  /** `c in s` for one character. */
  predicate HasChar(s: string, c: char) {
    exists i :: 0 <= i < |s| && s[i] == c
  }

  /** `s.split(sep)[-1]` for a one-character separator: the text after the last `sep`. */
  function LastSegment(s: string, sep: char): (r: string)
    ensures |r| <= |s|
    ensures forall k :: 0 <= k < |r| ==> r[k] == s[|s| - |r| + k]
    ensures forall i :: 0 <= i < |r| ==> r[i] != sep
    ensures |r| < |s| ==> s[|s| - |r| - 1] == sep
  {
    if |s| == 0 then s
    else if s[|s| - 1] == sep then []
    else LastSegment(s[..|s| - 1], sep) + [s[|s| - 1]]
  }

  /** A character other than the separator extends the last segment. */
  lemma LastSegmentSnoc(u: string, d: char, sep: char)
    requires d != sep
    ensures LastSegment(u + [d], sep) == LastSegment(u, sep) + [d]
  {
    assert (u + [d])[..|u|] == u;
  }

  /** The text after a separator that is followed by no other separator is
      the last segment. */
  lemma {:induction false} LastSegmentAfterSep(a: string, sep: char, tail: string)
    requires forall i :: 0 <= i < |tail| ==> tail[i] != sep
    ensures LastSegment(a + [sep] + tail, sep) == tail
    decreases |tail|
  {
    var u := a + [sep];
    if |tail| == 0 {
      assert u + tail == u;
      assert u[|u| - 1] == sep;
    } else {
      var init, last := tail[..|tail| - 1], tail[|tail| - 1];
      assert tail == init + [last];
      assert u + tail == (u + init) + [last];
      LastSegmentAfterSep(a, sep, init);
      LastSegmentSnoc(u + init, last, sep);
    }
  }

  /** The last segment is a suffix, preceded by the separator unless it is
      the whole string. */
  lemma LastSegmentShape(s: string, sep: char)
    ensures var r := LastSegment(s, sep);
      && EndsWith(s, r)
      && (|r| < |s| ==> EndsWith(s, [sep] + r))
  {
    var r := LastSegment(s, sep);
    assert s[|s| - |r|..] == r;
    if |r| < |s| {
      assert s[|s| - |r| - 1..] == [sep] + r;
    }
  }

  /** `s.replace(c, by)` for a one-character pattern. */
  function ReplaceChar(s: string, c: char, rep: string): (r: string)
    ensures (forall i :: 0 <= i < |rep| ==> rep[i] != c) ==> forall i :: 0 <= i < |r| ==> r[i] != c
    ensures (forall i :: 0 <= i < |s| ==> s[i] != c) ==> r == s
    ensures |rep| >= 1 ==> |r| >= |s|
  {
    if |s| == 0 then []
    else (if s[0] == c then rep else [s[0]]) + ReplaceChar(s[1..], c, rep)
  }

  /** Replacing in a concatenation replaces in each part. */
  lemma {:induction false} ReplaceCharConcat(a: string, b: string, c: char, rep: string)
    ensures ReplaceChar(a + b, c, rep) == ReplaceChar(a, c, rep) + ReplaceChar(b, c, rep)
    decreases |a|
  {
    if |a| == 0 {
      assert a + b == b;
    } else {
      assert (a + b)[0] == a[0];
      assert (a + b)[1..] == a[1..] + b;
      ReplaceCharConcat(a[1..], b, c, rep);
    }
  }

  /** One character is replaced by `rep` when it is `c`, and kept otherwise.
      With `ReplaceCharConcat` this fixes the result on every input. */
  lemma ReplaceCharSingle(d: char, c: char, rep: string)
    ensures ReplaceChar([d], c, rep) == if d == c then rep else [d]
  {
    assert [d][1..] == [];
  }

  /** The ends of a replacement: the first and last characters come from the
      first and last characters of `s`, or from `rep` where those were `c`. */
  lemma {:induction false} ReplaceCharEnds(s: string, c: char, rep: string)
    requires |s| > 0 && |rep| > 0
    ensures var r := ReplaceChar(s, c, rep);
      && |r| > 0
      && r[0] == (if s[0] == c then rep[0] else s[0])
      && r[|r| - 1] == (if s[|s| - 1] == c then rep[|rep| - 1] else s[|s| - 1])
    decreases |s|
  {
    var head := if s[0] == c then rep else [s[0]];
    var rest := ReplaceChar(s[1..], c, rep);
    assert ReplaceChar(s, c, rep) == head + rest;
    if |s| > 1 {
      ReplaceCharEnds(s[1..], c, rep);
      assert s[1..][|s[1..]| - 1] == s[|s| - 1];
    }
  }

  predicate IsDigit(ch: char) {
    '0' <= ch <= '9'
  }

  function DigitChar(d: nat): (ch: char)
    requires d < 10
    ensures IsDigit(ch)
  {
    ['0', '1', '2', '3', '4', '5', '6', '7', '8', '9'][d]
  }

  function DigitValue(ch: char): (d: nat)
    requires IsDigit(ch)
    ensures d < 10
  {
    (ch as int - '0' as int) as nat
  }

  /** `str(n)` for a non-negative integer: decimal digits, no leading zero. */
  function NatToString(n: nat): (r: string)
    ensures |r| > 0
    ensures forall i :: 0 <= i < |r| ==> IsDigit(r[i])
    decreases n
  {
    if n < 10 then [DigitChar(n)] else NatToString(n / 10) + [DigitChar(n % 10)]
  }

  /** `str(n)` for any integer: a minus sign before the digits of `-n` when negative. */
  function IntToString(n: int): string {
    if n >= 0 then NatToString(n) else "-" + NatToString(-n)
  }

  /** `int(s)` on a string of decimal digits. */
  function ParseDigits(s: string): nat
    requires forall i :: 0 <= i < |s| ==> IsDigit(s[i])
  {
    if |s| == 0 then 0 else 10 * ParseDigits(s[..|s| - 1]) + DigitValue(s[|s| - 1])
  }

  /** `int(str(n)) == n`: the decimal rendering loses nothing. */
  lemma {:induction false} ParseNatToString(n: nat)
    ensures ParseDigits(NatToString(n)) == n
    decreases n
  {
    var r := NatToString(n);
    if n < 10 {
      assert DigitValue(DigitChar(n)) == n;
    } else {
      ParseNatToString(n / 10);
      assert r[..|r| - 1] == NatToString(n / 10);
      assert DigitValue(DigitChar(n % 10)) == n % 10;
    }
  }

  /** Distinct numbers have distinct decimal renderings. */
  lemma NatToStringInjective(a: nat, b: nat)
    ensures NatToString(a) == NatToString(b) <==> a == b
  {
    ParseNatToString(a);
    ParseNatToString(b);
  }
}

=== FILE: wrappers.dfy ===
/** Failure-compatible helper types shared by every module of the model. */
module Wrappers {

  /** A value that may be absent: the model's stand-in for Python's `None`. */
  datatype Option<+T> = None | Some(value: T) {

    /** The wrapped value, or `default` when there is none. */
    function GetOr(default: T): T {
      match this
      case Some(v) => v
      case None => default
    }
  }
}
